=== FILE: README.md ===
# Admin synchronisation routes of the tournament pool app

This project models the admin API routes under `app/api/admin/` that keep the pool
app's `games` and `teams` tables in step with the sports data providers. It models
seven routes:

- **import-schedule** upserts the provider's tournament schedule into `games`, keyed by
  `sportsdata_game_id`.
- **sync-bracket** links bracket positions (round, region, slot) to provider game ids.
- **sync-results** writes winners reported by Highlightly, found by `external_game_id`.
- **sync-logos** writes ESPN logos and ids onto `teams`. It matches normalised team names,
  using a table of overrides and two spelling fallbacks.
- **sync-games** links games between two mapped teams to their provider id and writes
  closed games' winners.
- **link-games** groups unlinked games by date and fetches each date once. It matches each
  game on the pair of provider team ids.
- **sync-scores** writes, for today and yesterday, the winner of every Final game whose
  row is already linked.

Module layout:

- `Js` (js.dfy) holds the JavaScript semantics the routes lean on:
  - `??`, truthiness, `Number`, `String`;
  - ASCII `toLowerCase`, `trim`, `includes`, `replace`;
  - decimal number text, with its round trips.
- `Store` (store.dfy) holds the rows and the lookups `maybeSingle` performs. It also holds
  the keyed upsert and a `Db` class whose fields the routes update.
- There is one module per route. In each:
  - the route's loops are methods on the `Db` class;
  - each method is proved equal to a fold function over the provider's payload;
  - lemmas about the fold state what the route promises: counters, which rows change and
    how, and what a second run does.

Some behaviours worth knowing, each proved:

- **Tie rules differ.** sync-games counts a closed tie and writes no winner. sync-scores
  gives a tie to the away team (`SyncScores.TieRulesDisagree`).
- **Round numbering differs.** sync-bracket's round r is the schedule import's round r + 3
  (`SyncBracket.RoundConventionsDisagree`).
- **"Midwest" is never returned.** `bracketToRegion` tests "west" before "midwest", so a
  Midwest bracket maps to "West" (`SyncBracket.BracketToRegionCases`).
- **A null round is round 0, but only after the `??` chain.** `Number(null)` is 0, so
  `roundToCode(null)` is "S16" (`SyncBracket.NullRoundIsSweet16`). In the route the round
  is `g?.Round ?? g?.round`, and `null ?? undefined` is undefined. A game with `Round: null`
  and no `round` is therefore NaN and counts in `skippedNoMap`. Only a null that survives the
  chain reads as S16 (`SyncBracket.PayloadNullRound`).
- **import-schedule fails as shipped.** Its endpoint path is the placeholder, so the route
  always fails before touching the store (`ImportSchedule.ShippedPathRefused`).
- **sync-scores writes again on a rerun.** It never skips a winner that is already stored.
  A second run counts every write again and leaves the same store
  (`SyncScores.RerunRewrites`).
- **sync-bracket, sync-results and sync-games settle after one run.** Over an unchanged
  payload whose games agree, the second run writes nothing. sync-games has one exception:
  a game whose GameID is 0 is relinked on every run, because the stored 0 is falsy and
  `!ourGame.sportsdata_game_id` holds (`SyncGames.SecondRunIdle` requires non-zero ids).
- **link-games can count a vanished row as linked.** The candidate update filters by id,
  so a row deleted meanwhile matches nothing. The candidate still counts as linked.

## Model

| member | source | states |
|---|---|---|
| Js.NumberOf | app/api/admin/sync-bracket/route.ts:111-112 | `Number` of a missing value is NaN (None), of null is 0, of a number is that number |
| Js.StringOf | app/api/admin/sync-results/route.ts:78 | `String` of a string is the string itself |
| Js.StringOfNumbers | app/api/admin/sync-results/route.ts:78 | a numeric id and its decimal text give the same external id; two numbers give the same text only when equal |
| Js.LowerChar | app/api/admin/sync-logos/route.ts:6 | the result is never upper case; an upper-case letter moves by 32, anything else is kept |
| Js.Lower | app/api/admin/sync-logos/route.ts:6 | `toLowerCase` keeps the length and lower-cases each character in place |
| Js.TrimStartShape | app/api/admin/sync-bracket/route.ts:98 | dropping leading white space leaves a suffix of the input whose first character is not white space |
| Js.TrimEndShape | app/api/admin/sync-bracket/route.ts:98 | dropping trailing white space leaves a prefix of the input whose last character is not white space |
| Js.TrimShape | app/api/admin/sync-bracket/route.ts:98 | `trim()` is a slice of the input with no white space at either end, empty exactly when the input is all white space |
| Js.TrimOfTrimmed | app/api/admin/sync-logos/route.ts:11 | a string without white space at its ends is its own `trim()` |
| Js.IndexOfFrom | app/api/admin/sync-bracket/route.ts:102-105 | a found index lies at or after the start and the pattern occurs there |
| Js.IndexOfFromFirst | app/api/admin/sync-bracket/route.ts:102-105 | the found index is the first occurrence, and None means the pattern occurs nowhere from the start on |
| Js.ContainsAt | app/api/admin/sync-bracket/route.ts:102-105 | a pattern occurring at some index makes `includes` true |
| Js.ReplaceFirst | app/api/admin/sync-logos/route.ts:122-125 | `replace` with a string pattern leaves a string without the pattern unchanged; otherwise the result is the text before the first occurrence, then `rep`, then the text after that occurrence |
| Js.DigitChar | app/api/admin/sync-scores/route.ts:9-11 | a digit value becomes the decimal character with that value |
| Js.NatToString | app/api/admin/sync-scores/route.ts:9-11 | `String(n)` is a non-empty run of decimal digits with no leading zero |
| Js.NatToStringRoundTrip | app/api/admin/sync-scores/route.ts:9-11 | the digits of `String(n)` read back as n |
| Js.NatToStringInjective | app/api/admin/sync-scores/route.ts:9-11 | different naturals give different texts |
| Js.IntToStringRoundTrip | app/api/admin/link-games/route.ts:86-87 | every integer's text, sign included, reads back as that integer |
| Js.IntToStringInjective | app/api/admin/link-games/route.ts:86-87 | different integers give different texts |
| Js.JsNumberOfIntToString | app/api/admin/sync-bracket/route.ts:111 | `Number(String(n))` is n |
| Store.TeamBySportsId | app/api/admin/sync-scores/route.ts:65-76 | the team found has that sportsdata_team_id; None means no team has it |
| Store.TeamByExternalId | app/api/admin/sync-results/route.ts:99-105 | the team found has that external_team_id; None means no team has it |
| Store.GameBySportsId | app/api/admin/sync-scores/route.ts:55-62 | the game found has that sportsdata_game_id; None means no game has it |
| Store.GameByExternalId | app/api/admin/sync-results/route.ts:81-91 | the game found has that external_game_id; None means no game has it |
| Store.GameByPosition | app/api/admin/sync-bracket/route.ts:142-151 | the game found sits at that round, region and slot; None means no game does |
| Store.GameBetween | app/api/admin/sync-games/route.ts:73-85 | the game found is between the two teams in either order; None means no game is |
| Store.SameIdentityPositions | app/api/admin/sync-bracket/route.ts:142-164 | writes that keep every row's position keep position uniqueness and every position lookup's answer |
| Store.SameIdentityPairings | app/api/admin/sync-games/route.ts:73-113 | writes that keep every row's teams keep pairing uniqueness and every pair lookup's answer |
| Store.SameIdentityExternal | app/api/admin/sync-results/route.ts:81-129 | writes that keep every row's external id keep its uniqueness and every external-id lookup's answer |
| Store.SameSportsIdsLookup | app/api/admin/sync-scores/route.ts:55-85 | writes that keep every row's sportsdata_game_id keep its uniqueness and every lookup by it |
| Store.UpsertOne | app/api/admin/import-schedule/route.ts:155-157 | one upserted row: the game under its key then holds exactly the row's values, rows with other keys are untouched, keys stay unique and ids stay below the next id |
| Store.UpsertAll | app/api/admin/import-schedule/route.ts:155-157 | the batch keeps keys unique, ids below the next id, and every existing row present |
| Store.UpsertAllKeyed | app/api/admin/import-schedule/route.ts:155-157 | for every key, the game holding it after the batch has exactly the values of the last row carrying that key |
| Store.UpsertOneOther | app/api/admin/import-schedule/route.ts:155-157 | upserting a row keeps what an earlier row with another key wrote |
| Store.UpsertAllFrame | app/api/admin/import-schedule/route.ts:155-157 | a game whose sportsdata_game_id is no key of the batch is left as it was |
| Store.Db.UpdateGame | app/api/admin/sync-scores/route.ts:82-85 | an update by id replaces that one game row and changes nothing else; the store keeps ids below the next id exactly when it did before |
| Store.Db.UpdateTeam | app/api/admin/sync-logos/route.ts:137-140 | an update by id replaces that one team row and changes nothing else |
| Store.Db.UpsertGames | app/api/admin/import-schedule/route.ts:155-157 | the store becomes the keyed upsert of the batch, with keys unique; teams and pools unchanged |
| ImportSchedule.ToIso | app/api/admin/import-schedule/route.ts:21-27 | null exactly for a falsy value; otherwise the non-empty string itself |
| ImportSchedule.ToDateOnly | app/api/admin/import-schedule/route.ts:29-32 | null exactly for a falsy value; otherwise a non-empty prefix of at most ten characters, all of the input when it is shorter |
| ImportSchedule.MapRound | app/api/admin/import-schedule/route.ts:35-47 | the code is one of R64, R32, S16, E8, F4, CHIP or "UNK" |
| ImportSchedule.RoundNumber | app/api/admin/import-schedule/route.ts:35-47 | the inverse of the round table: a code's round number, None for a code not in the table |
| ImportSchedule.MapRoundRoundTrip | app/api/admin/import-schedule/route.ts:35-47 | rounds 1 to 6 map to the six codes in order and read back; every other value, null included, maps to "UNK" |
| ImportSchedule.PayloadTeamIds | app/api/admin/import-schedule/route.ts:79-83 | every numeric home and away team id of the payload is in the set |
| ImportSchedule.PayloadTeamIdsFromGames | app/api/admin/import-schedule/route.ts:79-83 | every id in the set is some game's numeric home or away id |
| ImportSchedule.CollectTeamIds | app/api/admin/import-schedule/route.ts:79-83 | the first loop collects exactly the payload's numeric team ids |
| ImportSchedule.SportsToLocal | app/api/admin/import-schedule/route.ts:86-96 | a provider id is mapped exactly when it was asked for and some team carries it, and it maps to that team |
| ImportSchedule.BuildTeamMap | app/api/admin/import-schedule/route.ts:93-96 | the loop over the selected team rows builds exactly that map |
| ImportSchedule.Convert | app/api/admin/import-schedule/route.ts:102-144 | a falsy GameID is skipped uncounted; a game with an unmapped team is counted as missing teams; any other game becomes a row with away as team1, home as team2, and winner and last sync time null |
| ImportSchedule.NoIdCount | app/api/admin/import-schedule/route.ts:103-104 | the games skipped for a falsy GameID are at most all of them |
| ImportSchedule.BuildBatch | app/api/admin/import-schedule/route.ts:99-145 | rows + missing-team skips + falsy-id skips = games fetched, and every row converts some payload game |
| ImportSchedule.ImportCounts | app/api/admin/import-schedule/route.ts:161-166 | `upserted + skippedMissingTeams <= totalFetched`, with equality when every GameID is truthy |
| ImportSchedule.BuildRows | app/api/admin/import-schedule/route.ts:99-145 | the row-building loop produces that batch and skip count |
| ImportSchedule.ShippedPathRefused | app/api/admin/import-schedule/route.ts:19-53 | the endpoint path as shipped contains the placeholder marker, so every call fails before the store is touched |
| ImportSchedule.Post | app/api/admin/import-schedule/route.ts:49-166 | a missing key or unset path fails with the store unchanged; success exactly when the key, path and response are good; then the answer counts the batch and the store is its keyed upsert |
| ImportSchedule.ImportClearsWinner | app/api/admin/import-schedule/route.ts:129-157 | after an import, every imported GameID's game has no winner and no last sync time |
| ImportSchedule.ImportLeavesOthers | app/api/admin/import-schedule/route.ts:155-157 | games whose sportsdata_game_id was not imported are left as they were |
| SyncBracket.MidwestContainsWest | app/api/admin/sync-bracket/route.ts:100-106 | any text containing "midwest" contains "west" |
| SyncBracket.BracketToRegionCases | app/api/admin/sync-bracket/route.ts:100-107 | the region is East, else West, else South by what the normalised text contains, else null; "Midwest" is never returned |
| SyncBracket.RoundToCode | app/api/admin/sync-bracket/route.ts:110-118 | 0, 1, 2 and 3 give S16, E8, F4 and CHIP; NaN and every other number give null; a code exists exactly for 0..3 |
| SyncBracket.NullRoundIsSweet16 | app/api/admin/sync-bracket/route.ts:110-113 | a null round reads as S16, a missing one as no code |
| SyncBracket.PayloadNullRound | app/api/admin/sync-bracket/route.ts:126-137 | `Round: null` with no `round` is undefined after `??`, so the game is unmappable; a null that survives the chain reads as S16 |
| SyncBracket.RoundConventionsDisagree | app/api/admin/sync-bracket/route.ts:110-118 | round r here is the schedule import's round r + 3, and no number gives a code under both numberings |
| SyncBracket.GamesArray | app/api/admin/sync-bracket/route.ts:70-77 | the bare array, else the `Games` array, else the `games` array, else null |
| SyncBracket.Classify | app/api/admin/sync-bracket/route.ts:29-93 | the loop runs exactly when key, status, body, JSON and games array are all present; otherwise, checked in the source's order, an unset key is MissingKey, an empty ok body "not available yet", a bad status ProviderError, a falsy parse NonJson and JSON without a games array a ShapeReport carrying the status |
| SyncBracket.ClassifyThrown | app/api/admin/sync-bracket/route.ts:179-193 | the run answers 500 exactly when the key is unset, the status is not ok, or an ok non-blank body parses to nothing truthy; the empty-body note and the shape report are 200 answers |
| SyncBracket.MapGame | app/api/admin/sync-bracket/route.ts:123-140 | a game maps exactly when its id, region, round code and slot are all truthy |
| SyncBracket.MapAll | app/api/admin/sync-bracket/route.ts:123-140 | one mapping per payload game, in order |
| SyncBracket.LinkStep | app/api/admin/sync-bracket/route.ts:137-164 | one game never changes any row's position, teams or external id |
| SyncBracket.LinkStepCases | app/api/admin/sync-bracket/route.ts:137-164 | an unmappable game adds 1 to `skippedNoMap` and writes nothing; a game with no row at its position counts in neither counter; a matched row is written only when its stored id differs, getting just the provider id and time stamp, with every other row unchanged, and `linked` grows exactly then |
| SyncBracket.LinkOne | app/api/admin/sync-bracket/route.ts:137-164 | the loop body as written performs exactly one step of the fold |
| SyncBracket.LinkNext | app/api/admin/sync-bracket/route.ts:123-165 | one pass of the loop extends the fold by one payload game |
| SyncBracket.LinkRun | app/api/admin/sync-bracket/route.ts:120-165 | the loop keeps every row's identity and position uniqueness, and `linked + skippedNoMap` is at most the payload size |
| SyncBracket.RunSyncBracket | app/api/admin/sync-bracket/route.ts:29-177 | every early answer leaves the store unchanged; otherwise the store and the counts are those of the linking loop |
| SyncBracket.LinkGames | app/api/admin/sync-bracket/route.ts:120-165 | the loop as written gives exactly the fold's store and counters |
| SyncBracket.StepSettles | app/api/admin/sync-bracket/route.ts:153-164 | after a game's step, it finds its own id at its position, and every game that agrees with it stays settled |
| SyncBracket.RunSettles | app/api/admin/sync-bracket/route.ts:123-165 | after a run over a consistent payload, every matched game holds its payload id |
| SyncBracket.SettledRunLinksNothing | app/api/admin/sync-bracket/route.ts:153-164 | on a settled store the loop links nothing and writes nothing |
| SyncBracket.SecondRunIdle | app/api/admin/sync-bracket/route.ts:120-165 | a second run on the same consistent payload reports `linked` = 0 and changes nothing |
| SyncResults.GamesOf | app/api/admin/sync-results/route.ts:66 | `payload?.games ?? payload?.data ?? []`, case by case |
| SyncResults.MissingStatusNotFinished | app/api/admin/sync-results/route.ts:69-72 | a missing or null status is never finished |
| SyncResults.Finished | app/api/admin/sync-results/route.ts:69-72 | the filter keeps no more games than it is given |
| SyncResults.FinishedKeepsExactly | app/api/admin/sync-results/route.ts:69-72 | a game survives the filter exactly when it is in the payload and finished |
| SyncResults.WinnerOf | app/api/admin/sync-results/route.ts:95-109 | a resolved winner is the team whose external_team_id is `String(winner_team_id)`; with a winner id given, None means no team has it |
| SyncResults.Claims | app/api/admin/sync-results/route.ts:77-115 | one claim per finished game, in order |
| SyncResults.OnlyWinnersTransitive | app/api/admin/sync-results/route.ts:123-129 | two rounds of winner writes are again winner writes |
| SyncResults.OnlyWinnersKeepIdentity | app/api/admin/sync-results/route.ts:123-129 | winner writes never change a row's position, teams or external id |
| SyncResults.ResultsStep | app/api/admin/sync-results/route.ts:77-133 | a write happens, and `updated` grows by 1, exactly when the row is found, the winner resolves and it differs from the stored winner; the write sets that row's winner and status "final" and nothing else; otherwise the store is unchanged and `skipped` grows by 1 |
| SyncResults.WriteOne | app/api/admin/sync-results/route.ts:77-133 | the loop body as written performs exactly one step of the fold |
| SyncResults.ResultsRun | app/api/admin/sync-results/route.ts:77-133 | `updated + skipped` equals the number of finished games; only winners and status change |
| SyncResults.WriteResults | app/api/admin/sync-results/route.ts:77-133 | the loop as written gives exactly the fold's store and counters |
| SyncResults.StepSettles | app/api/admin/sync-results/route.ts:112-129 | after a game's step, its winner is stored, and every agreeing game stays settled |
| SyncResults.RunSettles | app/api/admin/sync-results/route.ts:77-133 | after a run over consistent claims, every claim with a row and a winner finds that winner stored |
| SyncResults.StepKeepsSettled | app/api/admin/sync-results/route.ts:77-133 | a step after agreeing claims leaves them all, and its own claim, settled |
| SyncResults.SettledRunUpdatesNothing | app/api/admin/sync-results/route.ts:117-121 | on a settled store the loop writes nothing and updates 0 |
| SyncResults.SecondRunIdle | app/api/admin/sync-results/route.ts:117-121 | a second run over the same games updates nothing, skips every game and leaves the store as it is |
| SyncResults.Post | app/api/admin/sync-results/route.ts:26-146 | a missing secret fails, a wrong header is unauthorized, and every failure leaves the store unchanged; success exactly when secret, keys and response are good; then the store and counts are the loop's, dated by the body or today |
| SyncLogos.ReplaceAmpChars | app/api/admin/sync-logos/route.ts:7 | after `& -> and`, no `&` is left and nothing but the letters of "and" is added |
| SyncLogos.ReplaceAmpNone | app/api/admin/sync-logos/route.ts:7 | text without `&` is unchanged |
| SyncLogos.StripChars | app/api/admin/sync-logos/route.ts:8-9 | the removed characters are gone and nothing is added |
| SyncLogos.StripNone | app/api/admin/sync-logos/route.ts:8-9 | text without those characters is unchanged |
| SyncLogos.CollapseShape | app/api/admin/sync-logos/route.ts:10 | collapsing keeps the non-space characters, makes white space ' ', and never leaves two spaces together |
| SyncLogos.CollapseKeepsNormal | app/api/admin/sync-logos/route.ts:10 | text with single plain spaces is unchanged by collapsing |
| SyncLogos.NormNameIsNormal | app/api/admin/sync-logos/route.ts:4-12 | normName's output is lower case, has no `&`, quote or period, single spaces, and no space at either end |
| SyncLogos.NormNameOfNormalLower | app/api/admin/sync-logos/route.ts:4-12 | when lower-casing alone gives a normal name, that is normName's answer |
| SyncLogos.NormalIsFixed | app/api/admin/sync-logos/route.ts:4-12 | a normal name is its own normName |
| SyncLogos.NormNameIdempotent | app/api/admin/sync-logos/route.ts:4-12 | normName(normName(s)) = normName(s) |
| SyncLogos.LookupKey | app/api/admin/sync-logos/route.ts:112-118 | a name without an override looks itself up; a non-empty override looks up `normName(override)` |
| SyncLogos.LookupKeyIsNormal | app/api/admin/sync-logos/route.ts:112-118 | the lookup key is already in normal form, as every index key is |
| SyncLogos.Lookup | app/api/admin/sync-logos/route.ts:120-130 | an indexed key finds its own entry; else the " st" spelling is tried first, then the " (oh)" spelling; the result is None exactly when all three miss; a hit is always an index entry |
| SyncLogos.Resolve | app/api/admin/sync-logos/route.ts:107-135 | placeholder exactly for an empty override; otherwise the lookup key is used, a hit is the lookup's answer, and a miss means the lookup found nothing |
| SyncLogos.PlaceholderIgnoresIndex | app/api/admin/sync-logos/route.ts:112-116 | a placeholder is decided without consulting the ESPN index |
| SyncLogos.StateFallback | app/api/admin/sync-logos/route.ts:122-125 | a missed key containing " state" whose " st" spelling is indexed resolves to that entry |
| SyncLogos.OhFallback | app/api/admin/sync-logos/route.ts:127-130 | a missed key with no " st" hit, containing " oh" and whose " (oh)" spelling is indexed, resolves to that entry |
| SyncLogos.StateBeforeOh | app/api/admin/sync-logos/route.ts:120-130 | when both fallback spellings are indexed, the " st" one wins |
| SyncLogos.AllMissUnresolved | app/api/admin/sync-logos/route.ts:120-135 | a name whose key and both fallbacks miss is unresolved and reported as `raw (key=…)` |
| SyncLogos.AddEntry | app/api/admin/sync-logos/route.ts:64-76 | an unusable entry adds nothing; a usable one sets its display-name key, and its short-name key when present, to its id and logo |
| SyncLogos.EspnIndexKeys | app/api/admin/sync-logos/route.ts:62-76 | every key of the index comes from a usable entry and holds that entry's id and logo |
| SyncLogos.EspnIndexLastWins | app/api/admin/sync-logos/route.ts:62-76 | the last usable entry carrying a key decides it |
| SyncLogos.BuildEspnIndex | app/api/admin/sync-logos/route.ts:62-76 | the loop as written builds exactly that index |
| SyncLogos.Resolutions | app/api/admin/sync-logos/route.ts:107-135 | every team gets a resolution |
| SyncLogos.LogoStep | app/api/admin/sync-logos/route.ts:107-143 | a team that does not resolve appends its label to `missing` and writes nothing; a resolved team whose write fails changes nothing; otherwise its logo and ESPN id are written and `updated` grows by 1 |
| SyncLogos.Misses | app/api/admin/sync-logos/route.ts:113-115 | the report has at most one label per team visited |
| SyncLogos.Writes | app/api/admin/sync-logos/route.ts:137-142 | the successful writes are at most the teams visited |
| SyncLogos.LogoRun | app/api/admin/sync-logos/route.ts:104-143 | the loop keeps every team and its name; `missing` is the unresolved teams' labels in store order (raw name for a placeholder, `raw (key=…)` for a miss); `updated` counts the successful writes; `updated + missing` is at most the number of teams |
| SyncLogos.LogoRunRows | app/api/admin/sync-logos/route.ts:107-143 | a visited team with a hit and a successful write gets the new logo and ESPN id; every other team keeps its row |
| SyncLogos.SyncedRow | app/api/admin/sync-logos/route.ts:107-143 | the same, stated against the team's name resolved in the index |
| SyncLogos.WriteLogos | app/api/admin/sync-logos/route.ts:104-143 | the loop as written gives exactly the fold's teams, `updated` and `missing` |
| SyncLogos.SyncLogos | app/api/admin/sync-logos/route.ts:14-149 | missing parameters give 400, a missing pool `PoolNotFound`, a foreign pool 403 and a failed ESPN fetch `EspnFailed(status)`, each with the teams unchanged; the loop runs and answers `Done` exactly when parameters, pool, creator and ESPN answer are all good, and then the teams and report are the loop's, with `updated + missing` at most the number of teams |
| SyncGames.LinkedTeamIds | app/api/admin/sync-games/route.ts:47-50 | every team's non-null sportsdata_team_id is selected |
| SyncGames.TeamMap | app/api/admin/sync-games/route.ts:54-57 | a provider id is mapped exactly when some team carries it, and to that team |
| SyncGames.VerdictOf | app/api/admin/sync-games/route.ts:96-107 | no verdict unless closed with two numeric scores; a tie exactly on equal scores; otherwise the home team when its score is higher and the away team when lower |
| SyncGames.LinksAndWinnersTransitive | app/api/admin/sync-games/route.ts:87-116 | two rounds of link and winner writes are again such writes |
| SyncGames.MatchedRow | app/api/admin/sync-games/route.ts:87-116 | the row gets the provider's id, and the winner when there is one; its position, teams and external id are kept |
| SyncGames.MatchedStep | app/api/admin/sync-games/route.ts:87-116 | only the matched row is written, and each counter moves by what that game did |
| SyncGames.MatchedStepKeeps | app/api/admin/sync-games/route.ts:87-116 | writing one matched row keeps every row's identity and permitted changes |
| SyncGames.SyncStep | app/api/admin/sync-games/route.ts:64-117 | an unmapped team, or no game between the two teams, counts `skippedNoMatch` and writes nothing; a matched game is exactly `MatchedStep` on the row `GameBetween` finds; each game adds at most one to each group of counters |
| SyncGames.SyncRun | app/api/admin/sync-games/route.ts:64-117 | the loop keeps identity and pairing uniqueness, and both counter sums are at most the payload size |
| SyncGames.SyncMatched | app/api/admin/sync-games/route.ts:87-116 | the body as written gives exactly the step's store and counters |
| SyncGames.SyncLoop | app/api/admin/sync-games/route.ts:64-117 | the loop as written gives exactly the fold's store and counters |
| SyncGames.GameBetweenSymmetric | app/api/admin/sync-games/route.ts:76-78 | the lookup does not depend on the order of the two teams |
| SyncGames.StepSettles | app/api/admin/sync-games/route.ts:87-116 | after a game's step its row holds its id and winner, and agreeing games stay settled |
| SyncGames.StepSettlesAll | app/api/admin/sync-games/route.ts:64-117 | a step keeps a whole list of agreeing, settled games settled |
| SyncGames.RunSettles | app/api/admin/sync-games/route.ts:64-117 | after a run over a consistent payload, every matched game holds its id and its winner |
| SyncGames.SettledStepIdle | app/api/admin/sync-games/route.ts:88-115 | a settled game with a non-zero id changes nothing and counts no link and no winner |
| SyncGames.SettledRunIdle | app/api/admin/sync-games/route.ts:64-117 | on a settled store the loop links nothing and sets no winner |
| SyncGames.SecondRunIdle | app/api/admin/sync-games/route.ts:64-117 | a second run on the same consistent data reports `linked` = 0 and `winnersSet` = 0 and changes nothing |
| SyncGames.Post | app/api/admin/sync-games/route.ts:23-131 | a missing date is refused; every failure leaves the store unchanged; success exactly when date, key and response are good; then store and counts are the loop's |
| LinkGames.LocalOf | app/api/admin/link-games/route.ts:31-37 | a candidate's selected columns are its id, date and two teams |
| LinkGames.Locals | app/api/admin/link-games/route.ts:31-37 | one selected record per candidate row, in order |
| LinkGames.TeamIdsOf | app/api/admin/link-games/route.ts:49-51 | the set holds exactly the candidates' team1 and team2 ids |
| LinkGames.LocalToSports | app/api/admin/link-games/route.ts:53-63 | a team is mapped exactly when asked for and carrying a provider id, and to that id |
| LinkGames.BuildLocalToSports | app/api/admin/link-games/route.ts:60-63 | the loop over the selected teams builds exactly that map |
| LinkGames.GroupByDate | app/api/admin/link-games/route.ts:65-71 | the group keys are distinct and are exactly the dates in the key order |
| LinkGames.GroupDates | app/api/admin/link-games/route.ts:65-71 | the dates fetched are exactly the candidates' dates, and each group holds only candidates of its date |
| LinkGames.GroupPermutes | app/api/admin/link-games/route.ts:65-90 | visiting the groups in key order visits every candidate exactly once |
| LinkGames.GroupLocals | app/api/admin/link-games/route.ts:65-71 | the grouping loop as written builds exactly that grouping |
| LinkGames.PairKeyInjective | app/api/admin/link-games/route.ts:86-87 | a "home-away" key names exactly one ordered pair of ids |
| LinkGames.PairIndex | app/api/admin/link-games/route.ts:79-88 | every indexed GameID is non-zero |
| LinkGames.LastMatch | app/api/admin/link-games/route.ts:79-88 | a found GameID belongs to some usable game between the two teams; None means no such game |
| LinkGames.LastMatchSymmetric | app/api/admin/link-games/route.ts:86-87 | the last match does not depend on the order of the two teams |
| LinkGames.PairIndexLookup | app/api/admin/link-games/route.ts:79-88 | "h-a" is indexed exactly when some usable game is between h and a, and holds the last such game's id |
| LinkGames.PairIndexSymmetric | app/api/admin/link-games/route.ts:86-87 | "h-a" and "a-h" are both present or both absent, with the same GameID |
| LinkGames.BuildPairIndex | app/api/admin/link-games/route.ts:80-88 | the index loop as written builds exactly that index |
| LinkGames.GameIdForLastMatch | app/api/admin/link-games/route.ts:90-96 | a candidate with an unmapped team gets none; otherwise it gets the last match between its teams, whatever their order |
| LinkGames.LinkStep | app/api/admin/link-games/route.ts:90-105 | each candidate counts once; it is linked exactly when it gets a GameID, and only its sportsdata_game_id changes |
| LinkGames.GroupRun | app/api/admin/link-games/route.ts:90-105 | a date's loop counts each of its candidates once |
| LinkGames.GroupRunOnlyLinks | app/api/admin/link-games/route.ts:90-105 | a date's loop changes only sportsdata_game_id, and only on that date's candidates |
| LinkGames.DatesRunCounts | app/api/admin/link-games/route.ts:73-106 | the dates loop changes only sportsdata_game_id on visited candidates; when no response stops it, `linked + notFound` counts every visited candidate |
| LinkGames.DatesRunStops | app/api/admin/link-games/route.ts:18-21 | once a response stops the loop, later dates change nothing |
| LinkGames.LinkOne | app/api/admin/link-games/route.ts:90-105 | the candidate body as written gives exactly the step's store and counters |
| LinkGames.LinkGroup | app/api/admin/link-games/route.ts:90-105 | a date's loop as written gives exactly the fold's store and counters |
| LinkGames.LinkDates | app/api/admin/link-games/route.ts:76-106 | the dates loop as written gives exactly the fold's result, stopping at the first bad response |
| LinkGames.Get | app/api/admin/link-games/route.ts:26-115 | no candidates gives the message and no write; a missing key fails with no write; non-candidates are never touched; on success every candidate counts once as linked or not found |
| SyncScores.Pad2 | app/api/admin/sync-scores/route.ts:10-11 | `padStart(2, "0")` keeps a long string and left-fills a short one with zeros to two characters |
| SyncScores.TwoDigits | app/api/admin/sync-scores/route.ts:10-11 | a month or day from 1 to 99 pads to two digits that read back as the number |
| SyncScores.FourDigits | app/api/admin/sync-scores/route.ts:9 | a four-digit year's text is four digits that read back as the year |
| SyncScores.JoinedFields | app/api/admin/sync-scores/route.ts:12 | the joined "YYYY-MM-DD" has its fields at 0-3, 5-6 and 8-9 with dashes at 4 and 7 |
| SyncScores.YmdRoundTrip | app/api/admin/sync-scores/route.ts:8-13 | `ymd` of a four-digit-year date is ten characters "YYYY-MM-DD" that read back as the same date |
| SyncScores.YmdInjective | app/api/admin/sync-scores/route.ts:8-13 | different dates give different strings |
| SyncScores.WinnerOf | app/api/admin/sync-scores/route.ts:80 | the home team wins on a higher home score; otherwise, a tie included, the away team |
| SyncScores.TieRulesDisagree | app/api/admin/sync-scores/route.ts:80 | on a closed tie the game sync gives a tie verdict while this job names the away team |
| SyncScores.LocalTeam | app/api/admin/sync-scores/route.ts:65-78 | a resolved team carries the game's provider team id, and a provider team id some team carries is always resolved |
| SyncScores.Target | app/api/admin/sync-scores/route.ts:46-80 | a Final game writes exactly when its GameID is truthy, both scores are present, a row is linked by the GameID and both teams resolve; it writes that row, with the winner by score |
| SyncScores.WithWinner | app/api/admin/sync-scores/route.ts:82-85 | only row k changes, and only its winner; every sportsdata_game_id is kept |
| SyncScores.ScoreStep | app/api/admin/sync-scores/route.ts:40-89 | a Final game adds one to `finalsSeen`; it adds one to `updatedGames` and writes its target's winner exactly when it has a target |
| SyncScores.DayRun | app/api/admin/sync-scores/route.ts:40-90 | a day's loop keeps every sportsdata_game_id; `finalsSeen` grows by at most the number of games and `updatedGames` by no more than `finalsSeen` |
| SyncScores.ScoreOne | app/api/admin/sync-scores/route.ts:40-89 | the body as written gives exactly the step's store and counters |
| SyncScores.ScoreDay | app/api/admin/sync-scores/route.ts:40-90 | a day's loop as written gives exactly the fold's store and counters |
| SyncScores.DatesRun | app/api/admin/sync-scores/route.ts:26-91 | the dates loop keeps every sportsdata_game_id, and `updatedGames <= finalsSeen` |
| SyncScores.ScoreDates | app/api/admin/sync-scores/route.ts:26-91 | the dates loop as written gives exactly the fold's result, stopping at the first bad response |
| SyncScores.RunStops | app/api/admin/sync-scores/route.ts:33-36 | once a response stops the loop, later dates change nothing |
| SyncScores.RunSync | app/api/admin/sync-scores/route.ts:15-94 | a missing key fails exactly then, with no write; otherwise today's and yesterday's dates are run, and the answer is the first provider error or the counts |
| SyncScores.TargetSame | app/api/admin/sync-scores/route.ts:54-78 | stores that agree on sportsdata_game_id resolve every game to the same row and winner |
| SyncScores.DayRunRows | app/api/admin/sync-scores/route.ts:40-90 | after a day's loop every row holds the winner of the last game that wrote it, or is unchanged |
| SyncScores.LastWriteSame | app/api/admin/sync-scores/route.ts:54-78 | stores that agree on sportsdata_game_id get the same last write on every row |
| SyncScores.DayRunCountsSame | app/api/admin/sync-scores/route.ts:40-90 | stores that agree on sportsdata_game_id get the same counts from a day's loop |
| SyncScores.RerunRewrites | app/api/admin/sync-scores/route.ts:40-90 | a second run over the same games counts every write again and leaves the store as the first run left it |

## Left out

- **Store errors.** Errors returned by the store (`error` of a select, update or upsert) and their `throw`s are not modelled: every store call succeeds. The exception is sync-logos, where the set `failing` names the team updates that fail, as the route counts them.
- **Duplicate keys in one upsert.** When one import batch carries the same `sportsdata_game_id` twice, Postgres refuses the upsert ("cannot affect row a second time") and the route answers 500. Store.UpsertAll instead lets the last row with the key win.
- **Duplicate `sportsdata_team_id`.** import-schedule, sync-games and sync-scores build a `Map` from the selected teams with `.set`, so when two teams carry the same provider id the last row wins. ImportSchedule.SportsToLocal, ImportSchedule.BuildTeamMap, ImportSchedule.Post, SyncGames.TeamMap, SyncGames.Post, SyncScores.LocalTeam and the sync-scores members built on it require that column to be unique instead.
- **Multi-row `maybeSingle`.** The error `maybeSingle` and `single` raise when several rows match is not modelled. Store.GameBySportsId, Store.GameByExternalId, Store.GameByPosition, Store.GameBetween, Store.TeamBySportsId and Store.TeamByExternalId require the looked-up column to be unique instead, as the routes assume.
- **Network and JSON.** The network and JSON parsing are left out. Each provider's answer is a parameter: its status, and the parsed body as a datatype with the shapes the route distinguishes. A body that is not JSON or has another shape is outside the model, except in sync-bracket, which tests for it.
- **Response text.** The text of error responses (`res.text()`, the message strings with URL and body) is reduced to the status code.
- **Environment and request.** Environment variables, request headers and request bodies are parameters.
- **Clock.** The clock is a parameter: the dates of today and yesterday in sync-scores, the timestamp written to `last_synced_at`, and today's date in sync-results.
- **Store order.** The order in which the store returns rows is a parameter, each row listed once. It matters for the `missing` list of sync-logos and for the grouping order in link-games.
- **Numbers and text.** Numbers are integers: fractional and NaN values a provider might send are not modelled, except NaN from `Number` in sync-bracket. `Number` of text (Js.JsNumber, used for ESPN ids in sync-logos and for text rounds in sync-bracket) reads only an optionally signed run of decimal digits, or blank text as 0; the other forms JavaScript accepts, such as "+1", "1.0", "1e3", "0x1A" and "Infinity", read as NaN here. Text is ASCII: `toLowerCase`, `trim` and `\s` act on ASCII characters only, with no Unicode case mapping or Unicode white space.
- **Null array elements.** In import-schedule, sync-bracket, link-games and sync-logos, a null element of a provider array reads as a record with every field missing, which is what `ag?.X` gives. sync-results, sync-games and sync-scores read an element's fields without `?.` (`g.status` and `g.id`, `g.HomeTeamID` and `g.GameID`, `g.Status`). There a null element throws and the route answers 500. That answer is not modelled: their payloads hold records only.
- **Response extras.** The sync-bracket answer's `sampleGame`, `receivedType` and `sampleKeys` fields, and its `url`, are not modelled. Neither is the `statusText` and `contentType` of the fetch helper.
- **The full-sync orchestrator.** app/api/admin/full-sync/route.ts is not part of this model, nor are the pages and the Supabase client setup.
- LinkGames.Get: the KEY check sits inside the fetch helper in the source. It is modelled as one check before the dates loop, because the first fetch throws before any write when the key is unset.
- LinkGames.LinkStep: an update whose row was deleted meanwhile still counts as linked. The store is unchanged for that row.
- SyncScores.RunSync: `fetch` is a pure function of the date, so two requests for the same date give the same answer.
- SyncLogos.SyncLogos: the pool lookup `.single()` fails on a missing pool, which is modelled as `PoolNotFound`. Its other errors are not modelled.

=== FILE: import_schedule.dfy ===
/**
 * app/api/admin/import-schedule/route.ts: the SportsDataIO schedule import. It maps
 * provider rounds to round codes, resolves the provider's team ids to local teams,
 * converts every provider game to a `games` row and upserts the batch keyed on
 * `sportsdata_game_id`.
 */
module ImportSchedule {
  import opened Js
  import opened Store

  // ---------------------------------------------------------------------------
  // Pure helpers

  /** `toIso`: a falsy value is null, anything else its string form. */
  function ToIso(d: Field<string>): (r: Option<string>)
    ensures r.None? <==> !TruthyStr(d)
    ensures r.Some? ==> r.value == d.value && r.value != ""
  {
    if !TruthyStr(d) then None else Some(d.value)
  }

  function Min(a: int, b: int): int
  {
    if a < b then a else b
  }

  /** `toDateOnly`: null for a falsy value, otherwise `slice(0, 10)` of its string form. */
  function ToDateOnly(d: Field<string>): (r: Option<string>)
    ensures r.None? <==> !TruthyStr(d)
    ensures r.Some? ==> d.Val? && r.value != "" && |r.value| <= 10 && |r.value| <= |d.value| && r.value == d.value[..|r.value|]
    ensures r.Some? ==> |r.value| == 10 || r.value == d.value
  {
    match ToIso(d)
    case None => None
    case Some(iso) => Some(iso[..Min(10, |iso|)])
  }

  /** The round codes for provider rounds 1 to 6. */
  const RoundCodes: seq<string> := ["R64", "R32", "S16", "E8", "F4", "CHIP"]

  /** `mapRound`: provider round number to round code; every other value, null included, is "UNK". */
  function MapRound(n: Option<int>): (r: string)
    ensures r == "UNK" || r in RoundCodes
  {
    match n
    case Some(1) => "R64"
    case Some(2) => "R32"
    case Some(3) => "S16"
    case Some(4) => "E8"
    case Some(5) => "F4"
    case Some(6) => "CHIP"
    case _ => "UNK"
  }

  /** The provider round a code stands for under this file's numbering. */
  function RoundNumber(code: string): (n: Option<int>)
    ensures n.Some? ==> 1 <= n.value <= 6 && RoundCodes[n.value - 1] == code
    ensures n.None? ==> code !in RoundCodes
  {
    if code == "R64" then Some(1)
    else if code == "R32" then Some(2)
    else if code == "S16" then Some(3)
    else if code == "E8" then Some(4)
    else if code == "F4" then Some(5)
    else if code == "CHIP" then Some(6)
    else None
  }

  /** Rounds 1..6 map to the six codes in order and read back; every other value maps to "UNK". */
  lemma MapRoundRoundTrip(n: Option<int>)
    ensures n.Some? && 1 <= n.value <= 6 ==> MapRound(n) == RoundCodes[n.value - 1] && RoundNumber(MapRound(n)) == n
    ensures !(n.Some? && 1 <= n.value <= 6) ==> MapRound(n) == "UNK" && RoundNumber(MapRound(n)).None?
  {
  }

  // ---------------------------------------------------------------------------
  // Provider payload

  /** One SportsDataIO game; the numeric fields are present only when they hold a number. */
  datatype SdGame = SdGame(
    gameId: Field<int>,
    homeTeamId: Field<int>,
    awayTeamId: Field<int>,
    bracket: Field<string>,
    region: Field<string>,
    round: Field<int>,
    dateTimeUtc: Field<string>,
    dateTime: Field<string>,
    day: Field<string>,
    status: Field<string>,
    season: Field<int>)

  /** The parsed body: a bare array, an object (whose `Games` may be missing), or null. */
  datatype SdBody = ArrayBody(games: seq<SdGame>) | ObjectBody(gamesField: Field<seq<SdGame>>) | NullBody

  datatype SdResponse = SdResponse(ok: bool, status: int, body: SdBody)

  /** `Array.isArray(json) ? json : (json?.Games ?? [])` */
  function GamesOf(b: SdBody): seq<SdGame>
  {
    match b
    case ArrayBody(gs) => gs
    case ObjectBody(f) => if f.Val? then f.value else []
    case NullBody => []
  }

  /** The numeric home and away team ids that occur in the payload. */
  function PayloadTeamIds(games: seq<SdGame>): (ids: set<int>)
    ensures forall i :: 0 <= i < |games| && games[i].homeTeamId.Val? ==> games[i].homeTeamId.value in ids
    ensures forall i :: 0 <= i < |games| && games[i].awayTeamId.Val? ==> games[i].awayTeamId.value in ids
  {
    if games == [] then {}
    else
      var g := games[|games| - 1];
      PayloadTeamIds(games[..|games| - 1]) +
      (if g.homeTeamId.Val? then {g.homeTeamId.value} else {}) +
      (if g.awayTeamId.Val? then {g.awayTeamId.value} else {})
  }

  /** Every id in the set comes from some game's home or away field. */
  lemma {:induction false} PayloadTeamIdsFromGames(games: seq<SdGame>, sid: int)
    requires sid in PayloadTeamIds(games)
    ensures exists i :: 0 <= i < |games| && (games[i].homeTeamId == Val(sid) || games[i].awayTeamId == Val(sid))
  {
    var n := |games| - 1;
    var g := games[n];
    if g.homeTeamId == Val(sid) || g.awayTeamId == Val(sid) {
      assert games[n] == g;
    } else {
      PayloadTeamIdsFromGames(games[..n], sid);
      var i :| 0 <= i < n && (games[..n][i].homeTeamId == Val(sid) || games[..n][i].awayTeamId == Val(sid));
      assert games[i] == games[..n][i];
    }
  }

  /** The first loop: collect the numeric home and away ids. */
  method CollectTeamIds(games: seq<SdGame>) returns (ids: set<int>)
    ensures ids == PayloadTeamIds(games)
  {
    ids := {};
    var i := 0;
    while i < |games|
      invariant 0 <= i <= |games|
      invariant ids == PayloadTeamIds(games[..i])
    {
      var g := games[i];
      if g.homeTeamId.Val? {
        ids := ids + {g.homeTeamId.value};
      }
      if g.awayTeamId.Val? {
        ids := ids + {g.awayTeamId.value};
      }
      assert games[..i + 1][..i] == games[..i];
      i := i + 1;
    }
    assert games[..i] == games;
  }

  // ---------------------------------------------------------------------------
  // The team map

  /** `sportsToLocal`: provider team id to local team, for the ids the payload mentions. */
  function SportsToLocal(teams: Teams, ids: set<int>): (m: map<int, TeamId>)
    requires UniqueTeamSportsIds(teams)
    ensures forall sid :: sid in m <==> sid in ids && TeamBySportsId(teams, sid).Some?
    ensures forall sid :: sid in m ==> m[sid] in teams && teams[m[sid]].sportsdataTeamId == Some(sid)
  {
    map sid | sid in ids && TeamBySportsId(teams, sid).Some? :: TeamBySportsId(teams, sid).value
  }

  /** The rows `select ... in("sportsdata_team_id", ids)` returns, each once, in some order. */
  ghost predicate Selected(rows: seq<TeamId>, teams: Teams, ids: set<int>)
  {
    (forall j :: 0 <= j < |rows| ==> rows[j] in teams) &&
    forall k :: k in teams ==> (k in rows <==> teams[k].sportsdataTeamId.Some? && teams[k].sportsdataTeamId.value in ids)
  }

  /** The second loop: every selected row with a sportsdata id enters the map. */
  method BuildTeamMap(teams: Teams, ids: set<int>, rows: seq<TeamId>) returns (m: map<int, TeamId>)
    requires UniqueTeamSportsIds(teams) && Selected(rows, teams, ids)
    ensures m == SportsToLocal(teams, ids)
  {
    m := map[];
    var i := 0;
    while i < |rows|
      invariant 0 <= i <= |rows|
      invariant forall sid :: sid in m ==> m[sid] in teams && teams[m[sid]].sportsdataTeamId == Some(sid)
      invariant forall j :: 0 <= j < i && teams[rows[j]].sportsdataTeamId.Some? ==> teams[rows[j]].sportsdataTeamId.value in m
      invariant forall sid :: sid in m ==> sid in ids
    {
      var t := teams[rows[i]];
      if t.sportsdataTeamId.Some? {
        m := m[t.sportsdataTeamId.value := rows[i]];
      }
      i := i + 1;
    }
    var want := SportsToLocal(teams, ids);
    forall sid | sid in want ensures sid in m {
      var k := want[sid];
      assert k in rows;
      var j :| 0 <= j < |rows| && rows[j] == k;
    }
    forall sid | sid in m ensures sid in want && m[sid] == want[sid] {
    }
  }

  // ---------------------------------------------------------------------------
  // Converting the payload

  datatype Conversion =
    | NoGameId                 // falsy GameID: dropped, counted nowhere
    | MissingTeams             // home or away team not numeric or not in the team map
    | Emit(row: UpsertRow)

  /** The values a converted row must carry. */
  predicate RowOf(m: map<int, TeamId>, g: SdGame, r: UpsertRow)
  {
    g.gameId.Val? && r.sportsdataGameId == g.gameId.value &&
    g.homeTeamId.Val? && g.homeTeamId.value in m && r.team2 == m[g.homeTeamId.value] &&
    g.awayTeamId.Val? && g.awayTeamId.value in m && r.team1 == m[g.awayTeamId.value] &&
    r.winner.None? && r.lastSyncedAt.None? &&
    r.round == MapRound(OrNull(g.round)) &&
    r.region == OrNull(Coalesce(g.bracket, g.region)) &&
    r.status == OrNull(g.status) && r.season == OrNull(g.season) &&
    r.startTime == ToIso(Coalesce(g.dateTimeUtc, g.dateTime)) &&
    r.gameDate == ToDateOnly(Coalesce(g.day, Coalesce(g.dateTimeUtc, g.dateTime)))
  }

  /** One iteration of the row-building loop. */
  function Convert(m: map<int, TeamId>, g: SdGame): (c: Conversion)
    ensures c.NoGameId? <==> !TruthyInt(g.gameId)
    ensures c.MissingTeams? <==>
      TruthyInt(g.gameId) &&
      !(g.homeTeamId.Val? && g.homeTeamId.value in m && g.awayTeamId.Val? && g.awayTeamId.value in m)
    ensures c.Emit? ==> RowOf(m, g, c.row)
  {
    if !TruthyInt(g.gameId) then NoGameId
    else
      var home := if g.homeTeamId.Val? && g.homeTeamId.value in m then Some(m[g.homeTeamId.value]) else None;
      var away := if g.awayTeamId.Val? && g.awayTeamId.value in m then Some(m[g.awayTeamId.value]) else None;
      if home.None? || away.None? then MissingTeams
      else
        Emit(UpsertRow(
          sportsdataGameId := g.gameId.value,
          status := OrNull(g.status),
          startTime := ToIso(Coalesce(g.dateTimeUtc, g.dateTime)),
          gameDate := ToDateOnly(Coalesce(g.day, Coalesce(g.dateTimeUtc, g.dateTime))),
          region := OrNull(Coalesce(g.bracket, g.region)),
          round := MapRound(OrNull(g.round)),
          team1 := away.value,
          team2 := home.value,
          winner := None,
          lastSyncedAt := None,
          season := OrNull(g.season)))
  }

  /** The number of games with a falsy GameID. */
  function NoIdCount(games: seq<SdGame>): (n: nat)
    ensures n <= |games|
  {
    if games == [] then 0
    else NoIdCount(games[..|games| - 1]) + (if TruthyInt(games[|games| - 1].gameId) then 0 else 1)
  }

  datatype Batch = Batch(rows: seq<UpsertRow>, skippedMissingTeams: nat)

  /** The rows the loop pushes and the games it skips. */
  function BuildBatch(m: map<int, TeamId>, games: seq<SdGame>): (b: Batch)
    ensures |b.rows| + b.skippedMissingTeams + NoIdCount(games) == |games|
    ensures forall i :: 0 <= i < |b.rows| ==> exists j :: 0 <= j < |games| && Convert(m, games[j]) == Emit(b.rows[i])
  {
    if games == [] then Batch([], 0)
    else
      var n := |games| - 1;
      var p := BuildBatch(m, games[..n]);
      assert forall j :: 0 <= j < n ==> games[..n][j] == games[j];
      match Convert(m, games[n])
      case NoGameId => p
      case MissingTeams => Batch(p.rows, p.skippedMissingTeams + 1)
      case Emit(r) => Batch(p.rows + [r], p.skippedMissingTeams)
  }

  /** `upserted + skippedMissingTeams <= totalFetched`, with equality when no GameID is falsy. */
  lemma ImportCounts(m: map<int, TeamId>, games: seq<SdGame>)
    ensures var b := BuildBatch(m, games); |b.rows| + b.skippedMissingTeams <= |games|
    ensures (forall j :: 0 <= j < |games| ==> TruthyInt(games[j].gameId)) ==>
      var b := BuildBatch(m, games); |b.rows| + b.skippedMissingTeams == |games|
  {
    if forall j :: 0 <= j < |games| ==> TruthyInt(games[j].gameId) {
      NoIdCountZero(games);
    }
  }

  lemma {:induction false} NoIdCountZero(games: seq<SdGame>)
    requires forall j :: 0 <= j < |games| ==> TruthyInt(games[j].gameId)
    ensures NoIdCount(games) == 0
  {
    if games != [] {
      NoIdCountZero(games[..|games| - 1]);
    }
  }

  /** The third loop: convert each game, push rows, count skips. */
  method BuildRows(m: map<int, TeamId>, games: seq<SdGame>) returns (upserts: seq<UpsertRow>, skippedMissingTeams: nat)
    ensures Batch(upserts, skippedMissingTeams) == BuildBatch(m, games)
  {
    upserts := [];
    skippedMissingTeams := 0;
    var i := 0;
    while i < |games|
      invariant 0 <= i <= |games|
      invariant Batch(upserts, skippedMissingTeams) == BuildBatch(m, games[..i])
    {
      var g := games[i];
      assert games[..i + 1][..i] == games[..i];
      if TruthyInt(g.gameId) {
        var homeSportsId := if g.homeTeamId.Val? then Some(g.homeTeamId.value) else None;
        var awaySportsId := if g.awayTeamId.Val? then Some(g.awayTeamId.value) else None;
        var homeLocal := if homeSportsId.Some? && homeSportsId.value in m then Some(m[homeSportsId.value]) else None;
        var awayLocal := if awaySportsId.Some? && awaySportsId.value in m then Some(m[awaySportsId.value]) else None;
        if homeLocal.None? || awayLocal.None? {
          skippedMissingTeams := skippedMissingTeams + 1;
        } else {
          var region := OrNull(Coalesce(g.bracket, g.region));
          var round := MapRound(OrNull(g.round));
          var start := ToIso(Coalesce(g.dateTimeUtc, g.dateTime));
          var day := ToDateOnly(Coalesce(g.day, Coalesce(g.dateTimeUtc, g.dateTime)));
          upserts := upserts + [UpsertRow(g.gameId.value, OrNull(g.status), start, day, region, round,
                                          awayLocal.value, homeLocal.value, None, None, OrNull(g.season))];
        }
      }
      i := i + 1;
    }
    assert games[..i] == games;
  }

  // ---------------------------------------------------------------------------
  // The route

  /** The marker `fetchTournamentGames` refuses. */
  const PlaceholderMarker: string := "<PASTE_"

  /** The endpoint path as shipped, "<PASTE_SPORTSDATAIO_TOURNAMENT_GAMES_PATH_HERE>": still the placeholder. */
  const ShippedEndpointPath: string := PlaceholderMarker + "SPORTSDATAIO_TOURNAMENT_GAMES_PATH_HERE>"

  datatype ImportError = MissingKey | PathNotSet | ProviderError(status: int)

  datatype ImportResult =
    | ImportFailed(error: ImportError)   // 500
    | Imported(totalFetched: nat, upserted: nat, skippedMissingTeams: nat)

  /** The path as shipped carries the marker, so the route as shipped always fails before the store is touched. */
  lemma ShippedPathRefused()
    ensures Contains(ShippedEndpointPath, PlaceholderMarker)
  {
    assert ShippedEndpointPath[0..|PlaceholderMarker|] == PlaceholderMarker;
    ContainsAt(ShippedEndpointPath, PlaceholderMarker, 0);
  }

  /**
   * `POST`: fetch the schedule, build the team map and the rows, upsert them.
   * `key` is SPORTS_DATA_IO_KEY, `endpointPath` the configured path, `resp` the
   * provider's answer and `teamRows` the rows the team select returns.
   */
  method Post(db: Db, key: Option<string>, endpointPath: string, resp: SdResponse, teamRows: seq<TeamId>)
    returns (res: ImportResult)
    requires db.Valid() && UniqueGameSportsIds(db.games) && UniqueTeamSportsIds(db.teams)
    requires Selected(teamRows, db.teams, PayloadTeamIds(GamesOf(resp.body)))
    modifies db
    ensures db.Valid() && UniqueGameSportsIds(db.games)
    ensures db.teams == old(db.teams) && db.pools == old(db.pools)
    ensures key.None? || key.value == "" ==> res == ImportFailed(MissingKey)
    ensures key.Some? && key.value != "" && Contains(endpointPath, PlaceholderMarker) ==> res == ImportFailed(PathNotSet)
    ensures res.Imported? <==> key.Some? && key.value != "" && !Contains(endpointPath, PlaceholderMarker) && resp.ok
    ensures res.ImportFailed? ==> db.games == old(db.games) && db.nextGameId == old(db.nextGameId)
    ensures res.Imported? ==>
      var games := GamesOf(resp.body);
      var b := BuildBatch(SportsToLocal(old(db.teams), PayloadTeamIds(games)), games);
      res == Imported(|games|, |b.rows|, b.skippedMissingTeams) &&
      (db.games, db.nextGameId) == UpsertAll(old(db.games), old(db.nextGameId), b.rows)
  {
    if key.None? || key.value == "" {
      return ImportFailed(MissingKey);
    }
    if Contains(endpointPath, PlaceholderMarker) {
      return ImportFailed(PathNotSet);
    }
    if !resp.ok {
      return ImportFailed(ProviderError(resp.status));
    }
    var games := GamesOf(resp.body);
    var teamIds := CollectTeamIds(games);
    var sportsToLocal := BuildTeamMap(db.teams, teamIds, teamRows);
    var upserts, skippedMissingTeams := BuildRows(sportsToLocal, games);
    db.UpsertGames(upserts);
    return Imported(|games|, |upserts|, skippedMissingTeams);
  }

  // ---------------------------------------------------------------------------
  // What the import leaves in the store

  /** Some row of the batch is the last one carrying a given key. */
  lemma {:induction false} LastRowExists(rows: seq<UpsertRow>, i: int)
    requires 0 <= i < |rows|
    ensures exists j :: LastWithKey(rows, j) && rows[j].sportsdataGameId == rows[i].sportsdataGameId
    decreases |rows| - i
  {
    if LastWithKey(rows, i) {
    } else {
      var j :| i < j < |rows| && rows[j].sportsdataGameId == rows[i].sportsdataGameId;
      LastRowExists(rows, j);
    }
  }

  /**
   * After an import, the game keyed by each imported GameID holds the values of the
   * last row for it; in particular its winner and last sync time are cleared.
   */
  lemma ImportClearsWinner(games: Games, next: GameId, m: map<int, TeamId>, payload: seq<SdGame>, i: int)
    requires UniqueGameSportsIds(games) && IdsBelow(games, next)
    requires 0 <= i < |BuildBatch(m, payload).rows|
    ensures var rows := BuildBatch(m, payload).rows;
      var after := UpsertAll(games, next, rows).0;
      var k := GameBySportsId(after, rows[i].sportsdataGameId);
      k.Some? && after[k.value].winner.None? && after[k.value].lastSyncedAt.None?
  {
    var rows := BuildBatch(m, payload).rows;
    LastRowExists(rows, i);
    var j :| LastWithKey(rows, j) && rows[j].sportsdataGameId == rows[i].sportsdataGameId;
    UpsertAllKeyed(games, next, rows, j);
    var jj :| 0 <= jj < |payload| && Convert(m, payload[jj]) == Emit(rows[j]);
  }

  /** Games whose sportsdata_game_id is not an imported GameID are left as they were. */
  lemma ImportLeavesOthers(games: Games, next: GameId, m: map<int, TeamId>, payload: seq<SdGame>, k: GameId)
    requires UniqueGameSportsIds(games) && IdsBelow(games, next)
    requires k in games
    requires forall j :: 0 <= j < |payload| ==> games[k].sportsdataGameId != OrNull(payload[j].gameId)
    ensures var after := UpsertAll(games, next, BuildBatch(m, payload).rows).0; k in after && after[k] == games[k]
  {
    var rows := BuildBatch(m, payload).rows;
    forall i | 0 <= i < |rows| ensures games[k].sportsdataGameId != Some(rows[i].sportsdataGameId) {
      var j :| 0 <= j < |payload| && Convert(m, payload[j]) == Emit(rows[i]);
    }
    UpsertAllFrame(games, next, rows, k);
  }
}

=== FILE: js.dfy ===
/**
 * JavaScript values as the admin routes see them: provider JSON fields that may be
 * missing, null or present; truthiness and `??`; the ASCII part of the string
 * methods the routes call (toLowerCase, trim, includes, replace); and the
 * conversions between integers and their decimal text (String(n), Number(s)).
 */
module Js {

  datatype Option<T> = None | Some(value: T)

  /** A field of a provider's JSON record: the key is absent, holds null, or holds a value. */
  datatype Field<T> = Undefined | Null | Val(value: T)

  /** `a ?? b`: both undefined and null fall through to `b`. */
  function Coalesce<T>(a: Field<T>, b: Field<T>): Field<T>
  {
    if a.Val? then a else b
  }

  /** `f ?? null`, as written into a nullable column. */
  function OrNull<T>(f: Field<T>): Option<T>
  {
    if f.Val? then Some(f.value) else None
  }

  /** A JSON scalar a provider may send where a number is expected. */
  datatype Scalar = SNum(n: int) | SStr(s: string)

  /** `Number(f)`: undefined is NaN (None), null is 0, a string is read as `JsNumber` does. */
  function NumberOf(f: Field<Scalar>): (r: Option<int>)
    ensures f.Null? ==> r == Some(0)
    ensures f.Undefined? ==> r.None?
    ensures f.Val? && f.value.SNum? ==> r == Some(f.value.n)
  {
    match f
    case Undefined => None
    case Null => Some(0)
    case Val(SNum(n)) => Some(n)
    case Val(SStr(s)) => JsNumber(s)
  }

  /** `String(f)`: a number's decimal text, a string itself, and "null" / "undefined" for the others. */
  function StringOf(f: Field<Scalar>): (r: string)
    ensures f.Val? && f.value.SStr? ==> r == f.value.s
  {
    match f
    case Undefined => "undefined"
    case Null => "null"
    case Val(SNum(n)) => IntToString(n)
    case Val(SStr(s)) => s
  }

  /** A numeric id and its decimal text give the same string, and different numbers give different strings. */
  lemma StringOfNumbers(a: int, b: int)
    ensures StringOf(Val(SNum(a))) == StringOf(Val(SStr(IntToString(a))))
    ensures StringOf(Val(SNum(a))) == StringOf(Val(SNum(b))) <==> a == b
  {
    if IntToString(a) == IntToString(b) {
      IntToStringInjective(a, b);
    }
  }

  /** `!!f` for a numeric field: 0, null and undefined are falsy. */
  predicate TruthyInt(f: Field<int>)
  {
    f.Val? && f.value != 0
  }

  /** `!!f` for a string field: "", null and undefined are falsy. */
  predicate TruthyStr(f: Field<string>)
  {
    f.Val? && f.value != ""
  }

  // ---------------------------------------------------------------------------
  // Characters and strings (ASCII)

  /** The ASCII characters that `trim()` and the regular expression `\s` treat as white space. */
  predicate IsSpace(c: char)
  {
    c == ' ' || c == '\t' || c == '\n' || c == '\r' || c == '\U{0B}' || c == '\U{0C}'
  }

  predicate IsUpper(c: char)
  {
    'A' <= c <= 'Z'
  }

  predicate IsDigit(c: char)
  {
    '0' <= c <= '9'
  }

  function LowerChar(c: char): (r: char)
    ensures !IsUpper(r)
    ensures IsUpper(c) ==> r as int == c as int + 32
    ensures !IsUpper(c) ==> r == c
  {
    if IsUpper(c) then (c as int + 32) as char else c
  }

  /** `toLowerCase()` over ASCII. */
  function Lower(s: string): (r: string)
    ensures |r| == |s|
    ensures forall i :: 0 <= i < |s| ==> r[i] == LowerChar(s[i])
  {
    seq(|s|, i requires 0 <= i < |s| => LowerChar(s[i]))
  }

  /** Drops the leading white space. */
  function TrimStart(s: string): (r: string)
    ensures |r| <= |s|
    ensures s != [] && IsSpace(s[0]) ==> |r| < |s|
  {
    if s != [] && IsSpace(s[0]) then TrimStart(s[1..]) else s
  }

  /** Drops the trailing white space. */
  function TrimEnd(s: string): (r: string)
    ensures |r| <= |s|
  {
    if s != [] && IsSpace(s[|s| - 1]) then TrimEnd(s[..|s| - 1]) else s
  }

  /** `trim()`: the string without its leading and trailing white space. */
  function Trim(s: string): string
  {
    TrimEnd(TrimStart(s))
  }

  /** TrimStart drops exactly the leading run of white space. */
  lemma {:induction false} TrimStartShape(s: string)
    ensures var r := TrimStart(s);
      r == s[|s| - |r|..] &&
      (r != [] ==> !IsSpace(r[0])) &&
      forall i :: 0 <= i < |s| - |r| ==> IsSpace(s[i])
  {
    if s != [] && IsSpace(s[0]) {
      var r := TrimStart(s[1..]);
      TrimStartShape(s[1..]);
      assert s[1..][|s| - 1 - |r|..] == s[|s| - |r|..];
      assert forall i :: 1 <= i < |s| - |r| ==> s[i] == s[1..][i - 1];
    }
  }

  /** TrimEnd drops exactly the trailing run of white space. */
  lemma {:induction false} TrimEndShape(s: string)
    ensures var r := TrimEnd(s);
      r == s[..|r|] &&
      (r != [] ==> !IsSpace(r[|r| - 1])) &&
      forall i :: |r| <= i < |s| ==> IsSpace(s[i])
  {
    if s != [] && IsSpace(s[|s| - 1]) {
      var r := TrimEnd(s[..|s| - 1]);
      TrimEndShape(s[..|s| - 1]);
      assert s[..|s| - 1][..|r|] == s[..|r|];
      assert forall i :: |r| <= i < |s| - 1 ==> s[i] == s[..|s| - 1][i];
    }
  }

  /** The trimmed string is a slice of the input with no white space at either end; it is empty exactly when the input is all white space. */
  lemma TrimShape(s: string)
    ensures exists a :: OccursAt(s, Trim(s), a)
    ensures var r := Trim(s); r != [] ==> !IsSpace(r[0]) && !IsSpace(r[|r| - 1])
    ensures Trim(s) == [] <==> forall i :: 0 <= i < |s| ==> IsSpace(s[i])
  {
    var t := TrimStart(s);
    var r := TrimEnd(t);
    TrimStartShape(s);
    TrimEndShape(t);
    assert s[|s| - |t|..|s| - |t| + |r|] == t[..|r|];
    assert Trim(s) == r;
    assert OccursAt(s, Trim(s), |s| - |t|);
    assert t != [] ==> t[0] == s[|s| - |t|];
    assert r != [] ==> r[0] == t[0];
  }

  /** `pat` occurs in `s` at index `i`. */
  predicate OccursAt(s: string, pat: string, i: int)
  {
    0 <= i && i + |pat| <= |s| && s[i..i + |pat|] == pat
  }

  /** The first index at or after `from` where `pat` occurs. */
  function IndexOfFrom(s: string, pat: string, from: nat): (r: Option<nat>)
    requires from <= |s|
    decreases |s| - from
    ensures r.Some? ==> from <= r.value && OccursAt(s, pat, r.value)
  {
    if from + |pat| > |s| then None
    else if s[from..from + |pat|] == pat then Some(from)
    else IndexOfFrom(s, pat, from + 1)
  }

  /** IndexOfFrom finds the first occurrence: none lies between `from` and its answer, and None means none at all. */
  lemma {:induction false} IndexOfFromFirst(s: string, pat: string, from: nat)
    requires from <= |s|
    decreases |s| - from
    ensures var r := IndexOfFrom(s, pat, from);
      (r.Some? ==> forall j :: from <= j < r.value ==> !OccursAt(s, pat, j)) &&
      (r.None? ==> forall j :: from <= j ==> !OccursAt(s, pat, j))
  {
    if from + |pat| <= |s| && s[from..from + |pat|] != pat {
      IndexOfFromFirst(s, pat, from + 1);
    }
  }

  /** `s.indexOf(pat)`, with None for -1. */
  function IndexOf(s: string, pat: string): Option<nat>
  {
    IndexOfFrom(s, pat, 0)
  }

  /** `s.includes(pat)`. */
  predicate Contains(s: string, pat: string)
  {
    IndexOf(s, pat).Some?
  }

  lemma ContainsAt(s: string, pat: string, i: int)
    requires OccursAt(s, pat, i)
    ensures Contains(s, pat)
  {
    IndexOfFromFirst(s, pat, 0);
  }

  /** `s.replace(pat, rep)` with a string pattern: only the first occurrence is replaced. */
  function ReplaceFirst(s: string, pat: string, rep: string): (r: string)
    ensures !Contains(s, pat) ==> r == s
    ensures Contains(s, pat) ==> |r| == |s| - |pat| + |rep|
    ensures Contains(s, pat) ==>
      exists i :: OccursAt(s, pat, i) && (forall j :: 0 <= j < i ==> !OccursAt(s, pat, j)) &&
        r == s[..i] + rep + s[i + |pat|..]
  {
    match IndexOf(s, pat)
    case None => s
    case Some(i) =>
      IndexOfFromFirst(s, pat, 0);
      s[..i] + rep + s[i + |pat|..]
  }

  // ---------------------------------------------------------------------------
  // Integers and their decimal text

  function DigitChar(d: nat): (c: char)
    requires d < 10
    ensures IsDigit(c) && c as int - '0' as int == d
  {
    ('0' as int + d) as char
  }

  predicate AllDigits(s: string)
  {
    forall i :: 0 <= i < |s| ==> IsDigit(s[i])
  }

  /** The value of a string of decimal digits. */
  function DigitsValue(s: string): nat
    requires AllDigits(s)
  {
    if s == [] then 0 else DigitsValue(s[..|s| - 1]) * 10 + (s[|s| - 1] as int - '0' as int)
  }

  /** `String(n)` for a natural number: its decimal digits, without leading zeros. */
  function NatToString(n: nat): (r: string)
    decreases n
    ensures |r| >= 1 && AllDigits(r)
    ensures r[0] == '0' ==> n == 0
  {
    if n < 10 then [DigitChar(n)] else NatToString(n / 10) + [DigitChar(n % 10)]
  }

  /** `String(n)` for an integer. */
  function IntToString(n: int): (r: string)
  {
    if n < 0 then "-" + NatToString(-n) else NatToString(n)
  }

  /** Reads back an optionally signed run of decimal digits; None for anything else. */
  function IntValue(s: string): Option<int>
  {
    if |s| >= 2 && s[0] == '-' && AllDigits(s[1..]) then Some(0 - DigitsValue(s[1..]) as int)
    else if |s| >= 1 && AllDigits(s) then Some(DigitsValue(s))
    else None
  }

  /**
   * `Number(s)` restricted to what provider ids look like: surrounding white space
   * is ignored, a blank string is 0, an optionally signed run of digits is its
   * value, and anything else is NaN (None).
   */
  function JsNumber(s: string): Option<int>
  {
    var t := Trim(s);
    if t == [] then Some(0) else IntValue(t)
  }

  lemma {:induction false} NatToStringRoundTrip(n: nat)
    ensures DigitsValue(NatToString(n)) == n
    decreases n
  {
    if n >= 10 {
      var p := NatToString(n / 10);
      var r := NatToString(n);
      assert r[..|r| - 1] == p;
      NatToStringRoundTrip(n / 10);
    }
  }

  lemma NatToStringInjective(a: nat, b: nat)
    requires NatToString(a) == NatToString(b)
    ensures a == b
  {
    NatToStringRoundTrip(a);
    NatToStringRoundTrip(b);
  }

  /** Every integer's text reads back as that integer. */
  lemma IntToStringRoundTrip(n: int)
    ensures IntValue(IntToString(n)) == Some(n)
  {
    if n < 0 {
      var d := NatToString(-n);
      assert IntToString(n)[1..] == d;
      NatToStringRoundTrip(-n);
    } else {
      NatToStringRoundTrip(n);
    }
  }

  lemma IntToStringInjective(a: int, b: int)
    requires IntToString(a) == IntToString(b)
    ensures a == b
  {
    IntToStringRoundTrip(a);
    IntToStringRoundTrip(b);
  }

  /** `Number(String(n)) == n` for every integer. */
  lemma JsNumberOfIntToString(n: int)
    ensures JsNumber(IntToString(n)) == Some(n)
  {
    var s := IntToString(n);
    assert !IsSpace(s[0]) && !IsSpace(s[|s| - 1]);
    TrimOfTrimmed(s);
    IntToStringRoundTrip(n);
  }

  lemma TrimOfTrimmed(s: string)
    requires s != [] && !IsSpace(s[0]) && !IsSpace(s[|s| - 1])
    ensures Trim(s) == s
  {
  }
}

=== FILE: link_games.dfy ===
/**
 * app/api/admin/link-games/route.ts: fills in `sportsdata_game_id` on games that have
 * a date and both teams but no provider id yet, by fetching SportsDataIO's final games
 * for each date once and matching them on the pair of provider team ids.
 */
module LinkGames {
  import opened Js
  import opened Store

  // ---------------------------------------------------------------------------
  // Candidates

  /** `is("sportsdata_game_id", null)` and `not(..., "is", null)` on the date and both teams. */
  predicate IsCandidate(g: Game)
  {
    g.sportsdataGameId.None? && g.gameDate.Some? && g.team1.Some? && g.team2.Some?
  }

  /** The columns the candidate query selects: `id, game_date, team1_id, team2_id`. */
  datatype Local = Local(id: GameId, date: string, team1: TeamId, team2: TeamId)

  /** The rows the candidate query returns, each once, in the order the store gives them. */
  ghost predicate Candidates(games: Games, rows: seq<GameId>)
  {
    (forall i, j :: 0 <= i < j < |rows| ==> rows[i] != rows[j]) &&
    (forall j :: 0 <= j < |rows| ==> rows[j] in games && IsCandidate(games[rows[j]])) &&
    forall k :: k in games && IsCandidate(games[k]) ==> k in rows
  }

  /** The selected columns of one candidate row. */
  function LocalOf(id: GameId, g: Game): (l: Local)
    requires IsCandidate(g)
    ensures l.id == id && Some(l.date) == g.gameDate && Some(l.team1) == g.team1 && Some(l.team2) == g.team2
  {
    Local(id, g.gameDate.value, g.team1.value, g.team2.value)
  }

  /** The selected columns of each candidate row. */
  function Locals(games: Games, rows: seq<GameId>): (ls: seq<Local>)
    requires forall j :: 0 <= j < |rows| ==> rows[j] in games && IsCandidate(games[rows[j]])
    ensures |ls| == |rows|
    ensures forall j :: 0 <= j < |rows| ==> ls[j] == LocalOf(rows[j], games[rows[j]])
  {
    seq(|rows|, j requires 0 <= j < |rows| => LocalOf(rows[j], games[rows[j]]))
  }

  // ---------------------------------------------------------------------------
  // `localToSports`

  /** `new Set(localGames.flatMap(g => [g.team1_id, g.team2_id]))` */
  function TeamIdsOf(ls: seq<Local>): (ids: set<TeamId>)
    ensures forall l :: l in ls ==> l.team1 in ids && l.team2 in ids
    ensures forall t :: t in ids ==> exists l :: l in ls && (t == l.team1 || t == l.team2)
  {
    (set l | l in ls :: l.team1) + (set l | l in ls :: l.team2)
  }

  /** Team id to provider team id, for the teams asked for that have one. */
  function LocalToSports(teams: Teams, ids: set<TeamId>): (m: map<TeamId, int>)
    ensures forall t :: t in m <==> t in ids && t in teams && teams[t].sportsdataTeamId.Some?
    ensures forall t :: t in m ==> teams[t].sportsdataTeamId == Some(m[t])
  {
    map t | t in ids && t in teams && teams[t].sportsdataTeamId.Some? :: teams[t].sportsdataTeamId.value
  }

  /** The rows `select("id,sportsdata_team_id").in("id", ids)` returns, in some order. */
  ghost predicate SelectedTeams(rows: seq<TeamId>, teams: Teams, ids: set<TeamId>)
  {
    (forall j :: 0 <= j < |rows| ==> rows[j] in teams && rows[j] in ids) &&
    forall t :: t in teams && t in ids ==> t in rows
  }

  /** The loop over the team rows: a row with a null provider id is left out of the map. */
  method BuildLocalToSports(teams: Teams, ids: set<TeamId>, rows: seq<TeamId>) returns (m: map<TeamId, int>)
    requires SelectedTeams(rows, teams, ids)
    ensures m == LocalToSports(teams, ids)
  {
    m := map[];
    var i := 0;
    while i < |rows|
      invariant 0 <= i <= |rows|
      invariant forall t :: t in m ==> t in ids && t in teams && teams[t].sportsdataTeamId == Some(m[t])
      invariant forall j :: 0 <= j < i && teams[rows[j]].sportsdataTeamId.Some? ==> rows[j] in m
    {
      var t := teams[rows[i]];
      if t.sportsdataTeamId.Some? {
        m := m[rows[i] := t.sportsdataTeamId.value];
      }
      i := i + 1;
    }
    var want := LocalToSports(teams, ids);
    forall t | t in want ensures t in m {
      assert t in rows;
      var j :| 0 <= j < |rows| && rows[j] == t;
    }
  }

  // ---------------------------------------------------------------------------
  // `byDate`

  /** A `Map<string, Local[]>` with its keys in insertion order. */
  datatype Groups = Groups(dates: seq<string>, byDate: map<string, seq<Local>>)

  predicate Distinct(ds: seq<string>)
  {
    forall i, j :: 0 <= i < j < |ds| ==> ds[i] != ds[j]
  }

  function DatesOf(ls: seq<Local>): set<string>
  {
    set l | l in ls :: l.date
  }

  /**
   * The grouping loop: a date seen for the first time opens a new group at the end of
   * the key order, and every candidate is pushed onto its date's group.
   */
  function GroupByDate(ls: seq<Local>): (g: Groups)
    ensures Distinct(g.dates)
    ensures forall d :: d in g.byDate <==> d in g.dates
    decreases |ls|
  {
    if ls == [] then Groups([], map[])
    else
      var p := GroupByDate(ls[..|ls| - 1]);
      var l := ls[|ls| - 1];
      if l.date in p.byDate then Groups(p.dates, p.byDate[l.date := p.byDate[l.date] + [l]])
      else Groups(p.dates + [l.date], p.byDate[l.date := [l]])
  }

  /** The dates fetched are exactly the candidates' dates, and each group holds only candidates of its date. */
  ghost predicate GroupedByDate(ls: seq<Local>, g: Groups)
  {
    (forall d :: d in g.dates <==> d in DatesOf(ls)) &&
    forall d, l :: d in g.byDate && l in g.byDate[d] ==> l.date == d && l in ls
  }

  lemma {:induction false} GroupDates(ls: seq<Local>)
    ensures GroupedByDate(ls, GroupByDate(ls))
    decreases |ls|
  {
    if ls != [] {
      var pre := ls[..|ls| - 1];
      var l := ls[|ls| - 1];
      GroupDates(pre);
      assert ls == pre + [l];
      assert ls[..|pre|] == pre;
      var p := GroupByDate(pre);
      var g := GroupByDate(ls);
      if l.date in p.byDate {
        assert g == Groups(p.dates, p.byDate[l.date := p.byDate[l.date] + [l]]);
      } else {
        assert g == Groups(p.dates + [l.date], p.byDate[l.date := [l]]);
      }
      GroupDatesStep(pre, l, p, g);
    }
  }

  lemma GroupDatesStep(pre: seq<Local>, l: Local, p: Groups, g: Groups)
    requires GroupedByDate(pre, p)
    requires forall d :: d in p.byDate <==> d in p.dates
    requires l.date in p.byDate ==> g == Groups(p.dates, p.byDate[l.date := p.byDate[l.date] + [l]])
    requires l.date !in p.byDate ==> g == Groups(p.dates + [l.date], p.byDate[l.date := [l]])
    ensures GroupedByDate(pre + [l], g)
  {
    var ls := pre + [l];
    assert DatesOf(ls) == DatesOf(pre) + {l.date};
    forall d, x | d in g.byDate && x in g.byDate[d]
      ensures x.date == d && x in ls
    {
      if d == l.date && x != l {
        assert x in p.byDate[d];
      }
    }
  }

  /** The candidates in the order the dates loop visits them: group by group. */
  function Flatten(dates: seq<string>, byDate: map<string, seq<Local>>): seq<Local>
    requires forall d :: d in dates ==> d in byDate
    decreases |dates|
  {
    if dates == [] then []
    else Flatten(dates[..|dates| - 1], byDate) + byDate[dates[|dates| - 1]]
  }

  lemma {:induction false} FlattenFrame(dates: seq<string>, byDate: map<string, seq<Local>>, d: string, v: seq<Local>)
    requires forall e :: e in dates ==> e in byDate
    requires d !in dates
    ensures Flatten(dates, byDate[d := v]) == Flatten(dates, byDate)
    decreases |dates|
  {
    if dates != [] {
      FlattenFrame(dates[..|dates| - 1], byDate, d, v);
    }
  }

  lemma {:induction false} FlattenPush(dates: seq<string>, byDate: map<string, seq<Local>>, d: string, x: Local)
    requires forall e :: e in dates ==> e in byDate
    requires Distinct(dates) && d in dates
    ensures multiset(Flatten(dates, byDate[d := byDate[d] + [x]])) == multiset(Flatten(dates, byDate)) + multiset{x}
    decreases |dates|
  {
    var pre := dates[..|dates| - 1];
    var last := dates[|dates| - 1];
    var m := byDate[d := byDate[d] + [x]];
    if last == d {
      assert d !in pre;
      FlattenFrame(pre, byDate, d, byDate[d] + [x]);
    } else {
      assert d in pre;
      FlattenPush(pre, byDate, d, x);
    }
    assert Flatten(dates, m) == Flatten(pre, m) + m[last];
  }

  /** Every candidate lands in exactly one group, once: the groups are a permutation of the candidates. */
  lemma {:induction false} GroupPermutes(ls: seq<Local>)
    ensures multiset(Visited(ls)) == multiset(ls)
    decreases |ls|
  {
    if ls != [] {
      var pre := ls[..|ls| - 1];
      var l := ls[|ls| - 1];
      GroupPermutes(pre);
      assert ls == pre + [l];
      GroupFlattenStep(pre, l);
    }
  }

  /** The candidates in the order the dates loop visits them. */
  function Visited(ls: seq<Local>): seq<Local>
  {
    Flatten(GroupByDate(ls).dates, GroupByDate(ls).byDate)
  }

  /** Adding one candidate to the grouping adds it once to the flattened groups. */
  lemma GroupFlattenStep(pre: seq<Local>, l: Local)
    ensures multiset(Visited(pre + [l])) == multiset(Visited(pre)) + multiset{l}
  {
    var p := GroupByDate(pre);
    assert (pre + [l])[..|pre|] == pre;
    if l.date in p.byDate {
      FlattenPush(p.dates, p.byDate, l.date, l);
    } else {
      FlattenNew(p.dates, p.byDate, l.date, l);
    }
  }

  lemma FlattenNew(dates: seq<string>, byDate: map<string, seq<Local>>, d: string, x: Local)
    requires forall e :: e in dates ==> e in byDate
    requires d !in dates
    ensures Flatten(dates + [d], byDate[d := [x]]) == Flatten(dates, byDate) + [x]
  {
    FlattenFrame(dates, byDate, d, [x]);
    assert (dates + [d])[..|dates|] == dates;
  }

  /** The grouping loop, building the map as the route does. */
  method GroupLocals(ls: seq<Local>) returns (g: Groups)
    ensures g == GroupByDate(ls)
  {
    g := Groups([], map[]);
    var i := 0;
    while i < |ls|
      invariant 0 <= i <= |ls|
      invariant g == GroupByDate(ls[..i])
    {
      ghost var before := g;
      var l := ls[i];
      var dates, byDate := g.dates, g.byDate;
      if l.date !in byDate {
        byDate := byDate[l.date := []];
        dates := dates + [l.date];
      }
      byDate := byDate[l.date := byDate[l.date] + [l]];
      g := Groups(dates, byDate);
      assert ls[..i + 1] == ls[..i] + [l];
      GroupStep(ls[..i], l, before, g);
      i := i + 1;
    }
    assert ls[..i] == ls;
  }

  lemma GroupStep(pre: seq<Local>, l: Local, before: Groups, after: Groups)
    requires before == GroupByDate(pre)
    requires l.date in before.byDate ==> after == Groups(before.dates, before.byDate[l.date := before.byDate[l.date] + [l]])
    requires l.date !in before.byDate ==> after == Groups(before.dates + [l.date], before.byDate[l.date := [] + [l]])
    ensures after == GroupByDate(pre + [l])
  {
    assert (pre + [l])[..|pre|] == pre;
    assert [] + [l] == [l];
  }

  // ---------------------------------------------------------------------------
  // `apiIndex`

  /** One element of the provider's array; a null element reads as all three fields missing (`ag?.X`). */
  datatype ApiGame = ApiGame(home: Field<int>, away: Field<int>, gid: Field<int>)

  /** The index key `${home}-${away}`. */
  function PairKey(h: int, a: int): string
  {
    IntToString(h) + "-" + IntToString(a)
  }

  /** Only the sign of a number's text can be a '-'. */
  lemma DashOnlyFirst(n: int, i: int)
    requires 1 <= i < |IntToString(n)|
    ensures IntToString(n)[i] != '-'
  {
    if n < 0 {
      assert IntToString(n)[i] == NatToString(-n)[i - 1];
    }
  }

  /** The first '-' after the first character ends the home id, so a key names one ordered pair. */
  lemma PairKeyInjective(h: int, a: int, h2: int, a2: int)
    requires PairKey(h, a) == PairKey(h2, a2)
    ensures h == h2 && a == a2
  {
    var x, x2 := IntToString(h), IntToString(h2);
    var k := PairKey(h, a);
    if |x| < |x2| {
      assert k[|x|] == '-';
      assert k[|x|] == x2[|x|];
      DashOnlyFirst(h2, |x|);
    } else if |x2| < |x| {
      assert k[|x2|] == '-';
      assert k[|x2|] == x[|x2|];
      DashOnlyFirst(h, |x2|);
    }
    assert x == k[..|x|] == x2;
    IntToStringInjective(h, h2);
    assert IntToString(a) == k[|x| + 1..] == IntToString(a2);
    IntToStringInjective(a, a2);
  }

  /** `if (!home || !away || !gid) continue;` keeps an element out of the index. */
  predicate Indexed(g: ApiGame)
  {
    TruthyInt(g.home) && TruthyInt(g.away) && TruthyInt(g.gid)
  }

  /** The index loop: each usable element sets both orders of its pair, later elements overriding. */
  function PairIndex(api: seq<ApiGame>): (idx: map<string, int>)
    ensures forall k :: k in idx ==> idx[k] != 0
    decreases |api|
  {
    if api == [] then map[]
    else
      var g := api[|api| - 1];
      var idx := PairIndex(api[..|api| - 1]);
      if !Indexed(g) then idx
      else idx[PairKey(g.home.value, g.away.value) := g.gid.value][PairKey(g.away.value, g.home.value) := g.gid.value]
  }

  /** An element indexes the unordered pair {h, a}. */
  predicate Matches(g: ApiGame, h: int, a: int)
  {
    Indexed(g) &&
    ((g.home.value == h && g.away.value == a) || (g.home.value == a && g.away.value == h))
  }

  /** The GameID of the last usable element between teams h and a, in either order. */
  function LastMatch(api: seq<ApiGame>, h: int, a: int): (r: Option<int>)
    ensures r.Some? ==> exists i :: 0 <= i < |api| && Matches(api[i], h, a) && api[i].gid == Val(r.value)
    ensures r.None? ==> forall i :: 0 <= i < |api| ==> !Matches(api[i], h, a)
    decreases |api|
  {
    if api == [] then None
    else if Matches(api[|api| - 1], h, a) then Some(api[|api| - 1].gid.value)
    else
      var r := LastMatch(api[..|api| - 1], h, a);
      assert forall i :: 0 <= i < |api| - 1 ==> api[..|api| - 1][i] == api[i];
      r
  }

  lemma {:induction false} LastMatchSymmetric(api: seq<ApiGame>, h: int, a: int)
    ensures LastMatch(api, h, a) == LastMatch(api, a, h)
    decreases |api|
  {
    if api != [] {
      LastMatchSymmetric(api[..|api| - 1], h, a);
    }
  }

  /** Looking up "h-a" in the index gives the GameID of the last element between h and a. */
  lemma {:induction false} PairIndexLookup(api: seq<ApiGame>, h: int, a: int)
    ensures PairKey(h, a) in PairIndex(api) <==> LastMatch(api, h, a).Some?
    ensures PairKey(h, a) in PairIndex(api) ==> PairIndex(api)[PairKey(h, a)] == LastMatch(api, h, a).value
    decreases |api|
  {
    if api != [] {
      var g := api[|api| - 1];
      PairIndexLookup(api[..|api| - 1], h, a);
      if Indexed(g) && !Matches(g, h, a) {
        if PairKey(h, a) == PairKey(g.home.value, g.away.value) {
          PairKeyInjective(h, a, g.home.value, g.away.value);
        }
        if PairKey(h, a) == PairKey(g.away.value, g.home.value) {
          PairKeyInjective(h, a, g.away.value, g.home.value);
        }
      }
    }
  }

  /** The index is symmetric: "h-a" and "a-h" are both present or both absent, with the same GameID. */
  lemma PairIndexSymmetric(api: seq<ApiGame>, h: int, a: int)
    ensures PairKey(h, a) in PairIndex(api) <==> PairKey(a, h) in PairIndex(api)
    ensures PairKey(h, a) in PairIndex(api) ==> PairIndex(api)[PairKey(h, a)] == PairIndex(api)[PairKey(a, h)]
  {
    PairIndexLookup(api, h, a);
    PairIndexLookup(api, a, h);
    LastMatchSymmetric(api, h, a);
  }

  /** The index loop as the route writes it. */
  method BuildPairIndex(api: seq<ApiGame>) returns (idx: map<string, int>)
    ensures idx == PairIndex(api)
  {
    idx := map[];
    var i := 0;
    while i < |api|
      invariant 0 <= i <= |api|
      invariant idx == PairIndex(api[..i])
    {
      var g := api[i];
      assert api[..i + 1][..i] == api[..i] && api[..i + 1][i] == g;
      if Indexed(g) {
        idx := idx[PairKey(g.home.value, g.away.value) := g.gid.value];
        idx := idx[PairKey(g.away.value, g.home.value) := g.gid.value];
      }
      i := i + 1;
    }
    assert api[..i] == api;
  }

  // ---------------------------------------------------------------------------
  // Linking

  /** The store and the counters `linked` and `notFound`. */
  datatype LinkState = LinkState(games: Games, linked: nat, notFound: nat)

  function IdsOf(ls: seq<Local>): set<GameId>
  {
    set l | l in ls :: l.id
  }

  /** Only sportsdata_game_id changes, and only on the rows in `ids`. */
  ghost predicate OnlyLinks(a: Games, b: Games, ids: set<GameId>)
  {
    a.Keys == b.Keys &&
    (forall k :: k in a ==> b[k] == a[k].(sportsdataGameId := b[k].sportsdataGameId)) &&
    forall k :: k in a && k !in ids ==> b[k] == a[k]
  }

  lemma OnlyLinksTrans(a: Games, b: Games, c: Games, s: set<GameId>, t: set<GameId>)
    requires OnlyLinks(a, b, s) && OnlyLinks(b, c, t)
    ensures OnlyLinks(a, c, s + t)
  {
  }

  /** A provider team id as `localToSports.get(id)` gives it, with a missing entry read as falsy 0. */
  function SportsOf(m: map<TeamId, int>, t: TeamId): int
  {
    if t in m then m[t] else 0
  }

  /**
   * The GameID a candidate is linked to: None when a team has no truthy provider id
   * (`!s1 || !s2`) or "s1-s2" is not indexed (`!gameId`).
   */
  function GameIdFor(m: map<TeamId, int>, idx: map<string, int>, l: Local): Option<int>
  {
    var s1 := SportsOf(m, l.team1);
    var s2 := SportsOf(m, l.team2);
    if s1 == 0 || s2 == 0 then None
    else if PairKey(s1, s2) !in idx || idx[PairKey(s1, s2)] == 0 then None
    else Some(idx[PairKey(s1, s2)])
  }

  /**
   * Against the index of a date's games, a candidate gets the GameID of the last
   * provider game between its two teams, in either home/away order, and none when
   * a team is unmapped or no such game exists.
   */
  lemma GameIdForLastMatch(m: map<TeamId, int>, api: seq<ApiGame>, l: Local)
    ensures SportsOf(m, l.team1) == 0 || SportsOf(m, l.team2) == 0 ==> GameIdFor(m, PairIndex(api), l).None?
    ensures SportsOf(m, l.team1) != 0 && SportsOf(m, l.team2) != 0 ==>
      GameIdFor(m, PairIndex(api), l) == LastMatch(api, SportsOf(m, l.team1), SportsOf(m, l.team2))
    ensures GameIdFor(m, PairIndex(api), l) == GameIdFor(m, PairIndex(api), l.(team1 := l.team2, team2 := l.team1))
  {
    var s1, s2 := SportsOf(m, l.team1), SportsOf(m, l.team2);
    PairIndexLookup(api, s1, s2);
    PairIndexLookup(api, s2, s1);
    LastMatchSymmetric(api, s1, s2);
  }

  /** One candidate: link it to the indexed GameID, or count it as not found. */
  function LinkStep(m: map<TeamId, int>, idx: map<string, int>, s: LinkState, l: Local): (r: LinkState)
    ensures r.linked + r.notFound == s.linked + s.notFound + 1
    ensures r.linked == s.linked + (if GameIdFor(m, idx, l).Some? then 1 else 0)
    ensures OnlyLinks(s.games, r.games, {l.id})
    ensures l.id in s.games ==>
      (r.games[l.id].sportsdataGameId ==
       if GameIdFor(m, idx, l).Some? then GameIdFor(m, idx, l) else s.games[l.id].sportsdataGameId)
  {
    match GameIdFor(m, idx, l)
    case None => s.(notFound := s.notFound + 1)
    case Some(gid) =>
      // an update whose `eq("id", ...)` matches no row is not an error, and still counts
      var games := if l.id in s.games then s.games[l.id := s.games[l.id].(sportsdataGameId := Some(gid))] else s.games;
      LinkState(games, s.linked + 1, s.notFound)
  }

  /** The loop over one date's candidates. */
  function GroupRun(m: map<TeamId, int>, idx: map<string, int>, s: LinkState, ls: seq<Local>): (r: LinkState)
    ensures r.linked + r.notFound == s.linked + s.notFound + |ls|
    decreases |ls|
  {
    if ls == [] then s
    else
      var pre := ls[..|ls| - 1];
      LinkStep(m, idx, GroupRun(m, idx, s, pre), ls[|ls| - 1])
  }

  /** A date's loop changes only sportsdata_game_id, and only on that date's candidates. */
  lemma {:induction false} GroupRunOnlyLinks(m: map<TeamId, int>, idx: map<string, int>, s: LinkState, ls: seq<Local>)
    ensures OnlyLinks(s.games, GroupRun(m, idx, s, ls).games, IdsOf(ls))
    decreases |ls|
  {
    if ls != [] {
      var pre := ls[..|ls| - 1];
      var l := ls[|ls| - 1];
      assert ls == pre + [l];
      GroupRunOnlyLinks(m, idx, s, pre);
      LinkStepOnlyLinks(m, idx, s.games, GroupRun(m, idx, s, pre), pre, l);
    }
  }

  lemma LinkStepOnlyLinks(m: map<TeamId, int>, idx: map<string, int>, games: Games, p: LinkState, pre: seq<Local>, l: Local)
    requires OnlyLinks(games, p.games, IdsOf(pre))
    ensures OnlyLinks(games, LinkStep(m, idx, p, l).games, IdsOf(pre + [l]))
  {
    OnlyLinksTrans(games, p.games, LinkStep(m, idx, p, l).games, IdsOf(pre), {l.id});
    IdsOfAppend(pre, [l]);
    assert IdsOf([l]) == {l.id};
  }

  /** The answer of `GamesByDateFinal/{date}`: `apiGames ?? []` is the list. */
  datatype DayResponse = DayResponse(ok: bool, status: int, games: seq<ApiGame>)

  /** The state after the dates loop, and the status of the response that stopped it, if any. */
  datatype RunResult = RunResult(state: LinkState, failed: Option<int>)

  /**
   * The dates loop over the first `n` dates: each date's response is indexed and its group linked against it;
   * a response that is not ok stops the loop, keeping what earlier dates wrote.
   */
  function DatesRun(m: map<TeamId, int>, byDate: map<string, seq<Local>>, dates: seq<string>, n: nat,
                    fetch: string -> DayResponse, games: Games): RunResult
    requires forall d :: d in dates ==> d in byDate
    requires n <= |dates|
  {
    if n == 0 then RunResult(LinkState(games, 0, 0), None)
    else
      var p := DatesRun(m, byDate, dates, n - 1, fetch, games);
      var resp := fetch(dates[n - 1]);
      if p.failed.Some? then p
      else if !resp.ok then RunResult(p.state, Some(resp.status))
      else RunResult(GroupRun(m, PairIndex(resp.games), p.state, byDate[dates[n - 1]]), None)
  }

  /**
   * The dates loop changes only sportsdata_game_id, and only on candidates it visited;
   * when no response stops it, every visited candidate is counted once, as linked or
   * as not found.
   */
  lemma {:induction false} DatesRunCounts(m: map<TeamId, int>, byDate: map<string, seq<Local>>, dates: seq<string>,
                                          n: nat, fetch: string -> DayResponse, games: Games)
    requires forall d :: d in dates ==> d in byDate
    requires n <= |dates|
    ensures forall d :: d in dates[..n] ==> d in byDate
    ensures var r := DatesRun(m, byDate, dates, n, fetch, games);
      OnlyLinks(games, r.state.games, IdsOf(Flatten(dates[..n], byDate))) &&
      (r.failed.None? ==> r.state.linked + r.state.notFound == |Flatten(dates[..n], byDate)|)
  {
    assert forall d :: d in dates[..n] ==> d in dates;
    if n > 0 {
      var pre := dates[..n - 1];
      var d := dates[n - 1];
      assert dates[..n] == pre + [d];
      assert dates[..n][..n - 1] == pre;
      DatesRunCounts(m, byDate, dates, n - 1, fetch, games);
      var p := DatesRun(m, byDate, dates, n - 1, fetch, games);
      var resp := fetch(d);
      assert Flatten(dates[..n], byDate) == Flatten(pre, byDate) + byDate[d];
      IdsOfAppend(Flatten(pre, byDate), byDate[d]);
      if p.failed.None? && resp.ok {
        var r := GroupRun(m, PairIndex(resp.games), p.state, byDate[d]);
        GroupRunOnlyLinks(m, PairIndex(resp.games), p.state, byDate[d]);
        OnlyLinksTrans(games, p.state.games, r.games, IdsOf(Flatten(pre, byDate)), IdsOf(byDate[d]));
      }
    }
  }

  lemma IdsOfAppend(a: seq<Local>, b: seq<Local>)
    ensures IdsOf(a + b) == IdsOf(a) + IdsOf(b)
  {
    assert forall x :: x in a + b <==> x in a || x in b;
  }

  /** Once a response has stopped the loop, later dates change nothing. */
  lemma {:induction false} DatesRunStops(m: map<TeamId, int>, byDate: map<string, seq<Local>>, dates: seq<string>,
                                         n: nat, k: nat, fetch: string -> DayResponse, games: Games)
    requires forall d :: d in dates ==> d in byDate
    requires n <= k <= |dates| && DatesRun(m, byDate, dates, n, fetch, games).failed.Some?
    ensures DatesRun(m, byDate, dates, k, fetch, games) == DatesRun(m, byDate, dates, n, fetch, games)
    decreases k
  {
    if n < k {
      DatesRunStops(m, byDate, dates, n, k - 1, fetch, games);
    }
  }

  // ---------------------------------------------------------------------------
  // The loops as the route writes them

  /** The body of the candidate loop: the two map reads, the index read and the update. */
  method LinkOne(db: Db, m: map<TeamId, int>, idx: map<string, int>, s: LinkState, l: Local) returns (r: LinkState)
    requires s.games == db.games
    modifies db
    ensures r == LinkStep(m, idx, s, l) && r.games == db.games
    ensures db.teams == old(db.teams) && db.pools == old(db.pools) && db.nextGameId == old(db.nextGameId)
  {
    var s1 := if l.team1 in m then m[l.team1] else 0;
    var s2 := if l.team2 in m then m[l.team2] else 0;
    if s1 == 0 || s2 == 0 {
      return s.(notFound := s.notFound + 1);
    }
    var key := PairKey(s1, s2);
    if key !in idx || idx[key] == 0 {
      return s.(notFound := s.notFound + 1);
    }
    var gameId := idx[key];
    if l.id in db.games {
      db.UpdateGame(l.id, db.games[l.id].(sportsdataGameId := Some(gameId)));
    }
    r := LinkState(db.games, s.linked + 1, s.notFound);
  }

  /** `for (const lg of gamesForDate)` */
  method LinkGroup(db: Db, m: map<TeamId, int>, idx: map<string, int>, s: LinkState, ls: seq<Local>) returns (r: LinkState)
    requires s.games == db.games
    modifies db
    ensures r == GroupRun(m, idx, s, ls) && r.games == db.games
    ensures db.teams == old(db.teams) && db.pools == old(db.pools) && db.nextGameId == old(db.nextGameId)
  {
    r := s;
    var i := 0;
    while i < |ls|
      invariant 0 <= i <= |ls|
      invariant db.teams == old(db.teams) && db.pools == old(db.pools) && db.nextGameId == old(db.nextGameId)
      invariant r == GroupRun(m, idx, s, ls[..i]) && r.games == db.games
    {
      assert ls[..i + 1][..i] == ls[..i];
      r := LinkOne(db, m, idx, r, ls[i]);
      i := i + 1;
    }
    assert ls[..i] == ls;
  }

  /** `for (const [date, gamesForDate] of byDate.entries())`: fetch, index, link. */
  method LinkDates(db: Db, m: map<TeamId, int>, g: Groups, fetch: string -> DayResponse) returns (run: RunResult)
    requires forall d :: d in g.dates ==> d in g.byDate
    modifies db
    ensures run == DatesRun(m, g.byDate, g.dates, |g.dates|, fetch, old(db.games)) && run.state.games == db.games
    ensures db.teams == old(db.teams) && db.pools == old(db.pools) && db.nextGameId == old(db.nextGameId)
  {
    var s := LinkState(db.games, 0, 0);
    var i := 0;
    while i < |g.dates|
      invariant 0 <= i <= |g.dates|
      invariant db.teams == old(db.teams) && db.pools == old(db.pools) && db.nextGameId == old(db.nextGameId)
      invariant DatesRun(m, g.byDate, g.dates, i, fetch, old(db.games)) == RunResult(s, None)
      invariant s.games == db.games
    {
      var date := g.dates[i];
      var resp := fetch(date);
      if !resp.ok {
        run := RunResult(s, Some(resp.status));
        DatesRunStops(m, g.byDate, g.dates, i + 1, |g.dates|, fetch, old(db.games));
        return;
      }
      var idx := BuildPairIndex(resp.games);
      ghost var want := DatesRun(m, g.byDate, g.dates, i + 1, fetch, old(db.games));
      assert want == RunResult(GroupRun(m, idx, s, g.byDate[date]), None);
      s := LinkGroup(db, m, idx, s, g.byDate[date]);
      assert want == RunResult(s, None);
      i := i + 1;
    }
    run := RunResult(s, None);
  }

  // ---------------------------------------------------------------------------
  // The route

  datatype LinkOutcome =
    | NoCandidates
    | Failed(message: string)
    | ProviderError(status: int)
    | Linked(linked: nat, notFound: nat)

  lemma IdsOfLocals(games: Games, rows: seq<GameId>)
    requires forall j :: 0 <= j < |rows| ==> rows[j] in games && IsCandidate(games[rows[j]])
    ensures forall k :: k in IdsOf(Locals(games, rows)) <==> k in rows
  {
    var ls := Locals(games, rows);
    forall k | k in rows ensures k in IdsOf(ls) {
      var j :| 0 <= j < |rows| && rows[j] == k;
      assert ls[j] in ls;
    }
  }

  lemma IdsOfPermutation(a: seq<Local>, b: seq<Local>)
    requires multiset(a) == multiset(b)
    ensures IdsOf(a) == IdsOf(b)
  {
    assert forall x :: x in a <==> x in multiset(a);
    assert forall x :: x in b <==> x in multiset(b);
  }

  /**
   * `GET`: with no candidates it answers a message and calls nobody; otherwise it maps
   * the candidates' teams, groups them by date, and links date by date. The first
   * fetch throws when the key is unset, before any write.
   */
  method Get(db: Db, key: Field<string>, rows: seq<GameId>, teamRows: seq<TeamId>, fetch: string -> DayResponse)
    returns (res: LinkOutcome)
    requires Candidates(db.games, rows)
    requires SelectedTeams(teamRows, db.teams, TeamIdsOf(Locals(db.games, rows)))
    modifies db
    ensures db.teams == old(db.teams) && db.pools == old(db.pools) && db.nextGameId == old(db.nextGameId)
    ensures rows == [] ==> res == NoCandidates && db.games == old(db.games)
    ensures rows != [] && !TruthyStr(key) ==> res == Failed("SPORTS_DATA_IO_KEY is missing") && db.games == old(db.games)
    ensures forall k :: k in old(db.games) && k !in rows ==> k in db.games && db.games[k] == old(db.games)[k]
    ensures OnlyLinks(old(db.games), db.games, IdsOf(Locals(old(db.games), rows)))
    ensures rows != [] && TruthyStr(key) ==>
      var ls := Locals(old(db.games), rows);
      var g := GroupByDate(ls);
      var run := DatesRun(LocalToSports(old(db.teams), TeamIdsOf(ls)), g.byDate, g.dates, |g.dates|, fetch, old(db.games));
      db.games == run.state.games &&
      (run.failed.Some? ==> res == ProviderError(run.failed.value)) &&
      (run.failed.None? ==> res == Linked(run.state.linked, run.state.notFound) &&
                            run.state.linked + run.state.notFound == |rows|)
  {
    var ls := Locals(db.games, rows);
    IdsOfLocals(db.games, rows);
    if |rows| == 0 {
      return NoCandidates;
    }
    var m := BuildLocalToSports(db.teams, TeamIdsOf(ls), teamRows);
    var g := GroupLocals(ls);
    if !TruthyStr(key) {
      return Failed("SPORTS_DATA_IO_KEY is missing");
    }
    GroupDates(ls);
    GroupPermutes(ls);
    IdsOfPermutation(Flatten(g.dates, g.byDate), ls);
    DatesRunCounts(m, g.byDate, g.dates, |g.dates|, fetch, old(db.games));
    assert g.dates[..|g.dates|] == g.dates;
    var run := LinkDates(db, m, g, fetch);
    assert |Flatten(g.dates, g.byDate)| == |multiset(Flatten(g.dates, g.byDate))| == |ls|;
    if run.failed.Some? {
      return ProviderError(run.failed.value);
    }
    return Linked(run.state.linked, run.state.notFound);
  }
}

=== FILE: store.dfy ===
/**
 * The relational store the admin routes read and write: the `teams`, `games` and
 * `pools` tables, keyed by internal id. Every select the routes issue with
 * `.maybeSingle()` becomes a lookup that is defined when at most one row matches
 * (the uniqueness predicates below); `update(...).eq("id", id)` becomes
 * `Db.UpdateGame`/`Db.UpdateTeam`, and the import's keyed upsert becomes
 * `Db.UpsertGames`.
 */
module Store {
  import opened Js

  /** Internal team and game ids (uuids in the store): opaque, always truthy. */
  type TeamId = nat
  type GameId = nat

  datatype Team = Team(
    name: string,
    sportsdataTeamId: Option<int>,
    espnTeamId: Option<int>,
    externalTeamId: Option<string>,
    logoUrl: Option<string>)

  datatype Game = Game(
    round: Option<string>,
    region: Option<string>,
    slot: Option<int>,
    team1: Option<TeamId>,
    team2: Option<TeamId>,
    winner: Option<TeamId>,
    status: Option<string>,
    startTime: Option<string>,
    gameDate: Option<string>,
    sportsdataGameId: Option<int>,
    externalGameId: Option<string>,
    lastSyncedAt: Option<string>,
    season: Option<int>)

  datatype Pool = Pool(createdBy: Option<string>)

  type Teams = map<TeamId, Team>
  type Games = map<GameId, Game>

  // ---------------------------------------------------------------------------
  // Uniqueness of the columns the routes select on

  ghost predicate UniqueTeamSportsIds(teams: Teams)
  {
    forall a, b ::
      (a in teams && b in teams && teams[a].sportsdataTeamId.Some? &&
       teams[a].sportsdataTeamId == teams[b].sportsdataTeamId) ==> a == b
  }

  ghost predicate UniqueTeamExternalIds(teams: Teams)
  {
    forall a, b ::
      (a in teams && b in teams && teams[a].externalTeamId.Some? &&
       teams[a].externalTeamId == teams[b].externalTeamId) ==> a == b
  }

  ghost predicate UniqueGameSportsIds(games: Games)
  {
    forall a, b ::
      (a in games && b in games && games[a].sportsdataGameId.Some? &&
       games[a].sportsdataGameId == games[b].sportsdataGameId) ==> a == b
  }

  ghost predicate UniqueGameExternalIds(games: Games)
  {
    forall a, b ::
      (a in games && b in games && games[a].externalGameId.Some? &&
       games[a].externalGameId == games[b].externalGameId) ==> a == b
  }

  /** The game's bracket position: round, region and slot, all present. */
  function Position(g: Game): Option<(string, string, int)>
  {
    if g.round.Some? && g.region.Some? && g.slot.Some? then Some((g.round.value, g.region.value, g.slot.value))
    else None
  }

  /** (round, region, slot) identifies at most one game. */
  ghost predicate UniquePositions(games: Games)
  {
    forall a, b ::
      (a in games && b in games && Position(games[a]).Some? &&
       Position(games[a]) == Position(games[b])) ==> a == b
  }

  /** The game is between teams `x` and `y`, in either team1/team2 order. */
  predicate Between(g: Game, x: TeamId, y: TeamId)
  {
    (g.team1 == Some(x) && g.team2 == Some(y)) || (g.team1 == Some(y) && g.team2 == Some(x))
  }

  /** No two games are between the same two teams. */
  ghost predicate UniquePairings(games: Games)
  {
    forall a, b, x, y :: a in games && b in games && Between(games[a], x, y) && Between(games[b], x, y) ==> a == b
  }

  // ---------------------------------------------------------------------------
  // Lookups (`select ... .eq(column, value).maybeSingle()`)

  function TeamBySportsId(teams: Teams, sid: int): (r: Option<TeamId>)
    requires UniqueTeamSportsIds(teams)
    ensures r.Some? ==> r.value in teams && teams[r.value].sportsdataTeamId == Some(sid)
    ensures r.None? ==> forall k :: k in teams ==> teams[k].sportsdataTeamId != Some(sid)
  {
    if exists k :: k in teams && teams[k].sportsdataTeamId == Some(sid) then
      var k :| k in teams && teams[k].sportsdataTeamId == Some(sid); Some(k)
    else None
  }

  function TeamByExternalId(teams: Teams, ext: string): (r: Option<TeamId>)
    requires UniqueTeamExternalIds(teams)
    ensures r.Some? ==> r.value in teams && teams[r.value].externalTeamId == Some(ext)
    ensures r.None? ==> forall k :: k in teams ==> teams[k].externalTeamId != Some(ext)
  {
    if exists k :: k in teams && teams[k].externalTeamId == Some(ext) then
      var k :| k in teams && teams[k].externalTeamId == Some(ext); Some(k)
    else None
  }

  function GameBySportsId(games: Games, gid: int): (r: Option<GameId>)
    requires UniqueGameSportsIds(games)
    ensures r.Some? ==> r.value in games && games[r.value].sportsdataGameId == Some(gid)
    ensures r.None? ==> forall k :: k in games ==> games[k].sportsdataGameId != Some(gid)
  {
    if exists k :: k in games && games[k].sportsdataGameId == Some(gid) then
      var k :| k in games && games[k].sportsdataGameId == Some(gid); Some(k)
    else None
  }

  function GameByExternalId(games: Games, ext: string): (r: Option<GameId>)
    requires UniqueGameExternalIds(games)
    ensures r.Some? ==> r.value in games && games[r.value].externalGameId == Some(ext)
    ensures r.None? ==> forall k :: k in games ==> games[k].externalGameId != Some(ext)
  {
    if exists k :: k in games && games[k].externalGameId == Some(ext) then
      var k :| k in games && games[k].externalGameId == Some(ext); Some(k)
    else None
  }

  function GameByPosition(games: Games, round: string, region: string, slot: int): (r: Option<GameId>)
    requires UniquePositions(games)
    ensures r.Some? ==> r.value in games && Position(games[r.value]) == Some((round, region, slot))
    ensures r.None? ==> forall k :: k in games ==> Position(games[k]) != Some((round, region, slot))
  {
    if exists k :: k in games && Position(games[k]) == Some((round, region, slot)) then
      var k :| k in games && Position(games[k]) == Some((round, region, slot)); Some(k)
    else None
  }

  function GameBetween(games: Games, x: TeamId, y: TeamId): (r: Option<GameId>)
    requires UniquePairings(games)
    ensures r.Some? ==> r.value in games && Between(games[r.value], x, y)
    ensures r.None? ==> forall k :: k in games ==> !Between(games[k], x, y)
  {
    if exists k :: k in games && Between(games[k], x, y) then
      var k :| k in games && Between(games[k], x, y); Some(k)
    else None
  }

  // ---------------------------------------------------------------------------
  // What the synchronisation jobs never write

  /**
   * Same rows, and on each row the same bracket position, teams and external game id:
   * every column a lookup other than by sportsdata_game_id selects on.
   */
  ghost predicate SameIdentity(a: Games, b: Games)
  {
    a.Keys == b.Keys &&
    forall k :: k in a ==>
      a[k].round == b[k].round && a[k].region == b[k].region && a[k].slot == b[k].slot &&
      a[k].team1 == b[k].team1 && a[k].team2 == b[k].team2 && a[k].externalGameId == b[k].externalGameId
  }

  lemma SameIdentityPositions(a: Games, b: Games, round: string, region: string, slot: int)
    requires SameIdentity(a, b) && UniquePositions(a)
    ensures UniquePositions(b)
    ensures GameByPosition(a, round, region, slot) == GameByPosition(b, round, region, slot)
  {
    assert forall k :: k in a ==> Position(a[k]) == Position(b[k]);
  }

  lemma SameIdentityPairings(a: Games, b: Games, x: TeamId, y: TeamId)
    requires SameIdentity(a, b) && UniquePairings(a)
    ensures UniquePairings(b)
    ensures GameBetween(a, x, y) == GameBetween(b, x, y)
  {
    assert forall k, x', y' :: k in a ==> (Between(a[k], x', y') <==> Between(b[k], x', y'));
  }

  lemma SameIdentityExternal(a: Games, b: Games, ext: string)
    requires SameIdentity(a, b) && UniqueGameExternalIds(a)
    ensures UniqueGameExternalIds(b)
    ensures GameByExternalId(a, ext) == GameByExternalId(b, ext)
  {
  }

  /** Same rows and the same sportsdata_game_id on each. */
  ghost predicate SameSportsIds(a: Games, b: Games)
  {
    a.Keys == b.Keys && forall k :: k in a ==> a[k].sportsdataGameId == b[k].sportsdataGameId
  }

  lemma SameSportsIdsLookup(a: Games, b: Games, gid: int)
    requires SameSportsIds(a, b) && UniqueGameSportsIds(a)
    ensures UniqueGameSportsIds(b)
    ensures GameBySportsId(a, gid) == GameBySportsId(b, gid)
  {
  }

  // ---------------------------------------------------------------------------
  // Keyed upsert (`upsert(rows, { onConflict: "sportsdata_game_id" })`)

  /** The columns one upserted row sets. */
  datatype UpsertRow = UpsertRow(
    sportsdataGameId: int,
    status: Option<string>,
    startTime: Option<string>,
    gameDate: Option<string>,
    region: Option<string>,
    round: string,
    team1: TeamId,
    team2: TeamId,
    winner: Option<TeamId>,
    lastSyncedAt: Option<string>,
    season: Option<int>)

  /** A new row's columns before the upsert fills them: all null. */
  const Blank := Game(None, None, None, None, None, None, None, None, None, None, None, None, None)

  /** `g` with the row's columns written; slot and external_game_id are kept. */
  function Overwrite(g: Game, r: UpsertRow): Game
  {
    g.(sportsdataGameId := Some(r.sportsdataGameId), status := r.status, startTime := r.startTime,
       gameDate := r.gameDate, region := r.region, round := Some(r.round), team1 := Some(r.team1),
       team2 := Some(r.team2), winner := r.winner, lastSyncedAt := r.lastSyncedAt, season := r.season)
  }

  /** The game holds exactly the values of the row in the columns the row sets. */
  predicate Holds(g: Game, r: UpsertRow)
  {
    g.sportsdataGameId == Some(r.sportsdataGameId) && g.status == r.status && g.startTime == r.startTime &&
    g.gameDate == r.gameDate && g.region == r.region && g.round == Some(r.round) &&
    g.team1 == Some(r.team1) && g.team2 == Some(r.team2) && g.winner == r.winner &&
    g.lastSyncedAt == r.lastSyncedAt && g.season == r.season
  }

  /** Every game id in use is below the next id the store hands out. */
  ghost predicate IdsBelow(games: Games, next: GameId)
  {
    forall k :: k in games ==> k < next
  }

  /** One upserted row: overwrite the game with its sportsdata_game_id, or insert a new game. */
  function UpsertOne(games: Games, next: GameId, r: UpsertRow): (res: (Games, GameId))
    requires UniqueGameSportsIds(games) && IdsBelow(games, next)
    ensures UniqueGameSportsIds(res.0) && IdsBelow(res.0, res.1)
    ensures games.Keys <= res.0.Keys && next <= res.1
    ensures var k := GameBySportsId(res.0, r.sportsdataGameId); k.Some? && Holds(res.0[k.value], r)
    ensures forall k :: k in games && games[k].sportsdataGameId != Some(r.sportsdataGameId) ==> res.0[k] == games[k]
  {
    match GameBySportsId(games, r.sportsdataGameId)
    case Some(k) =>
      var res := games[k := Overwrite(games[k], r)];
      assert Holds(res[k], r);
      (res, next)
    case None =>
      var res := games[next := Overwrite(Blank, r)];
      assert Holds(res[next], r);
      (res, next + 1)
  }

  /** The whole batch, row by row. */
  function UpsertAll(games: Games, next: GameId, rows: seq<UpsertRow>): (res: (Games, GameId))
    requires UniqueGameSportsIds(games) && IdsBelow(games, next)
    ensures UniqueGameSportsIds(res.0) && IdsBelow(res.0, res.1)
    ensures games.Keys <= res.0.Keys
  {
    if rows == [] then (games, next)
    else
      var p := UpsertAll(games, next, rows[..|rows| - 1]);
      UpsertOne(p.0, p.1, rows[|rows| - 1])
  }

  /** The row with key `key` is the last one in the batch that carries this key. */
  predicate LastWithKey(rows: seq<UpsertRow>, i: int)
  {
    0 <= i < |rows| && forall j :: i < j < |rows| ==> rows[j].sportsdataGameId != rows[i].sportsdataGameId
  }

  /**
   * Keyed upsert: for every key in the batch, the game holding that key ends up with
   * exactly the values of the last row carrying it (so a winner set earlier is cleared
   * when the row's winner is null).
   */
  lemma {:induction false} UpsertAllKeyed(games: Games, next: GameId, rows: seq<UpsertRow>, i: int)
    requires UniqueGameSportsIds(games) && IdsBelow(games, next)
    requires LastWithKey(rows, i)
    ensures KeyHolds(UpsertAll(games, next, rows).0, rows[i])
  {
    var n := |rows| - 1;
    var p := UpsertAll(games, next, rows[..n]);
    if i < n {
      assert LastWithKey(rows[..n], i);
      UpsertAllKeyed(games, next, rows[..n], i);
      UpsertOneOther(p.0, p.1, rows[n], rows[i]);
    }
  }

  /** The game found under the row's key holds the row's values. */
  ghost predicate KeyHolds(games: Games, r: UpsertRow)
  {
    UniqueGameSportsIds(games) &&
    var k := GameBySportsId(games, r.sportsdataGameId); k.Some? && Holds(games[k.value], r)
  }

  /** Upserting a row keeps what an earlier row with another key wrote. */
  lemma UpsertOneOther(games: Games, next: GameId, r: UpsertRow, q: UpsertRow)
    requires IdsBelow(games, next) && KeyHolds(games, q)
    requires q.sportsdataGameId != r.sportsdataGameId
    ensures KeyHolds(UpsertOne(games, next, r).0, q)
  {
    var k := GameBySportsId(games, q.sportsdataGameId).value;
    var res := UpsertOne(games, next, r).0;
    assert res[k] == games[k];
  }

  /** Games whose sportsdata_game_id is not a key of the batch are left as they were. */
  lemma {:induction false} UpsertAllFrame(games: Games, next: GameId, rows: seq<UpsertRow>, k: GameId)
    requires UniqueGameSportsIds(games) && IdsBelow(games, next)
    requires k in games
    requires forall j :: 0 <= j < |rows| ==> games[k].sportsdataGameId != Some(rows[j].sportsdataGameId)
    ensures var res := UpsertAll(games, next, rows).0; k in res && res[k] == games[k]
  {
    if rows != [] {
      UpsertAllFrame(games, next, rows[..|rows| - 1], k);
    }
  }

  class Db {
    var teams: Teams
    var games: Games
    var pools: map<string, Pool>
    /** The id the store gives the next inserted game. */
    var nextGameId: GameId

    ghost predicate Valid()
      reads this
    {
      IdsBelow(games, nextGameId)
    }

    constructor (teams0: Teams, games0: Games, pools0: map<string, Pool>, next0: GameId)
      requires IdsBelow(games0, next0)
      ensures Valid()
      ensures teams == teams0 && games == games0 && pools == pools0 && nextGameId == next0
    {
      teams, games, pools, nextGameId := teams0, games0, pools0, next0;
    }

    /** `from("games").update(...).eq("id", id)`: the row's new value. */
    method UpdateGame(id: GameId, g: Game)
      requires id in games
      modifies this
      ensures games == old(games)[id := g]
      ensures Valid() <==> old(Valid())
      ensures teams == old(teams) && pools == old(pools) && nextGameId == old(nextGameId)
    {
      games := games[id := g];
      assert games.Keys == old(games).Keys;
    }

    /** `from("teams").update(...).eq("id", id)`: the row's new value. */
    method UpdateTeam(id: TeamId, t: Team)
      requires id in teams
      modifies this
      ensures teams == old(teams)[id := t]
      ensures games == old(games) && pools == old(pools) && nextGameId == old(nextGameId)
    {
      teams := teams[id := t];
    }

    /** `from("games").upsert(rows, { onConflict: "sportsdata_game_id" })`. */
    method UpsertGames(rows: seq<UpsertRow>)
      requires Valid() && UniqueGameSportsIds(games)
      modifies this
      ensures Valid() && UniqueGameSportsIds(games)
      ensures (games, nextGameId) == UpsertAll(old(games), old(nextGameId), rows)
      ensures teams == old(teams) && pools == old(pools)
    {
      var res := UpsertAll(games, nextGameId, rows);
      games, nextGameId := res.0, res.1;
    }
  }
}

=== FILE: sync_bracket.dfy ===
/**
 * app/api/admin/sync-bracket/route.ts: reads the SportsDataIO tournament feed,
 * classifies the response, and links each bracket game to the local game at the
 * same (round, region, slot) by writing its `sportsdata_game_id`.
 */
module SyncBracket {
  import opened Js
  import opened Store
  import ImportSchedule

  // ---------------------------------------------------------------------------
  // Region and round

  /** `norm`: `String(s ?? "").trim().toLowerCase()` */
  function Norm(f: Field<string>): string
  {
    Lower(Trim(if f.Val? then f.value else ""))
  }

  /** `bracketToRegion`: the first of east, west, south, midwest the normalised text contains. */
  function BracketToRegion(f: Field<string>): Option<string>
  {
    var b := Norm(f);
    if Contains(b, "east") then Some("East")
    else if Contains(b, "west") then Some("West")
    else if Contains(b, "south") then Some("South")
    else if Contains(b, "midwest") then Some("Midwest")
    else None
  }

  /** Any text containing "midwest" also contains "west" (three characters later). */
  lemma MidwestContainsWest(b: string)
    requires Contains(b, "midwest")
    ensures Contains(b, "west")
  {
    var i := IndexOf(b, "midwest").value;
    assert b[i + 3..i + 7] == b[i..i + 7][3..7];
    ContainsAt(b, "west", i + 3);
  }

  /**
   * What `bracketToRegion` returns, test by test. Because "midwest" contains "west",
   * a Midwest bracket comes back as "West" and "Midwest" is never returned.
   */
  lemma BracketToRegionCases(f: Field<string>)
    ensures var b := Norm(f); var r := BracketToRegion(f);
      (Contains(b, "east") ==> r == Some("East")) &&
      (!Contains(b, "east") && Contains(b, "west") ==> r == Some("West")) &&
      (!Contains(b, "east") && !Contains(b, "west") && Contains(b, "south") ==> r == Some("South")) &&
      (!Contains(b, "east") && !Contains(b, "west") && !Contains(b, "south") ==> r.None?)
    ensures BracketToRegion(f) != Some("Midwest")
  {
    var b := Norm(f);
    if Contains(b, "midwest") {
      MidwestContainsWest(b);
    }
  }

  /** `roundToCode`: `Number(round)` 0..3 give S16, E8, F4, CHIP; NaN and other numbers give null. */
  function RoundToCode(f: Field<Scalar>): (r: Option<string>)
    ensures NumberOf(f).None? ==> r.None?
    ensures NumberOf(f) == Some(0) ==> r == Some("S16")
    ensures NumberOf(f) == Some(1) ==> r == Some("E8")
    ensures NumberOf(f) == Some(2) ==> r == Some("F4")
    ensures NumberOf(f) == Some(3) ==> r == Some("CHIP")
    ensures NumberOf(f).Some? && !(0 <= NumberOf(f).value <= 3) ==> r.None?
    ensures r.Some? <==> NumberOf(f).Some? && 0 <= NumberOf(f).value <= 3
  {
    match NumberOf(f)
    case None => None
    case Some(0) => Some("S16")
    case Some(1) => Some("E8")
    case Some(2) => Some("F4")
    case Some(3) => Some("CHIP")
    case Some(_) => None
  }

  /** `Number(null)` is 0, so a null round reads as "S16", while a missing one is NaN. */
  lemma NullRoundIsSweet16()
    ensures RoundToCode(Null) == Some("S16")
    ensures RoundToCode(Undefined).None?
  {
  }

  /**
   * The two files number rounds differently: this file's round r is the schedule
   * import's round r + 3, and no number maps to the same code under both.
   */
  lemma RoundConventionsDisagree(n: int)
    ensures 0 <= n <= 3 ==> RoundToCode(Val(SNum(n))) == Some(ImportSchedule.MapRound(Some(n + 3)))
    ensures RoundToCode(Val(SNum(n))).Some? && ImportSchedule.MapRound(Some(n)) != "UNK" ==>
      RoundToCode(Val(SNum(n))).value != ImportSchedule.MapRound(Some(n))
  {
  }

  // ---------------------------------------------------------------------------
  // Response classification

  /** One game of the tournament payload, with the alternative spellings the route reads. */
  datatype BracketGame = BracketGame(
    gameIdUpper: Field<int>,     // GameID
    gameIdCamel: Field<int>,     // GameId
    gameIdLower: Field<int>,     // gameId
    bracketUpper: Field<string>, // Bracket
    bracketLower: Field<string>, // bracket
    roundUpper: Field<Scalar>,   // Round
    roundLower: Field<Scalar>,   // round
    displayOrder: Field<int>,    // TournamentDisplayOrder
    slotUpper: Field<int>,       // Slot
    slotLower: Field<int>)       // slot

  /** A parsed JSON body: an array of games, an object (with `Games`/`games` when they are arrays), or a scalar. */
  datatype Json =
    | JArray(items: seq<BracketGame>)
    | JObject(gamesUpper: Option<seq<BracketGame>>, gamesLower: Option<seq<BracketGame>>)
    | JScalar(truthy: bool)
    | JNull

  /** The provider's answer: status, raw text, and what `JSON.parse` makes of the text (None when it throws). */
  datatype BracketResponse = BracketResponse(ok: bool, status: int, body: string, parsed: Option<Json>)

  /** `resp.json`: null for a blank body or a parse failure. */
  function JsonOf(resp: BracketResponse): Json
  {
    if Trim(resp.body) == [] || resp.parsed.None? then JNull else resp.parsed.value
  }

  /** `!resp.json`: null and falsy scalars. */
  predicate Falsy(j: Json)
  {
    j.JNull? || (j.JScalar? && !j.truthy)
  }

  /** The bare array, else the `Games` array, else the `games` array, else null. */
  function GamesArray(j: Json): (r: Option<seq<BracketGame>>)
    ensures j.JArray? ==> r == Some(j.items)
    ensures j.JObject? && j.gamesUpper.Some? ==> r == j.gamesUpper
    ensures j.JObject? && j.gamesUpper.None? ==> r == j.gamesLower
    ensures j.JScalar? || j.JNull? ==> r.None?
  {
    match j
    case JArray(items) => Some(items)
    case JObject(u, l) => if u.Some? then u else l
    case _ => None
  }

  datatype BracketResult =
    | MissingKey                                  // 500
    | NotAvailable(status: int)                   // ok with an empty body: a note, no error
    | ProviderError(status: int)                  // 500
    | NonJson                                     // 500
    | ShapeReport(status: int)                    // JSON without a games array: nothing written
    | Linked(status: int, totalGamesInPayload: nat, linked: nat, skippedNoMap: nat)

  /** Everything before the linking loop: the outcome, or None when the loop runs. */
  function Classify(key: Option<string>, resp: BracketResponse): (r: Option<BracketResult>)
    ensures r.None? <==>
      key.Some? && key.value != "" && resp.ok && Trim(resp.body) != [] && !Falsy(JsonOf(resp)) && GamesArray(JsonOf(resp)).Some?
    ensures key.None? || key.value == "" ==> r == Some(MissingKey)
    ensures key.Some? && key.value != "" && resp.ok && Trim(resp.body) == [] ==> r == Some(NotAvailable(resp.status))
    ensures key.Some? && key.value != "" && !resp.ok ==> r == Some(ProviderError(resp.status))
    ensures key.Some? && key.value != "" && resp.ok && Trim(resp.body) != [] && Falsy(JsonOf(resp)) ==> r == Some(NonJson)
    ensures key.Some? && key.value != "" && resp.ok && Trim(resp.body) != [] && !Falsy(JsonOf(resp)) &&
            GamesArray(JsonOf(resp)).None?
            ==> r == Some(ShapeReport(resp.status))
    ensures r.Some? ==> !r.value.Linked?
  {
    if key.None? || key.value == "" then Some(MissingKey)
    else if resp.ok && Trim(resp.body) == [] then Some(NotAvailable(resp.status))
    else if !resp.ok then Some(ProviderError(resp.status))
    else if Falsy(JsonOf(resp)) then Some(NonJson)
    else if GamesArray(JsonOf(resp)).None? then Some(ShapeReport(resp.status))
    else None
  }

  /** The outcomes `runSyncBracket` throws, which GET and POST answer with status 500. */
  predicate Thrown(r: BracketResult)
  {
    r.MissingKey? || r.ProviderError? || r.NonJson?
  }

  /**
   * The run answers 500 exactly when the key is unset, the provider's status is not ok, or an ok,
   * non-blank body does not parse to a truthy value; an empty ok body and JSON without a games
   * array are 200 reports.
   */
  lemma ClassifyThrown(key: Option<string>, resp: BracketResponse)
    ensures (Classify(key, resp).Some? && Thrown(Classify(key, resp).value)) <==>
      key.None? || key.value == "" || !resp.ok || (Trim(resp.body) != [] && Falsy(JsonOf(resp)))
  {
  }

  /**
   * In the route a round passes through `g?.Round ?? g?.round` first, and `null ?? undefined`
   * is undefined: a null `Round` with no `round` is NaN and the game is unmappable. Only a
   * null that survives the chain reads as S16.
   */
  lemma PayloadNullRound(g: BracketGame)
    ensures g.roundUpper.Null? && g.roundLower.Undefined? ==> MapGame(g).None?
    ensures g.roundUpper.Null? && g.roundLower.Null? ==> RoundToCode(Coalesce(g.roundUpper, g.roundLower)) == Some("S16")
    ensures g.roundUpper.Undefined? && g.roundLower.Null? ==> RoundToCode(Coalesce(g.roundUpper, g.roundLower)) == Some("S16")
  {
  }

  // ---------------------------------------------------------------------------
  // The linking loop

  /** The fields of one payload game after the route's `??` chains. */
  function GameIdOf(g: BracketGame): Field<int>
  {
    Coalesce(g.gameIdUpper, Coalesce(g.gameIdCamel, g.gameIdLower))
  }

  function SlotOf(g: BracketGame): Field<int>
  {
    Coalesce(g.displayOrder, Coalesce(g.slotUpper, g.slotLower))
  }

  /** A game's place in the bracket and provider id, when all four are truthy. */
  datatype Mapping = Mapping(gameId: int, round: string, region: string, slot: int)

  function MapGame(g: BracketGame): (r: Option<Mapping>)
    ensures r.Some? ==> r.value.gameId != 0 && r.value.slot != 0
    ensures r.Some? <==>
      TruthyInt(GameIdOf(g)) && BracketToRegion(Coalesce(g.bracketUpper, g.bracketLower)).Some? &&
      RoundToCode(Coalesce(g.roundUpper, g.roundLower)).Some? && TruthyInt(SlotOf(g))
  {
    var gameId := GameIdOf(g);
    var region := BracketToRegion(Coalesce(g.bracketUpper, g.bracketLower));
    var roundCode := RoundToCode(Coalesce(g.roundUpper, g.roundLower));
    var slot := SlotOf(g);
    if !TruthyInt(gameId) || region.None? || roundCode.None? || !TruthyInt(slot) then None
    else Some(Mapping(gameId.value, roundCode.value, region.value, slot.value))
  }

  /**
   * The mapping of every payload game. The route maps each game inside its loop;
   * mapping is pure and reads nothing the loop writes, so mapping them up front gives
   * the same values.
   */
  function MapAll(payload: seq<BracketGame>): (ms: seq<Option<Mapping>>)
    ensures |ms| == |payload|
    ensures forall i :: 0 <= i < |payload| ==> ms[i] == MapGame(payload[i])
  {
    seq(|payload|, i requires 0 <= i < |payload| => MapGame(payload[i]))
  }

  datatype LinkState = LinkState(games: Games, linked: nat, skippedNoMap: nat)

  /** One iteration: skip unmappable games, pass over unmatched ones, relink a differing id. */
  function LinkStep(s: LinkState, m: Option<Mapping>, now: string): (r: LinkState)
    requires UniquePositions(s.games)
    ensures SameIdentity(s.games, r.games)
  {
    match m
    case None => LinkState(s.games, s.linked, s.skippedNoMap + 1)
    case Some(m) =>
      match GameByPosition(s.games, m.round, m.region, m.slot)
      case None => s
      case Some(k) =>
        if s.games[k].sportsdataGameId != Some(m.gameId) then
          LinkState(s.games[k := s.games[k].(sportsdataGameId := Some(m.gameId), lastSyncedAt := Some(now))],
                    s.linked + 1, s.skippedNoMap)
        else s
  }

  /**
   * What one step does: an unmappable game is counted in `skippedNoMap` and writes
   * nothing; a mapped game with no row at its position is counted nowhere; a matched
   * row whose stored id differs gets the provider id and the time stamp, nothing else
   * changes, and only that write is counted in `linked`.
   */
  lemma LinkStepCases(s: LinkState, m: Option<Mapping>, now: string)
    requires UniquePositions(s.games)
    ensures m.None? ==> LinkStep(s, m, now) == s.(skippedNoMap := s.skippedNoMap + 1)
    ensures m.Some? ==> LinkStep(s, m, now).skippedNoMap == s.skippedNoMap
    ensures m.Some? && GameByPosition(s.games, m.value.round, m.value.region, m.value.slot).None? ==>
      LinkStep(s, m, now) == s
    ensures m.Some? && GameByPosition(s.games, m.value.round, m.value.region, m.value.slot).Some? ==>
      var k := GameByPosition(s.games, m.value.round, m.value.region, m.value.slot).value;
      var r := LinkStep(s, m, now);
      k in s.games &&
      (s.games[k].sportsdataGameId == Some(m.value.gameId) ==> r == s) &&
      (s.games[k].sportsdataGameId != Some(m.value.gameId) ==>
        r.linked == s.linked + 1 &&
        r.games == s.games[k := s.games[k].(sportsdataGameId := Some(m.value.gameId), lastSyncedAt := Some(now))])
  {
  }

  function LinkRun(games: Games, ms: seq<Option<Mapping>>, now: string): (r: LinkState)
    requires UniquePositions(games)
    ensures SameIdentity(games, r.games) && UniquePositions(r.games)
    ensures r.linked + r.skippedNoMap <= |ms|
  {
    if ms == [] then LinkState(games, 0, 0)
    else
      var p := LinkRun(games, ms[..|ms| - 1], now);
      SameIdentityPositions(games, p.games, "", "", 0);
      var r := LinkStep(p, ms[|ms| - 1], now);
      SameIdentityPositions(p.games, r.games, "", "", 0);
      r
  }

  /** `runSyncBracket`; `key` is SPORTS_DATA_IO_KEY, `now` the time stamp written to `last_synced_at`. */
  method RunSyncBracket(db: Db, key: Option<string>, resp: BracketResponse, now: string) returns (res: BracketResult)
    requires UniquePositions(db.games)
    modifies db
    ensures db.teams == old(db.teams) && db.pools == old(db.pools) && db.nextGameId == old(db.nextGameId)
    ensures Classify(key, resp).Some? ==> res == Classify(key, resp).value && db.games == old(db.games)
    ensures Classify(key, resp).None? ==>
      var payload := GamesArray(JsonOf(resp)).value;
      var s := LinkRun(old(db.games), MapAll(payload), now);
      res == Linked(resp.status, |payload|, s.linked, s.skippedNoMap) && db.games == s.games
  {
    var early := Classify(key, resp);
    if early.Some? {
      return early.value;
    }
    var gamesArray := GamesArray(JsonOf(resp)).value;
    var linked, skippedNoMap := LinkGames(db, MapAll(gamesArray), now);
    return Linked(resp.status, |gamesArray|, linked, skippedNoMap);
  }

  /** The run over one more mapping is one more step. */
  lemma LinkRunNext(games: Games, ms: seq<Option<Mapping>>, now: string, i: int)
    requires UniquePositions(games) && 0 <= i < |ms|
    ensures LinkRun(games, ms[..i + 1], now) == LinkStep(LinkRun(games, ms[..i], now), ms[i], now)
  {
    assert ms[..i + 1][..i] == ms[..i];
  }

  /** The body of the linking loop for one payload game. */
  method LinkOne(db: Db, s: LinkState, m: Option<Mapping>, now: string) returns (r: LinkState)
    requires s.games == db.games && UniquePositions(db.games)
    modifies db
    ensures db.teams == old(db.teams) && db.pools == old(db.pools) && db.nextGameId == old(db.nextGameId)
    ensures r == LinkStep(s, m, now) && r.games == db.games
  {
    if m.None? {
      return s.(skippedNoMap := s.skippedNoMap + 1);
    }
    var ourGame := GameByPosition(db.games, m.value.round, m.value.region, m.value.slot);
    if ourGame.Some? && db.games[ourGame.value].sportsdataGameId != Some(m.value.gameId) {
      var k := ourGame.value;
      db.UpdateGame(k, db.games[k].(sportsdataGameId := Some(m.value.gameId), lastSyncedAt := Some(now)));
      return LinkState(db.games, s.linked + 1, s.skippedNoMap);
    }
    return s;
  }

  /** One pass of the loop: the run over one more mapping. */
  method LinkNext(db: Db, ghost games0: Games, ms: seq<Option<Mapping>>, now: string, i: nat, s: LinkState)
    returns (r: LinkState)
    requires UniquePositions(games0) && i < |ms|
    requires LinkRun(games0, ms[..i], now) == s && s.games == db.games
    modifies db
    ensures db.teams == old(db.teams) && db.pools == old(db.pools) && db.nextGameId == old(db.nextGameId)
    ensures LinkRun(games0, ms[..i + 1], now) == r && r.games == db.games
  {
    LinkRunNext(games0, ms, now, i);
    r := LinkOne(db, s, ms[i], now);
  }

  /** The linking loop over the mapped payload. */
  method LinkGames(db: Db, ms: seq<Option<Mapping>>, now: string) returns (linked: nat, skippedNoMap: nat)
    requires UniquePositions(db.games)
    modifies db
    ensures db.teams == old(db.teams) && db.pools == old(db.pools) && db.nextGameId == old(db.nextGameId)
    ensures LinkRun(old(db.games), ms, now) == LinkState(db.games, linked, skippedNoMap)
  {
    ghost var games0 := db.games;
    var s := LinkState(db.games, 0, 0);
    var i := 0;
    while i < |ms|
      invariant 0 <= i <= |ms|
      invariant db.teams == old(db.teams) && db.pools == old(db.pools) && db.nextGameId == old(db.nextGameId)
      invariant LinkRun(games0, ms[..i], now) == s && s.games == db.games
    {
      s := LinkNext(db, games0, ms, now, i, s);
      i := i + 1;
    }
    assert ms[..i] == ms;
    linked, skippedNoMap := s.linked, s.skippedNoMap;
  }

  // ---------------------------------------------------------------------------
  // Running twice

  /** No two mapped payload games share a bracket position with different provider ids. */
  ghost predicate Consistent(ms: seq<Option<Mapping>>)
  {
    forall i, j :: (0 <= i < |ms| && 0 <= j < |ms| && ms[i].Some? && ms[j].Some? &&
                    ms[i].value.(gameId := 0) == ms[j].value.(gameId := 0)) ==>
      ms[i].value.gameId == ms[j].value.gameId
  }

  /** The mapping `m`, when present and matched, finds its own id at its position. */
  ghost predicate SettledAt(games: Games, m: Option<Mapping>)
    requires UniquePositions(games)
  {
    m.Some? ==>
      var k := GameByPosition(games, m.value.round, m.value.region, m.value.slot);
      k.Some? ==> games[k.value].sportsdataGameId == Some(m.value.gameId)
  }

  /** Every mapped payload game whose position matches a local game finds its own id there. */
  ghost predicate Settled(games: Games, ms: seq<Option<Mapping>>)
    requires UniquePositions(games)
  {
    forall i :: 0 <= i < |ms| ==> SettledAt(games, ms[i])
  }

  /** One step for `m` settles `m` and keeps every mapping that agrees with `m` settled. */
  lemma StepSettles(p: LinkState, m: Option<Mapping>, d: Option<Mapping>, now: string)
    requires UniquePositions(p.games)
    requires SettledAt(p.games, d) || d == m
    requires d.Some? && m.Some? && d.value.(gameId := 0) == m.value.(gameId := 0) ==> d.value.gameId == m.value.gameId
    ensures var r := LinkStep(p, m, now); UniquePositions(r.games) && SettledAt(r.games, d)
  {
    var r := LinkStep(p, m, now);
    if d.Some? {
      SameIdentityPositions(p.games, r.games, d.value.round, d.value.region, d.value.slot);
    } else {
      SameIdentityPositions(p.games, r.games, "", "", 0);
    }
  }

  /** After a run over a consistent payload, every matched game holds its payload id. */
  lemma {:induction false} RunSettles(games: Games, ms: seq<Option<Mapping>>, now: string)
    requires UniquePositions(games) && Consistent(ms)
    ensures Settled(LinkRun(games, ms, now).games, ms)
  {
    if ms != [] {
      var n := |ms| - 1;
      var pre := ms[..n];
      assert Consistent(pre) by {
        forall i | 0 <= i < n ensures pre[i] == ms[i] {}
      }
      RunSettles(games, pre, now);
      var p := LinkRun(games, pre, now);
      var r := LinkRun(games, ms, now);
      assert r == LinkStep(p, ms[n], now);
      forall i | 0 <= i < |ms| ensures SettledAt(r.games, ms[i]) {
        if i < n {
          assert pre[i] == ms[i];
          assert SettledAt(p.games, ms[i]);
        }
        StepSettles(p, ms[n], ms[i], now);
      }
    }
  }

  /** On a settled store the loop links nothing and writes nothing. */
  lemma {:induction false} SettledRunLinksNothing(games: Games, ms: seq<Option<Mapping>>, now: string)
    requires UniquePositions(games) && Settled(games, ms)
    ensures LinkRun(games, ms, now).games == games
    ensures LinkRun(games, ms, now).linked == 0
  {
    if ms != [] {
      var n := |ms| - 1;
      var pre := ms[..n];
      assert Settled(games, pre) by {
        forall i | 0 <= i < n ensures pre[i] == ms[i] {}
      }
      SettledRunLinksNothing(games, pre, now);
    }
  }

  /** Re-running on an unchanged, consistent payload gives `linked` = 0 and changes nothing. */
  lemma SecondRunIdle(games: Games, payload: seq<BracketGame>, now1: string, now2: string)
    requires UniquePositions(games) && Consistent(MapAll(payload))
    ensures var once := LinkRun(games, MapAll(payload), now1).games;
      LinkRun(once, MapAll(payload), now2).linked == 0 && LinkRun(once, MapAll(payload), now2).games == once
  {
    var ms := MapAll(payload);
    RunSettles(games, ms, now1);
    SettledRunLinksNothing(LinkRun(games, ms, now1).games, ms, now2);
  }
}

=== FILE: sync_games.dfy ===
/**
 * app/api/admin/sync-games/route.ts: for one date, reads SportsDataIO's games,
 * finds the local game between the same two teams (in either order), links it
 * by `sportsdata_game_id` and, for a closed game with two scores and no tie,
 * records the winner.
 */
module SyncGames {
  import opened Js
  import opened Store
  import ImportSchedule

  // ---------------------------------------------------------------------------
  // Payload and the team map

  /** One SportsDataIO game; the scores are numbers only when present and not null. */
  datatype SdGame = SdGame(
    gameId: int,
    isClosed: bool,
    homeTeamId: int,
    awayTeamId: int,
    homeScore: Field<int>,
    awayScore: Field<int>)

  /** Every non-null `sportsdata_team_id`: the column the team select filters on. */
  function LinkedTeamIds(teams: Teams): (ids: set<int>)
    ensures forall k :: k in teams && teams[k].sportsdataTeamId.Some? ==> teams[k].sportsdataTeamId.value in ids
  {
    set k | k in teams && teams[k].sportsdataTeamId.Some? :: teams[k].sportsdataTeamId.value
  }

  /** `ourTeamBySportsId`: every team with a sportsdata id, keyed by that id. */
  function TeamMap(teams: Teams): (m: map<int, TeamId>)
    requires UniqueTeamSportsIds(teams)
    ensures forall sid :: sid in m <==> TeamBySportsId(teams, sid).Some?
    ensures forall sid :: sid in m ==> m[sid] in teams && teams[m[sid]].sportsdataTeamId == Some(sid)
  {
    ImportSchedule.SportsToLocal(teams, LinkedTeamIds(teams))
  }

  // ---------------------------------------------------------------------------
  // Winner choice

  datatype Verdict = NoVerdict | Tie | Winner(team: TeamId)

  /**
   * A closed game with two numeric scores: a tie, or the home team when its score is
   * higher and the away team otherwise. Anything else gives no verdict.
   */
  function VerdictOf(g: SdGame, home: TeamId, away: TeamId): (v: Verdict)
    ensures v.NoVerdict? <==> !(g.isClosed && g.homeScore.Val? && g.awayScore.Val?)
    ensures v.Tie? <==> g.isClosed && g.homeScore.Val? && g.awayScore.Val? && g.homeScore.value == g.awayScore.value
    ensures v.Winner? ==> v.team == home || v.team == away
    ensures v.Winner? && g.homeScore.value > g.awayScore.value ==> v.team == home
    ensures v.Winner? && g.homeScore.value < g.awayScore.value ==> v.team == away
  {
    if g.isClosed && g.homeScore.Val? && g.awayScore.Val? then
      if g.homeScore.value == g.awayScore.value then Tie
      else Winner(if g.homeScore.value > g.awayScore.value then home else away)
    else NoVerdict
  }

  // ---------------------------------------------------------------------------
  // The loop

  datatype SyncState = SyncState(
    games: Games,
    linked: nat,
    winnersSet: nat,
    skippedNoMatch: nat,
    skippedTieOrNoScore: nat)

  /** `!id || id !== gameId`: the stored id is missing, 0, or another id. */
  predicate NeedsLink(stored: Option<int>, gameId: int)
  {
    stored.None? || stored == Some(0) || stored != Some(gameId)
  }

  /**
   * What the loop may change in a row: the same status, times and season, and a
   * changed winner is one of the row's two teams.
   */
  predicate Kept(x: Game, y: Game)
  {
    y.status == x.status && y.startTime == x.startTime && y.gameDate == x.gameDate && y.season == x.season &&
    (y.winner != x.winner ==> y.winner.Some? && (y.winner == y.team1 || y.winner == y.team2))
  }

  /** What the loop writes: rows keep their identity and every row is `Kept`. */
  ghost predicate LinksAndWinners(a: Games, b: Games)
  {
    SameIdentity(a, b) && forall k :: k in a ==> Kept(a[k], b[k])
  }

  lemma LinksAndWinnersTransitive(a: Games, b: Games, c: Games)
    requires LinksAndWinners(a, b) && LinksAndWinners(b, c)
    ensures LinksAndWinners(a, c)
  {
    forall k | k in a ensures Kept(a[k], c[k]) {
      assert Kept(a[k], b[k]) && Kept(b[k], c[k]);
    }
  }

  /** The local home and away teams of a provider game, when both are in the team map. */
  function Locals(m: map<int, TeamId>, g: SdGame): Option<(TeamId, TeamId)>
  {
    if g.homeTeamId in m && g.awayTeamId in m then Some((m[g.homeTeamId], m[g.awayTeamId])) else None
  }

  /** The link step on a row: a missing, zero or different id is replaced by the provider's. */
  function LinkedRow(row: Game, gameId: int, now: string): Game
  {
    if NeedsLink(row.sportsdataGameId, gameId) then row.(sportsdataGameId := Some(gameId), lastSyncedAt := Some(now)) else row
  }

  /** The winner step on a row: a winner verdict that differs from the winner read before the link step is written. */
  function JudgedRow(read: Option<TeamId>, row: Game, v: Verdict, now: string): Game
  {
    if v.Winner? && read != Some(v.team) then row.(winner := Some(v.team), lastSyncedAt := Some(now)) else row
  }

  /** The row after both steps for a game matched between `home` and `away`. */
  function MatchedRow(row: Game, g: SdGame, home: TeamId, away: TeamId, now: string): (r: Game)
    requires Between(row, home, away)
    ensures Kept(row, r)
    ensures r.round == row.round && r.region == row.region && r.slot == row.slot
    ensures r.team1 == row.team1 && r.team2 == row.team2 && r.externalGameId == row.externalGameId
    ensures r.sportsdataGameId == Some(g.gameId)
    ensures VerdictOf(g, home, away).Winner? ==> r.winner == Some(VerdictOf(g, home, away).team)
    ensures !VerdictOf(g, home, away).Winner? ==> r.winner == row.winner
    ensures (!NeedsLink(row.sportsdataGameId, g.gameId) &&
             (VerdictOf(g, home, away).Winner? ==> row.winner == Some(VerdictOf(g, home, away).team))) ==> r == row
  {
    JudgedRow(row.winner, LinkedRow(row, g.gameId, now), VerdictOf(g, home, away), now)
  }

  /**
   * One iteration for a game whose local teams are `home` and `away` and whose row is
   * `k`: `linked` counts a missing, zero or different stored id, a tie is counted in
   * `skippedTieOrNoScore`, `winnersSet` counts a changed winner, and only row `k` is written.
   */
  function MatchedStep(s: SyncState, g: SdGame, home: TeamId, away: TeamId, k: GameId, now: string): (r: SyncState)
    requires k in s.games && Between(s.games[k], home, away)
    ensures r.games == s.games[k := MatchedRow(s.games[k], g, home, away, now)]
    ensures r.skippedNoMatch == s.skippedNoMatch
    ensures r.linked == s.linked + (if NeedsLink(s.games[k].sportsdataGameId, g.gameId) then 1 else 0)
    ensures r.skippedTieOrNoScore == s.skippedTieOrNoScore + (if VerdictOf(g, home, away).Tie? then 1 else 0)
    ensures r.winnersSet == s.winnersSet +
      (if VerdictOf(g, home, away).Winner? && s.games[k].winner != Some(VerdictOf(g, home, away).team) then 1 else 0)
  {
    var row := s.games[k];
    var v := VerdictOf(g, home, away);
    SyncState(
      s.games[k := MatchedRow(row, g, home, away, now)],
      s.linked + (if NeedsLink(row.sportsdataGameId, g.gameId) then 1 else 0),
      s.winnersSet + (if v.Winner? && row.winner != Some(v.team) then 1 else 0),
      s.skippedNoMatch,
      s.skippedTieOrNoScore + (if v.Tie? then 1 else 0))
  }

  /** Writing one matched row keeps every row's identity and every row `Kept`. */
  lemma MatchedStepKeeps(s: SyncState, g: SdGame, home: TeamId, away: TeamId, k: GameId, now: string)
    requires k in s.games && Between(s.games[k], home, away)
    ensures LinksAndWinners(s.games, MatchedStep(s, g, home, away, k, now).games)
  {
    var r := MatchedStep(s, g, home, away, k, now);
    forall j | j in s.games ensures Kept(s.games[j], r.games[j]) {
      if j == k {
        assert r.games[j] == MatchedRow(s.games[k], g, home, away, now);
      } else {
        assert r.games[j] == s.games[j];
      }
    }
  }

  /** One iteration: unmapped teams or no game between them is `skippedNoMatch`; otherwise link and judge. */
  function SyncStep(m: map<int, TeamId>, s: SyncState, g: SdGame, now: string): (r: SyncState)
    requires UniquePairings(s.games)
    ensures LinksAndWinners(s.games, r.games) && UniquePairings(r.games)
    ensures r.linked + r.skippedNoMatch <= s.linked + s.skippedNoMatch + 1
    ensures r.winnersSet + r.skippedTieOrNoScore + r.skippedNoMatch <= s.winnersSet + s.skippedTieOrNoScore + s.skippedNoMatch + 1
    ensures Locals(m, g).None? ==> r == s.(skippedNoMatch := s.skippedNoMatch + 1)
    ensures Locals(m, g).Some? && GameBetween(s.games, Locals(m, g).value.0, Locals(m, g).value.1).None? ==>
      r == s.(skippedNoMatch := s.skippedNoMatch + 1)
    ensures Locals(m, g).Some? && GameBetween(s.games, Locals(m, g).value.0, Locals(m, g).value.1).Some? ==>
      var (home, away) := Locals(m, g).value;
      var k := GameBetween(s.games, home, away).value;
      k in s.games && Between(s.games[k], home, away) && r == MatchedStep(s, g, home, away, k, now)
  {
    match Locals(m, g)
    case None => s.(skippedNoMatch := s.skippedNoMatch + 1)
    case Some((home, away)) =>
      match GameBetween(s.games, home, away)
      case None => s.(skippedNoMatch := s.skippedNoMatch + 1)
      case Some(k) =>
        var r := MatchedStep(s, g, home, away, k, now);
        MatchedStepKeeps(s, g, home, away, k, now);
        SameIdentityPairings(s.games, r.games, home, away);
        r
  }

  function SyncRun(m: map<int, TeamId>, games: Games, payload: seq<SdGame>, now: string): (r: SyncState)
    requires UniquePairings(games)
    ensures LinksAndWinners(games, r.games) && UniquePairings(r.games)
    ensures r.linked + r.skippedNoMatch <= |payload|
    ensures r.winnersSet + r.skippedTieOrNoScore + r.skippedNoMatch <= |payload|
  {
    if payload == [] then SyncState(games, 0, 0, 0, 0)
    else
      var p := SyncRun(m, games, payload[..|payload| - 1], now);
      var r := SyncStep(m, p, payload[|payload| - 1], now);
      LinksAndWinnersTransitive(games, p.games, r.games);
      r
  }

  /** The body of the loop once the game row `k` between `ourHome` and `ourAway` is found. */
  method SyncMatched(db: Db, s: SyncState, g: SdGame, ourHome: TeamId, ourAway: TeamId, k: GameId, now: string)
    returns (r: SyncState)
    requires s.games == db.games && k in db.games && Between(db.games[k], ourHome, ourAway)
    modifies db
    ensures db.teams == old(db.teams) && db.pools == old(db.pools) && db.nextGameId == old(db.nextGameId)
    ensures r == MatchedStep(s, g, ourHome, ourAway, k, now) && r.games == db.games
  {
    var ourGame := db.games[k];
    var linked, winnersSet, skippedTieOrNoScore := s.linked, s.winnersSet, s.skippedTieOrNoScore;
    if NeedsLink(ourGame.sportsdataGameId, g.gameId) {
      db.UpdateGame(k, db.games[k].(sportsdataGameId := Some(g.gameId), lastSyncedAt := Some(now)));
      linked := linked + 1;
    }
    if g.isClosed && g.homeScore.Val? && g.awayScore.Val? {
      if g.homeScore.value == g.awayScore.value {
        skippedTieOrNoScore := skippedTieOrNoScore + 1;
      } else {
        var winnerOurTeamId := if g.homeScore.value > g.awayScore.value then ourHome else ourAway;
        if ourGame.winner != Some(winnerOurTeamId) {
          db.UpdateGame(k, db.games[k].(winner := Some(winnerOurTeamId), lastSyncedAt := Some(now)));
          winnersSet := winnersSet + 1;
        }
      }
    }
    assert db.games == s.games[k := MatchedRow(ourGame, g, ourHome, ourAway, now)];
    r := SyncState(db.games, linked, winnersSet, s.skippedNoMatch, skippedTieOrNoScore);
  }

  /** The loop of `POST` over the provider's games. */
  method SyncLoop(db: Db, m: map<int, TeamId>, payload: seq<SdGame>, now: string) returns (r: SyncState)
    requires UniquePairings(db.games)
    modifies db
    ensures db.teams == old(db.teams) && db.pools == old(db.pools) && db.nextGameId == old(db.nextGameId)
    ensures r == SyncRun(m, old(db.games), payload, now) && r.games == db.games
  {
    ghost var games0 := db.games;
    r := SyncState(db.games, 0, 0, 0, 0);
    var i := 0;
    while i < |payload|
      invariant 0 <= i <= |payload|
      invariant db.teams == old(db.teams) && db.pools == old(db.pools) && db.nextGameId == old(db.nextGameId)
      invariant r == SyncRun(m, games0, payload[..i], now) && r.games == db.games
    {
      var g := payload[i];
      assert payload[..i + 1][..i] == payload[..i];
      ghost var before := r;
      if g.homeTeamId !in m || g.awayTeamId !in m {
        r := r.(skippedNoMatch := r.skippedNoMatch + 1);
      } else {
        var ourHome, ourAway := m[g.homeTeamId], m[g.awayTeamId];
        var ourGame := GameBetween(db.games, ourHome, ourAway);
        if ourGame.None? {
          r := r.(skippedNoMatch := r.skippedNoMatch + 1);
        } else {
          r := SyncMatched(db, r, g, ourHome, ourAway, ourGame.value, now);
        }
      }
      assert r == SyncStep(m, before, g, now);
      i := i + 1;
    }
    assert payload[..i] == payload;
  }

  // ---------------------------------------------------------------------------
  // Running twice

  /**
   * Two mapped games between the same two local teams (in either order) carry the same
   * id, and the same winner when both have one.
   */
  ghost predicate Agree(m: map<int, TeamId>, g: SdGame, d: SdGame)
  {
    (Locals(m, g).Some? && Locals(m, d).Some?) ==>
      var (h, a) := Locals(m, g).value;
      var (h', a') := Locals(m, d).value;
      ((h == h' && a == a') || (h == a' && a == h')) ==>
        (g.gameId == d.gameId &&
         (VerdictOf(g, h, a).Winner? && VerdictOf(d, h', a').Winner? ==> VerdictOf(g, h, a).team == VerdictOf(d, h', a').team))
  }

  ghost predicate Consistent(m: map<int, TeamId>, payload: seq<SdGame>)
  {
    forall i, j :: 0 <= i < |payload| && 0 <= j < |payload| ==> Agree(m, payload[i], payload[j])
  }

  /** The game `d`, when it matches a row, finds its id there, and its winner when it has one. */
  ghost predicate SettledAt(m: map<int, TeamId>, games: Games, d: SdGame)
    requires UniquePairings(games)
  {
    Locals(m, d).Some? ==>
      var (h, a) := Locals(m, d).value;
      var k := GameBetween(games, h, a);
      k.Some? ==>
        games[k.value].sportsdataGameId == Some(d.gameId) &&
        (VerdictOf(d, h, a).Winner? ==> games[k.value].winner == Some(VerdictOf(d, h, a).team))
  }

  ghost predicate Settled(m: map<int, TeamId>, games: Games, payload: seq<SdGame>)
    requires UniquePairings(games)
  {
    forall i :: 0 <= i < |payload| ==> SettledAt(m, games, payload[i])
  }

  /** The lookup does not depend on the order of the two teams. */
  lemma GameBetweenSymmetric(games: Games, x: TeamId, y: TeamId)
    requires UniquePairings(games)
    ensures GameBetween(games, x, y) == GameBetween(games, y, x)
  {
    assert forall k :: k in games ==> (Between(games[k], x, y) <==> Between(games[k], y, x));
  }

  /** One step for `g` settles `g` and keeps every game that agrees with `g` settled. */
  lemma StepSettles(m: map<int, TeamId>, p: SyncState, g: SdGame, d: SdGame, now: string)
    requires UniquePairings(p.games)
    requires SettledAt(m, p.games, d) || d == g
    requires Agree(m, g, d)
    ensures var r := SyncStep(m, p, g, now); UniquePairings(r.games) && SettledAt(m, r.games, d)
  {
    var r := SyncStep(m, p, g, now);
    if Locals(m, d).Some? {
      var (h, a) := Locals(m, d).value;
      SameIdentityPairings(p.games, r.games, h, a);
      if Locals(m, g).Some? {
        var (h', a') := Locals(m, g).value;
        var kg := GameBetween(p.games, h', a');
        if kg.Some? {
          GameBetweenSymmetric(p.games, h', a');
        }
      }
    }
  }

  lemma StepSettlesAll(m: map<int, TeamId>, p: SyncState, g: SdGame, ds: seq<SdGame>, now: string)
    requires UniquePairings(p.games)
    requires forall i :: 0 <= i < |ds| ==> SettledAt(m, p.games, ds[i]) || ds[i] == g
    requires forall i :: 0 <= i < |ds| ==> Agree(m, g, ds[i])
    ensures UniquePairings(SyncStep(m, p, g, now).games) && Settled(m, SyncStep(m, p, g, now).games, ds)
  {
    forall i | 0 <= i < |ds| ensures SettledAt(m, SyncStep(m, p, g, now).games, ds[i]) {
      StepSettles(m, p, g, ds[i], now);
    }
  }

  lemma ConsistentPrefix(m: map<int, TeamId>, payload: seq<SdGame>, n: nat)
    requires Consistent(m, payload) && n <= |payload|
    ensures Consistent(m, payload[..n])
    ensures 0 < n ==> forall i :: 0 <= i < |payload| ==> Agree(m, payload[n - 1], payload[i])
  {
    var pre := payload[..n];
    forall i, j | 0 <= i < n && 0 <= j < n ensures Agree(m, pre[i], pre[j]) {
      assert pre[i] == payload[i] && pre[j] == payload[j];
    }
  }

  /** After a run over a consistent payload, every matched game holds its id and its winner. */
  lemma {:induction false} RunSettles(m: map<int, TeamId>, games: Games, payload: seq<SdGame>, now: string)
    requires UniquePairings(games) && Consistent(m, payload)
    ensures Settled(m, SyncRun(m, games, payload, now).games, payload)
  {
    if payload != [] {
      var n := |payload| - 1;
      var pre := payload[..n];
      ConsistentPrefix(m, payload, n + 1);
      ConsistentPrefix(m, payload, n);
      RunSettles(m, games, pre, now);
      var p := SyncRun(m, games, pre, now);
      forall i | 0 <= i < |payload| ensures SettledAt(m, p.games, payload[i]) || payload[i] == payload[n] {
        if i < n {
          assert pre[i] == payload[i];
        }
      }
      StepSettlesAll(m, p, payload[n], payload, now);
    }
  }

  /** A settled game with a non-zero GameID changes nothing and counts no link and no winner. */
  lemma SettledStepIdle(m: map<int, TeamId>, p: SyncState, g: SdGame, now: string)
    requires UniquePairings(p.games) && SettledAt(m, p.games, g) && g.gameId != 0
    ensures var r := SyncStep(m, p, g, now); r.games == p.games && r.linked == p.linked && r.winnersSet == p.winnersSet
  {
    if Locals(m, g).Some? {
      var (h, a) := Locals(m, g).value;
      var k := GameBetween(p.games, h, a);
      if k.Some? {
        assert p.games[k.value := p.games[k.value]] == p.games;
      }
    }
  }

  /** On a settled store, with every GameID non-zero, the loop links nothing and sets no winner. */
  lemma {:induction false} SettledRunIdle(m: map<int, TeamId>, games: Games, payload: seq<SdGame>, now: string)
    requires UniquePairings(games) && Settled(m, games, payload)
    requires forall i :: 0 <= i < |payload| ==> payload[i].gameId != 0
    ensures SyncRun(m, games, payload, now).games == games
    ensures SyncRun(m, games, payload, now).linked == 0 && SyncRun(m, games, payload, now).winnersSet == 0
  {
    if payload != [] {
      var n := |payload| - 1;
      var pre := payload[..n];
      assert Settled(m, games, pre) && forall i :: 0 <= i < |pre| ==> pre[i].gameId != 0 by {
        forall i | 0 <= i < n ensures pre[i] == payload[i] {}
      }
      SettledRunIdle(m, games, pre, now);
      SettledStepIdle(m, SyncRun(m, games, pre, now), payload[n], now);
    }
  }

  /**
   * A second run on the same data gives `linked` = 0 and `winnersSet` = 0 and changes
   * nothing, provided games between the same two teams agree and no GameID is 0.
   */
  lemma SecondRunIdle(m: map<int, TeamId>, games: Games, payload: seq<SdGame>, now1: string, now2: string)
    requires UniquePairings(games) && Consistent(m, payload)
    requires forall i :: 0 <= i < |payload| ==> payload[i].gameId != 0
    ensures var once := SyncRun(m, games, payload, now1).games;
      SyncRun(m, once, payload, now2).linked == 0 && SyncRun(m, once, payload, now2).winnersSet == 0 &&
      SyncRun(m, once, payload, now2).games == once
  {
    RunSettles(m, games, payload, now1);
    SettledRunIdle(m, SyncRun(m, games, payload, now1).games, payload, now2);
  }

  // ---------------------------------------------------------------------------
  // The route

  datatype SgResponse = SgResponse(ok: bool, status: int, games: seq<SdGame>)

  datatype SyncOutcome =
    | MissingDate                    // 400
    | MissingKey                     // 500 from mustEnv
    | ProviderError(status: int)     // 500
    | Synced(date: string, fetched: nat, linked: nat, winnersSet: nat, skippedNoMatch: nat, skippedTieOrNoScore: nat)

  /**
   * `POST`. `date` is the body's `date`, `key` SPORTSDATAIO_KEY, `resp` the provider's
   * answer, `teamRows` the rows of the team select and `now` the time stamp written.
   */
  method Post(db: Db, date: Field<Scalar>, key: Option<string>, resp: SgResponse, teamRows: seq<TeamId>, now: string)
    returns (res: SyncOutcome)
    requires UniqueTeamSportsIds(db.teams) && UniquePairings(db.games)
    requires ImportSchedule.Selected(teamRows, db.teams, LinkedTeamIds(db.teams))
    modifies db
    ensures db.teams == old(db.teams) && db.pools == old(db.pools) && db.nextGameId == old(db.nextGameId)
    ensures !(date.Val? && date.value.SStr? && date.value.s != "") ==> res == MissingDate
    ensures !res.Synced? ==> db.games == old(db.games)
    ensures res.Synced? <==>
      date.Val? && date.value.SStr? && date.value.s != "" && key.Some? && key.value != "" && resp.ok
    ensures res.Synced? ==>
      var r := SyncRun(TeamMap(old(db.teams)), old(db.games), resp.games, now);
      res == Synced(date.value.s, |resp.games|, r.linked, r.winnersSet, r.skippedNoMatch, r.skippedTieOrNoScore) &&
      db.games == r.games
  {
    if !(date.Val? && date.value.SStr? && date.value.s != "") {
      return MissingDate;
    }
    if key.None? || key.value == "" {
      return MissingKey;
    }
    if !resp.ok {
      return ProviderError(resp.status);
    }
    var m := ImportSchedule.BuildTeamMap(db.teams, LinkedTeamIds(db.teams), teamRows);
    var r := SyncLoop(db, m, resp.games, now);
    return Synced(date.value.s, |resp.games|, r.linked, r.winnersSet, r.skippedNoMatch, r.skippedTieOrNoScore);
  }
}

=== FILE: sync_logos.dfy ===
/**
 * app/api/admin/sync-logos/route.ts: team-name normalisation, the ESPN directory
 * index, the override and fallback key chain, and the route that writes
 * `logo_url` and `espn_team_id` onto matching teams.
 */
module SyncLogos {
  import opened Js
  import opened Store

  // ---------------------------------------------------------------------------
  // normName

  /** `.replace(/&/g, "and")` */
  function ReplaceAmp(s: string): string
  {
    if s == [] then []
    else (if s[0] == '&' then "and" else [s[0]]) + ReplaceAmp(s[1..])
  }

  /** Removes every character of `cs` (`.replace(/[...]/g, "")`). */
  function Strip(s: string, cs: set<char>): string
  {
    if s == [] then []
    else (if s[0] in cs then [] else [s[0]]) + Strip(s[1..], cs)
  }

  /** The class `[â€™']` of the source: a-circumflex, euro sign, trade mark sign, apostrophe. */
  const Quotes: set<char> := {'\U{E2}', '\U{20AC}', '\U{2122}', '\''}

  predicate DoubleSpaceAt(t: string, i: int)
  {
    0 <= i && i + 1 < |t| && t[i] == ' ' && t[i + 1] == ' '
  }

  /** `.replace(/\s+/g, " ")`: every run of white space becomes one space. */
  function Collapse(s: string): string
    decreases |s|
  {
    if s == [] then []
    else if IsSpace(s[0]) then
      (assert |TrimStart(s)| < |s|; [' '] + Collapse(TrimStart(s)))
    else [s[0]] + Collapse(s[1..])
  }

  /** Every `&` is gone and no character other than those of "and" is added. */
  lemma {:induction false} ReplaceAmpChars(s: string)
    ensures forall c :: c in ReplaceAmp(s) ==> (c in s && c != '&') || c in "and"
  {
    if s != [] {
      ReplaceAmpChars(s[1..]);
      assert forall c :: c in s[1..] ==> c in s;
    }
  }

  lemma {:induction false} ReplaceAmpNone(s: string)
    requires '&' !in s
    ensures ReplaceAmp(s) == s
  {
    if s != [] {
      assert s[0] in s;
      assert forall c :: c in s[1..] ==> c in s;
      ReplaceAmpNone(s[1..]);
    }
  }

  /** Every character of `cs` is gone and nothing is added. */
  lemma {:induction false} StripChars(s: string, cs: set<char>)
    ensures forall c :: c in Strip(s, cs) ==> c in s && c !in cs
  {
    if s != [] {
      StripChars(s[1..], cs);
      assert forall c :: c in s[1..] ==> c in s;
    }
  }

  lemma {:induction false} StripNone(s: string, cs: set<char>)
    requires forall c :: c in s ==> c !in cs
    ensures Strip(s, cs) == s
  {
    if s != [] {
      assert s[0] in s;
      assert forall c :: c in s[1..] ==> c in s;
      StripNone(s[1..], cs);
    }
  }

  /** Collapse keeps the non-space characters, turns white space into ' ', and never leaves two spaces in a row. */
  lemma {:induction false} CollapseShape(s: string)
    decreases |s|
    ensures forall c :: c in Collapse(s) ==> (c in s && !IsSpace(c)) || c == ' '
    ensures s == [] <==> Collapse(s) == []
    ensures s != [] && IsSpace(s[0]) ==> Collapse(s)[0] == ' '
    ensures s != [] && !IsSpace(s[0]) ==> Collapse(s)[0] == s[0]
    ensures forall i :: !DoubleSpaceAt(Collapse(s), i)
  {
    if s != [] {
      var t := if IsSpace(s[0]) then TrimStart(s) else s[1..];
      TrimStartShape(s);
      CollapseShape(t);
      var rest := Collapse(t);
      var r := Collapse(s);
      assert r == [if IsSpace(s[0]) then ' ' else s[0]] + rest;
      assert forall c :: c in t ==> c in s;
      assert forall i :: DoubleSpaceAt(r, i) ==> DoubleSpaceAt(rest, i - 1);
    }
  }

  /** A character normName can leave in its output. */
  predicate NormalChar(c: char)
  {
    !IsUpper(c) && c != '&' && c !in Quotes && c != '.' && (IsSpace(c) ==> c == ' ')
  }

  /** The shape of normName's output. */
  ghost predicate IsNormal(t: string)
  {
    (forall c :: c in t ==> NormalChar(c)) &&
    (forall i :: !DoubleSpaceAt(t, i)) &&
    (t != [] ==> t[0] != ' ' && t[|t| - 1] != ' ')
  }

  lemma SliceKeeps(s: string, r: string, a: int)
    requires OccursAt(s, r, a)
    ensures forall c :: c in r ==> c in s
    ensures forall i :: DoubleSpaceAt(r, i) ==> DoubleSpaceAt(s, a + i)
  {
    forall c | c in r ensures c in s {
      var j :| 0 <= j < |r| && r[j] == c;
      assert s[a + j] == c;
    }
  }

  /**
   * normName: lower-cased, `&` spelled "and", quotes and periods removed, white space
   * collapsed to single spaces and trimmed.
   */
  function NormName(s: string): string
  {
    Trim(Collapse(Strip(Strip(ReplaceAmp(Lower(s)), Quotes), {'.'})))
  }

  /** Whatever the input, normName's output has the normal shape. */
  lemma NormNameIsNormal(s: string)
    ensures IsNormal(NormName(s))
  {
    var a := Lower(s);
    assert forall c :: c in a ==> !IsUpper(c);
    var b := ReplaceAmp(a);
    ReplaceAmpChars(a);
    var c := Strip(b, Quotes);
    StripChars(b, Quotes);
    var d := Strip(c, {'.'});
    StripChars(c, {'.'});
    assert forall x :: x in d ==> !IsUpper(x) && x != '&' && x !in Quotes && x != '.';
    var e := Collapse(d);
    CollapseShape(d);
    assert forall x :: x in e ==> NormalChar(x);
    var r := Trim(e);
    TrimShape(e);
    var k :| OccursAt(e, r, k);
    SliceKeeps(e, r, k);
  }

  lemma {:induction false} CollapseKeepsNormal(s: string)
    requires forall c :: c in s ==> (IsSpace(c) ==> c == ' ')
    requires forall i :: !DoubleSpaceAt(s, i)
    ensures Collapse(s) == s
    decreases |s|
  {
    if s != [] {
      var t := s[1..];
      assert forall c :: c in t ==> c in s;
      assert forall i :: DoubleSpaceAt(t, i) ==> DoubleSpaceAt(s, i + 1);
      if IsSpace(s[0]) {
        assert t != [] ==> !IsSpace(t[0]) by {
          if t != [] { assert !DoubleSpaceAt(s, 0); }
        }
        assert TrimStart(s) == t;
      }
      CollapseKeepsNormal(t);
    }
  }

  /** When lower-casing alone already gives a normal name, that is normName's answer. */
  lemma NormNameOfNormalLower(s: string)
    requires IsNormal(Lower(s))
    ensures NormName(s) == Lower(s)
  {
    var t := Lower(s);
    ReplaceAmpNone(t);
    StripNone(t, Quotes);
    StripNone(t, {'.'});
    CollapseKeepsNormal(t);
    if t != [] {
      assert t[0] in t && t[|t| - 1] in t;
      TrimOfTrimmed(t);
    }
  }

  /** normName leaves an already normal name as it is. */
  lemma NormalIsFixed(t: string)
    requires IsNormal(t)
    ensures NormName(t) == t
  {
    var a := Lower(t);
    forall i | 0 <= i < |t| ensures a[i] == t[i] {
      assert t[i] in t;
    }
    assert a == t;
    NormNameOfNormalLower(t);
  }

  /** normName is idempotent. */
  lemma NormNameIdempotent(s: string)
    ensures NormName(NormName(s)) == NormName(s)
  {
    NormNameIsNormal(s);
    NormalIsFixed(NormName(s));
  }

  // ---------------------------------------------------------------------------
  // Overrides and the lookup key

  /** The manual override table, keyed by normalised name; "" marks a play-in placeholder. */
  const Overrides: map<string, string> := map[
    "connecticut" := "uconn",
    "michigan state" := "michigan st",
    "miami (oh)" := "miami (oh)",
    "miami ohio" := "miami (oh)",
    "miami oh" := "miami (oh)",
    "north dakota st" := "north dakota st",
    "north dakota state" := "north dakota st",
    "ndsu" := "north dakota st",
    "portland state" := "portland st",
    "wright state" := "wright st",
    "miami/new mexico" := "",
    "texas/san diego state" := "",
    "njit/morgan state" := "",
    "long island/b-cu" := ""]

  /** What one ESPN directory entry contributes: its ESPN id (`Number(t.id)`) and logo. */
  datatype Hit = Hit(espnId: Option<int>, logo: string)

  type Index = map<string, Hit>

  /** How a team's name is resolved against the index. */
  datatype Resolution =
    | Placeholder                        // override to "": reported by raw name, never looked up
    | Resolved(key: string, hit: Hit)
    | Unresolved(key: string)

  /** The team's normalised name has an empty-string override. */
  predicate IsPlaceholder(raw: string)
  {
    var n := NormName(raw);
    n in Overrides && Overrides[n] == ""
  }

  /** `normName(override)` when there is a non-empty override, else the normalised name. */
  function LookupKey(raw: string): (key: string)
    ensures NormName(raw) !in Overrides ==> key == NormName(raw)
    ensures NormName(raw) in Overrides && Overrides[NormName(raw)] != "" ==> key == NormName(Overrides[NormName(raw)])
    ensures NormName(raw) in Overrides && Overrides[NormName(raw)] == "" ==> key == NormName(raw)
  {
    var n := NormName(raw);
    if n in Overrides && Overrides[n] != "" then NormName(Overrides[n]) else n
  }

  function Get(idx: Index, k: string): Option<Hit>
  {
    if k in idx then Some(idx[k]) else None
  }

  /** The key contains " state" and its " st" spelling is indexed. */
  predicate StateKeyHit(idx: Index, key: string)
  {
    Contains(key, " state") && ReplaceFirst(key, " state", " st") in idx
  }

  /** The key contains " oh" and its " (oh)" spelling is indexed. */
  predicate OhKeyHit(idx: Index, key: string)
  {
    Contains(key, " oh") && ReplaceFirst(key, " oh", " (oh)") in idx
  }

  /** The key the route looks up is already in normal form, like every key of the index. */
  lemma LookupKeyIsNormal(raw: string)
    ensures IsNormal(LookupKey(raw))
    ensures NormName(LookupKey(raw)) == LookupKey(raw)
  {
    var n := NormName(raw);
    if n in Overrides && Overrides[n] != "" {
      NormNameIsNormal(Overrides[n]);
      NormNameIdempotent(Overrides[n]);
    } else {
      NormNameIsNormal(raw);
      NormNameIdempotent(raw);
    }
  }

  /** The key, then " state" -> " st", then " oh" -> " (oh)" (first occurrence each). */
  function Lookup(idx: Index, key: string): (r: Option<Hit>)
    ensures key in idx ==> r == Some(idx[key])
    ensures key !in idx && StateKeyHit(idx, key) ==> r == Some(idx[ReplaceFirst(key, " state", " st")])
    ensures key !in idx && !StateKeyHit(idx, key) && OhKeyHit(idx, key) ==> r == Some(idx[ReplaceFirst(key, " oh", " (oh)")])
    ensures r.None? <==> key !in idx && !StateKeyHit(idx, key) && !OhKeyHit(idx, key)
    ensures r.Some? ==> r.value in idx.Values
  {
    var hit := Get(idx, key);
    var hit := if hit.None? && Contains(key, " state") then Get(idx, ReplaceFirst(key, " state", " st")) else hit;
    if hit.None? && Contains(key, " oh") then Get(idx, ReplaceFirst(key, " oh", " (oh)")) else hit
  }

  function Resolve(idx: Index, raw: string): (r: Resolution)
    ensures r.Placeholder? <==> IsPlaceholder(raw)
    ensures !r.Placeholder? ==> r.key == LookupKey(raw)
    ensures r.Resolved? ==> Lookup(idx, r.key) == Some(r.hit)
    ensures r.Unresolved? ==> Lookup(idx, r.key).None?
  {
    if IsPlaceholder(raw) then Placeholder
    else
      var key := LookupKey(raw);
      match Lookup(idx, key)
      case Some(h) => Resolved(key, h)
      case None => Unresolved(key)
  }

  /** A placeholder is decided without consulting the index at all. */
  lemma PlaceholderIgnoresIndex(idx1: Index, idx2: Index, raw: string)
    requires Resolve(idx1, raw).Placeholder?
    ensures Resolve(idx2, raw) == Placeholder
  {
  }

  /** The " state" fallback: a key that misses but whose " st" spelling is indexed resolves to it. */
  lemma StateFallback(idx: Index, raw: string)
    requires !IsPlaceholder(raw)
    requires LookupKey(raw) !in idx && Contains(LookupKey(raw), " state")
    requires ReplaceFirst(LookupKey(raw), " state", " st") in idx
    ensures Resolve(idx, raw) == Resolved(LookupKey(raw), idx[ReplaceFirst(LookupKey(raw), " state", " st")])
  {
  }

  /** The " oh" fallback: a key that misses, and has no " st" hit, resolves to its " (oh)" spelling. */
  lemma OhFallback(idx: Index, raw: string)
    requires !IsPlaceholder(raw)
    requires LookupKey(raw) !in idx && !StateKeyHit(idx, LookupKey(raw))
    requires Contains(LookupKey(raw), " oh") && ReplaceFirst(LookupKey(raw), " oh", " (oh)") in idx
    ensures Resolve(idx, raw) == Resolved(LookupKey(raw), idx[ReplaceFirst(LookupKey(raw), " oh", " (oh)")])
  {
  }

  /** " state" is tried before " oh": when both spellings are indexed, the " st" one wins. */
  lemma StateBeforeOh(idx: Index, raw: string)
    requires !IsPlaceholder(raw)
    requires LookupKey(raw) !in idx && StateKeyHit(idx, LookupKey(raw)) && OhKeyHit(idx, LookupKey(raw))
    ensures Resolve(idx, raw) == Resolved(LookupKey(raw), idx[ReplaceFirst(LookupKey(raw), " state", " st")])
  {
  }

  /** A name whose key and both fallback spellings all miss is reported with its key. */
  lemma AllMissUnresolved(idx: Index, raw: string)
    requires !IsPlaceholder(raw)
    requires LookupKey(raw) !in idx && !StateKeyHit(idx, LookupKey(raw)) && !OhKeyHit(idx, LookupKey(raw))
    ensures Resolve(idx, raw) == Unresolved(LookupKey(raw))
    ensures MissingLabel(raw, Resolve(idx, raw)) == raw + " (key=" + LookupKey(raw) + ")"
  {
  }

  // ---------------------------------------------------------------------------
  // The ESPN directory index

  datatype Logo = Logo(href: Field<string>)
  datatype EspnTeam = EspnTeam(
    id: Field<string>,
    displayName: Field<string>,
    name: Field<string>,
    shortDisplayName: Field<string>,
    logos: Field<seq<Logo>>)
  /** One element of `sports[0].leagues[0].teams`. */
  datatype EspnEntry = EspnEntry(team: Field<EspnTeam>)

  /** `a || b` on string fields. */
  function OrStr(a: Field<string>, b: Field<string>): Field<string>
  {
    if TruthyStr(a) then a else b
  }

  /** `t.displayName || t.name || t.shortDisplayName` */
  function DisplayName(t: EspnTeam): Field<string>
  {
    OrStr(OrStr(t.displayName, t.name), t.shortDisplayName)
  }

  /** `t?.logos?.[0]?.href` */
  function LogoHref(t: EspnTeam): Field<string>
  {
    if t.logos.Val? && |t.logos.value| > 0 then t.logos.value[0].href else Undefined
  }

  /** The entry has a team with an id, a display name and a logo. */
  predicate Indexable(e: EspnEntry)
  {
    e.team.Val? && TruthyStr(e.team.value.id) && TruthyStr(DisplayName(e.team.value)) && TruthyStr(LogoHref(e.team.value))
  }

  function EntryHit(e: EspnEntry): Hit
    requires Indexable(e)
  {
    Hit(JsNumber(e.team.value.id.value), LogoHref(e.team.value).value)
  }

  /** One loop iteration: set the display-name key, then the short-name key if there is one. */
  function AddEntry(idx: Index, e: EspnEntry): (r: Index)
    ensures !Indexable(e) ==> r == idx
    ensures Indexable(e) ==> NormName(DisplayName(e.team.value).value) in r
    ensures Indexable(e) && TruthyStr(e.team.value.shortDisplayName) ==>
      NormName(e.team.value.shortDisplayName.value) in r &&
      r[NormName(e.team.value.shortDisplayName.value)] == EntryHit(e)
    ensures Indexable(e) ==> r[NormName(DisplayName(e.team.value).value)] == EntryHit(e)
  {
    if !Indexable(e) then idx
    else
      var t := e.team.value;
      var h := EntryHit(e);
      var idx := idx[NormName(DisplayName(t).value) := h];
      if TruthyStr(t.shortDisplayName) then idx[NormName(t.shortDisplayName.value) := h] else idx
  }

  /** The index after the whole directory: later entries overwrite earlier ones. */
  function EspnIndex(entries: seq<EspnEntry>): Index
  {
    if entries == [] then map[] else AddEntry(EspnIndex(entries[..|entries| - 1]), entries[|entries| - 1])
  }

  /** The keys an indexable entry contributes. */
  predicate KeyOf(e: EspnEntry, k: string)
  {
    Indexable(e) &&
    (k == NormName(DisplayName(e.team.value).value) ||
     (TruthyStr(e.team.value.shortDisplayName) && k == NormName(e.team.value.shortDisplayName.value)))
  }

  /** Every key of the index comes from an indexable entry and holds that entry's hit or a later one's. */
  lemma {:induction false} EspnIndexKeys(entries: seq<EspnEntry>, k: string)
    requires k in EspnIndex(entries)
    ensures exists i :: 0 <= i < |entries| && KeyOf(entries[i], k) && EspnIndex(entries)[k] == EntryHit(entries[i])
  {
    var n := |entries| - 1;
    var p := entries[..n];
    var e := entries[n];
    if KeyOf(e, k) {
      assert KeyOf(entries[n], k) && EspnIndex(entries)[k] == EntryHit(entries[n]);
    } else {
      assert EspnIndex(entries)[k] == EspnIndex(p)[k];
      EspnIndexKeys(p, k);
      var i :| 0 <= i < |p| && KeyOf(p[i], k) && EspnIndex(p)[k] == EntryHit(p[i]);
      assert entries[i] == p[i];
    }
  }

  /** The last indexable entry carrying a key decides it. */
  lemma {:induction false} EspnIndexLastWins(entries: seq<EspnEntry>, i: int, k: string)
    requires 0 <= i < |entries| && KeyOf(entries[i], k)
    requires forall j :: i < j < |entries| ==> !KeyOf(entries[j], k)
    ensures k in EspnIndex(entries) && EspnIndex(entries)[k] == EntryHit(entries[i])
  {
    var n := |entries| - 1;
    if i < n {
      EspnIndexLastWins(entries[..n], i, k);
    }
  }

  /** The loop that fills the index. */
  method BuildEspnIndex(entries: seq<EspnEntry>) returns (idx: Index)
    ensures idx == EspnIndex(entries)
  {
    idx := map[];
    var i := 0;
    while i < |entries|
      invariant 0 <= i <= |entries|
      invariant idx == EspnIndex(entries[..i])
    {
      var e := entries[i];
      if e.team.Val? && TruthyStr(e.team.value.id) {
        var t := e.team.value;
        var displayName := DisplayName(t);
        var logoHref := LogoHref(t);
        if TruthyStr(displayName) && TruthyStr(logoHref) {
          var h := Hit(JsNumber(t.id.value), logoHref.value);
          idx := idx[NormName(displayName.value) := h];
          if TruthyStr(t.shortDisplayName) {
            idx := idx[NormName(t.shortDisplayName.value) := h];
          }
        }
      }
      assert entries[..i + 1][..i] == entries[..i];
      i := i + 1;
    }
    assert entries[..i] == entries;
  }

  // ---------------------------------------------------------------------------
  // The route

  /** The ESPN directory response: status and the parsed team list. */
  datatype EspnResponse = EspnResponse(ok: bool, status: int, entries: seq<EspnEntry>)

  datatype LogoResult =
    | MissingParams                        // 400 missing poolId/userId
    | PoolNotFound                         // 400 from `.single()`
    | NotAuthorized                        // 403
    | EspnFailed(status: int)              // 500
    | Done(updated: nat, missing: seq<string>)

  /** The team row after a successful write. */
  function WithLogo(t: Team, h: Hit): Team
  {
    t.(logoUrl := Some(h.logo), espnTeamId := h.espnId)
  }

  /** The `missing` entry for a team. */
  function MissingLabel(raw: string, r: Resolution): string
  {
    if r.Placeholder? then raw else raw + " (key=" + r.key + ")"
  }

  /** The loop's state: teams, `updated`, `missing`. */
  datatype LogoState = LogoState(teams: Teams, updated: nat, missing: seq<string>)

  /**
   * How each team's name resolves against the index. The route resolves each name
   * inside its loop; a resolution depends only on the name and the index, and the
   * loop changes neither, so resolving them up front gives the same answers.
   */
  function Resolutions(idx: Index, teams: Teams): (m: map<TeamId, Resolution>)
    ensures m.Keys == teams.Keys
  {
    map k | k in teams :: Resolve(idx, teams[k].name)
  }

  /**
   * One team: placeholder or miss is reported under its label and nothing is written;
   * a hit is written unless the write fails, and `updated` counts only writes that succeed.
   */
  function LogoStep(s: LogoState, res: map<TeamId, Resolution>, id: TeamId, failing: set<TeamId>): (r: LogoState)
    requires id in s.teams && id in res
    ensures !res[id].Resolved? ==>
      r == s.(missing := s.missing + [MissingLabel(s.teams[id].name, res[id])])
    ensures res[id].Resolved? && id in failing ==> r == s
    ensures res[id].Resolved? && id !in failing ==>
      r == LogoState(s.teams[id := WithLogo(s.teams[id], res[id].hit)], s.updated + 1, s.missing)
  {
    var t := s.teams[id];
    var r := res[id];
    if !r.Resolved? then LogoState(s.teams, s.updated, s.missing + [MissingLabel(t.name, r)])
    else if id in failing then s
    else LogoState(s.teams[id := WithLogo(t, r.hit)], s.updated + 1, s.missing)
  }

  /** The `missing` report: the label of every team that does not resolve, in store order. */
  function Misses(teams: Teams, res: map<TeamId, Resolution>, order: seq<TeamId>): (ms: seq<string>)
    requires forall i :: 0 <= i < |order| ==> order[i] in teams && order[i] in res
    ensures |ms| <= |order|
  {
    if order == [] then []
    else
      var id := order[|order| - 1];
      Misses(teams, res, order[..|order| - 1]) +
        (if res[id].Resolved? then [] else [MissingLabel(teams[id].name, res[id])])
  }

  /** The number of visits to a team that resolves and whose write succeeds. */
  function Writes(res: map<TeamId, Resolution>, order: seq<TeamId>, failing: set<TeamId>): (n: nat)
    requires forall i :: 0 <= i < |order| ==> order[i] in res
    ensures n <= |order|
  {
    if order == [] then 0
    else
      var id := order[|order| - 1];
      Writes(res, order[..|order| - 1], failing) + (if res[id].Resolved? && id !in failing then 1 else 0)
  }

  /**
   * The loop keeps every name, so `missing` is the unresolved teams' labels in store
   * order, and `updated` counts the successful writes.
   */
  function LogoRun(teams: Teams, res: map<TeamId, Resolution>, order: seq<TeamId>, failing: set<TeamId>): (s: LogoState)
    requires forall i :: 0 <= i < |order| ==> order[i] in teams && order[i] in res
    ensures s.teams.Keys == teams.Keys
    ensures s.updated + |s.missing| <= |order|
    ensures forall k :: k in teams ==> s.teams[k].name == teams[k].name
    ensures s.missing == Misses(teams, res, order)
    ensures s.updated == Writes(res, order, failing)
  {
    if order == [] then LogoState(teams, 0, [])
    else
      var p := LogoRun(teams, res, order[..|order| - 1], failing);
      LogoStep(p, res, order[|order| - 1], failing)
  }

  /** Each team's final row: new logo and ESPN id when its name resolved and the write went through. */
  lemma {:induction false} LogoRunRows(teams: Teams, res: map<TeamId, Resolution>, order: seq<TeamId>, failing: set<TeamId>, k: TeamId)
    requires forall i :: 0 <= i < |order| ==> order[i] in teams && order[i] in res
    requires k in teams && k in res
    ensures var s := LogoRun(teams, res, order, failing);
      s.teams[k] == (if k in order && res[k].Resolved? && k !in failing then WithLogo(teams[k], res[k].hit) else teams[k])
  {
    if order != [] {
      var n := |order| - 1;
      LogoRunRows(teams, res, order[..n], failing, k);
      assert k in order <==> k in order[..n] || k == order[n];
    }
  }

  /** A team whose name does not resolve, or whose write fails, keeps its row; the others get the resolved logo and ESPN id. */
  lemma SyncedRow(teams: Teams, idx: Index, order: seq<TeamId>, failing: set<TeamId>, k: TeamId)
    requires forall i :: 0 <= i < |order| ==> order[i] in teams
    requires k in teams
    ensures var r := Resolve(idx, teams[k].name);
      LogoRun(teams, Resolutions(idx, teams), order, failing).teams[k] ==
        (if k in order && r.Resolved? && k !in failing then WithLogo(teams[k], r.hit) else teams[k])
  {
    LogoRunRows(teams, Resolutions(idx, teams), order, failing, k);
  }

  /** The store's rows come back as a list naming every team exactly once. */
  ghost predicate Enumerates(order: seq<TeamId>, teams: Teams)
  {
    (forall i, j :: 0 <= i < j < |order| ==> order[i] != order[j]) &&
    (forall k :: k in teams <==> k in order)
  }

  method SyncLogos(db: Db, poolId: Field<string>, userId: Field<string>, order: seq<TeamId>,
                   espn: EspnResponse, failing: set<TeamId>) returns (res: LogoResult)
    requires Enumerates(order, db.teams)
    modifies db
    ensures db.games == old(db.games) && db.pools == old(db.pools) && db.nextGameId == old(db.nextGameId)
    ensures !TruthyStr(poolId) || !TruthyStr(userId) ==> res == MissingParams && db.teams == old(db.teams)
    ensures (TruthyStr(poolId) && TruthyStr(userId) && poolId.value in db.pools &&
             db.pools[poolId.value].createdBy != Some(userId.value)) ==> res == NotAuthorized && db.teams == old(db.teams)
    ensures !res.Done? ==> db.teams == old(db.teams)
    ensures TruthyStr(poolId) && TruthyStr(userId) && poolId.value !in db.pools ==> res == PoolNotFound
    ensures (TruthyStr(poolId) && TruthyStr(userId) && poolId.value in db.pools &&
             db.pools[poolId.value].createdBy == Some(userId.value) && !espn.ok) ==> res == EspnFailed(espn.status)
    ensures res.Done? <==>
      TruthyStr(poolId) && TruthyStr(userId) && poolId.value in old(db.pools) &&
      old(db.pools)[poolId.value].createdBy == Some(userId.value) && espn.ok
    ensures res.Done? ==> var s := LogoRun(old(db.teams), Resolutions(EspnIndex(espn.entries), old(db.teams)), order, failing);
      db.teams == s.teams && res.updated == s.updated && res.missing == s.missing
    ensures res.Done? ==> res.updated + |res.missing| <= |old(db.teams)|
  {
    if !TruthyStr(poolId) || !TruthyStr(userId) {
      return MissingParams;
    }
    if poolId.value !in db.pools {
      return PoolNotFound;
    }
    if db.pools[poolId.value].createdBy != Some(userId.value) {
      return NotAuthorized;
    }
    if !espn.ok {
      return EspnFailed(espn.status);
    }
    var idx := BuildEspnIndex(espn.entries);
    var resOf := Resolutions(idx, db.teams);
    var updated, missing := WriteLogos(db, resOf, order, failing);
    EnumerationSize(order, old(db.teams));
    return Done(updated, missing);
  }

  /** The loop over the teams: report misses, write hits. */
  method WriteLogos(db: Db, resOf: map<TeamId, Resolution>, order: seq<TeamId>, failing: set<TeamId>)
    returns (updated: nat, missing: seq<string>)
    requires forall i :: 0 <= i < |order| ==> order[i] in db.teams && order[i] in resOf
    modifies db
    ensures db.games == old(db.games) && db.pools == old(db.pools) && db.nextGameId == old(db.nextGameId)
    ensures LogoRun(old(db.teams), resOf, order, failing) == LogoState(db.teams, updated, missing)
  {
    ghost var teams0 := db.teams;
    updated := 0;
    missing := [];
    var i := 0;
    while i < |order|
      invariant 0 <= i <= |order|
      invariant db.games == old(db.games) && db.pools == old(db.pools) && db.nextGameId == old(db.nextGameId)
      invariant LogoRun(teams0, resOf, order[..i], failing) == LogoState(db.teams, updated, missing)
    {
      ghost var before := LogoState(db.teams, updated, missing);
      var id := order[i];
      var t := db.teams[id];
      var raw := t.name;
      var r := resOf[id];
      if !r.Resolved? {
        missing := missing + [MissingLabel(raw, r)];
      } else if id !in failing {
        db.UpdateTeam(id, WithLogo(t, r.hit));
        updated := updated + 1;
      }
      assert LogoStep(before, resOf, id, failing) == LogoState(db.teams, updated, missing);
      assert order[..i + 1][..i] == order[..i];
      i := i + 1;
    }
    assert order[..i] == order;
  }

  lemma EnumerationSize(order: seq<TeamId>, teams: Teams)
    requires Enumerates(order, teams)
    ensures |order| == |teams|
  {
    var s := set i | 0 <= i < |order| :: order[i];
    assert s == teams.Keys;
    DistinctCard(order);
  }

  lemma {:induction false} DistinctCard(xs: seq<TeamId>)
    requires forall i, j :: 0 <= i < j < |xs| ==> xs[i] != xs[j]
    ensures |set i | 0 <= i < |xs| :: xs[i]| == |xs|
  {
    if xs != [] {
      var n := |xs| - 1;
      DistinctCard(xs[..n]);
      var s := set i | 0 <= i < n :: xs[..n][i];
      assert (set i | 0 <= i < |xs| :: xs[i]) == s + {xs[n]};
      assert xs[n] !in s;
    }
  }
}

=== FILE: sync_results.dfy ===
/**
 * app/api/admin/sync-results/route.ts: a cron-protected job that reads finished
 * games from the Highlightly feed and writes each one's winner into the local
 * `games` row with the same `external_game_id`.
 */
module SyncResults {
  import opened Js
  import opened Store

  // ---------------------------------------------------------------------------
  // Payload and the finished filter

  /** One Highlightly game: its id, status and the provider's winner team id. */
  datatype HlGame = HlGame(id: Field<Scalar>, status: Field<string>, winnerTeamId: Field<Scalar>)

  /** The parsed body: null, or an object whose `games` and `data` keys may hold arrays. */
  datatype HlPayload = HlNull | HlObject(games: Field<seq<HlGame>>, data: Field<seq<HlGame>>)

  /** `payload?.games ?? payload?.data ?? []` */
  function GamesOf(p: HlPayload): (r: seq<HlGame>)
    ensures p.HlNull? ==> r == []
    ensures p.HlObject? && p.games.Val? ==> r == p.games.value
    ensures p.HlObject? && !p.games.Val? && p.data.Val? ==> r == p.data.value
    ensures p.HlObject? && !p.games.Val? && !p.data.Val? ==> r == []
  {
    match p
    case HlNull => []
    case HlObject(g, d) => if g.Val? then g.value else if d.Val? then d.value else []
  }

  /** `(g.status ?? "").toLowerCase()` is "final", "finished" or "completed". */
  predicate IsFinished(g: HlGame)
  {
    var s := Lower(if g.status.Val? then g.status.value else "");
    s == "final" || s == "finished" || s == "completed"
  }

  /** A missing or null status is never finished. */
  lemma MissingStatusNotFinished(id: Field<Scalar>, w: Field<Scalar>)
    ensures !IsFinished(HlGame(id, Undefined, w)) && !IsFinished(HlGame(id, Null, w))
  {
    assert Lower("") == "";
  }

  /** The finished games, in payload order. */
  function Finished(games: seq<HlGame>): (r: seq<HlGame>)
    ensures |r| <= |games|
  {
    if games == [] then []
    else Finished(games[..|games| - 1]) + (if IsFinished(games[|games| - 1]) then [games[|games| - 1]] else [])
  }

  /** The filter keeps exactly the finished games. */
  lemma {:induction false} FinishedKeepsExactly(games: seq<HlGame>)
    ensures forall g :: g in Finished(games) <==> g in games && IsFinished(g)
  {
    if games != [] {
      var n := |games| - 1;
      FinishedKeepsExactly(games[..n]);
      assert games == games[..n] + [games[n]];
    }
  }

  // ---------------------------------------------------------------------------
  // The winner-resolution loop

  /** `String(g.id)`: the `external_game_id` the game row is looked up by. */
  function ExternalIdOf(g: HlGame): string
  {
    StringOf(g.id)
  }

  /** The local team whose `external_team_id` is `String(winner_team_id)`; None when the provider gives none. */
  function WinnerOf(teams: Teams, g: HlGame): (r: Option<TeamId>)
    requires UniqueTeamExternalIds(teams)
    ensures r.Some? ==> g.winnerTeamId.Val? && r.value in teams && teams[r.value].externalTeamId == Some(StringOf(g.winnerTeamId))
    ensures r.None? && g.winnerTeamId.Val? ==> forall k :: k in teams ==> teams[k].externalTeamId != Some(StringOf(g.winnerTeamId))
  {
    if g.winnerTeamId.Val? then TeamByExternalId(teams, StringOf(g.winnerTeamId)) else None
  }

  /** What one finished game asks for: the row's external id and the resolved local winner. */
  datatype Claim = Claim(externalId: string, winner: Option<TeamId>)

  function ClaimOf(teams: Teams, g: HlGame): Claim
    requires UniqueTeamExternalIds(teams)
  {
    Claim(ExternalIdOf(g), WinnerOf(teams, g))
  }

  /**
   * The claims of all finished games. The route resolves each winner inside its loop;
   * the loop never writes `teams`, so resolving them first gives the same values.
   */
  function Claims(teams: Teams, fin: seq<HlGame>): (cs: seq<Claim>)
    requires UniqueTeamExternalIds(teams)
    ensures |cs| == |fin|
    ensures forall i :: 0 <= i < |fin| ==> cs[i] == ClaimOf(teams, fin[i])
  {
    seq(|fin|, i requires 0 <= i < |fin| => ClaimOf(teams, fin[i]))
  }

  datatype ResultsState = ResultsState(games: Games, updated: nat, skipped: nat)

  /** The row after the write: the resolved winner and status "final"; nothing else. */
  function Decided(g: Game, w: TeamId): Game
  {
    g.(winner := Some(w), status := Some("final"))
  }

  /** Rows keep their keys, and a changed row is the old row with a winner written and status "final". */
  ghost predicate OnlyWinners(a: Games, b: Games)
  {
    a.Keys == b.Keys &&
    forall k :: k in a ==> b[k] == a[k] || (b[k].winner.Some? && b[k] == Decided(a[k], b[k].winner.value))
  }

  lemma OnlyWinnersTransitive(a: Games, b: Games, c: Games)
    requires OnlyWinners(a, b) && OnlyWinners(b, c)
    ensures OnlyWinners(a, c)
  {
    forall k | k in a
      ensures c[k] == a[k] || (c[k].winner.Some? && c[k] == Decided(a[k], c[k].winner.value))
    {
      if c[k] != b[k] && b[k] != a[k] {
        assert c[k] == Decided(Decided(a[k], b[k].winner.value), c[k].winner.value);
      }
    }
  }

  /** Writing winners never changes a row's position, teams or external id. */
  lemma OnlyWinnersKeepIdentity(a: Games, b: Games)
    requires OnlyWinners(a, b)
    ensures SameIdentity(a, b)
  {
  }

  /**
   * One iteration: skip when no row, no resolved winner, or the winner is already stored;
   * else write. A write happens, and `updated` grows, exactly when all three tests pass,
   * and it touches only the found row.
   */
  function ResultsStep(s: ResultsState, c: Claim): (r: ResultsState)
    requires UniqueGameExternalIds(s.games)
    ensures OnlyWinners(s.games, r.games)
    ensures r.updated + r.skipped == s.updated + s.skipped + 1
    ensures var k := GameByExternalId(s.games, c.externalId);
      k.Some? && c.winner.Some? && s.games[k.value].winner != c.winner ==>
        r == ResultsState(s.games[k.value := Decided(s.games[k.value], c.winner.value)], s.updated + 1, s.skipped)
    ensures var k := GameByExternalId(s.games, c.externalId);
      k.None? || c.winner.None? || s.games[k.value].winner == c.winner ==>
        r == s.(skipped := s.skipped + 1)
  {
    match GameByExternalId(s.games, c.externalId)
    case None => ResultsState(s.games, s.updated, s.skipped + 1)
    case Some(k) =>
      if c.winner.None? then ResultsState(s.games, s.updated, s.skipped + 1)
      else if s.games[k].winner == c.winner then ResultsState(s.games, s.updated, s.skipped + 1)
      else ResultsState(s.games[k := Decided(s.games[k], c.winner.value)], s.updated + 1, s.skipped)
  }

  /** The loop over the finished games' claims. */
  function ResultsRun(games: Games, cs: seq<Claim>): (r: ResultsState)
    requires UniqueGameExternalIds(games)
    ensures UniqueGameExternalIds(r.games) && OnlyWinners(games, r.games)
    ensures r.updated + r.skipped == |cs|
  {
    if cs == [] then ResultsState(games, 0, 0)
    else
      var p := ResultsRun(games, cs[..|cs| - 1]);
      var r := ResultsStep(p, cs[|cs| - 1]);
      OnlyWinnersKeepIdentity(p.games, r.games);
      SameIdentityExternal(p.games, r.games, "");
      OnlyWinnersTransitive(games, p.games, r.games);
      r
  }

  /** The run over one more claim is one more step. */
  lemma ResultsRunNext(games: Games, cs: seq<Claim>, i: int)
    requires UniqueGameExternalIds(games) && 0 <= i < |cs|
    ensures ResultsRun(games, cs[..i + 1]) == ResultsStep(ResultsRun(games, cs[..i]), cs[i])
  {
    assert cs[..i + 1][..i] == cs[..i];
  }

  /** The body of the loop for one claim: skip, or write the winner and status. */
  method WriteOne(db: Db, s: ResultsState, c: Claim) returns (r: ResultsState)
    requires s.games == db.games && UniqueGameExternalIds(db.games)
    modifies db
    ensures db.teams == old(db.teams) && db.pools == old(db.pools) && db.nextGameId == old(db.nextGameId)
    ensures r == ResultsStep(s, c) && r.games == db.games
  {
    var dbGame := GameByExternalId(db.games, c.externalId);
    if dbGame.None? {
      r := s.(skipped := s.skipped + 1);
    } else if c.winner.None? {
      r := s.(skipped := s.skipped + 1);
    } else if db.games[dbGame.value].winner == c.winner {
      r := s.(skipped := s.skipped + 1);
    } else {
      var k := dbGame.value;
      db.UpdateGame(k, Decided(db.games[k], c.winner.value));
      r := ResultsState(db.games, s.updated + 1, s.skipped);
    }
  }

  /** The loop of `POST` over the finished games. */
  method WriteResults(db: Db, cs: seq<Claim>) returns (updated: nat, skipped: nat)
    requires UniqueGameExternalIds(db.games)
    modifies db
    ensures db.teams == old(db.teams) && db.pools == old(db.pools) && db.nextGameId == old(db.nextGameId)
    ensures ResultsRun(old(db.games), cs) == ResultsState(db.games, updated, skipped)
  {
    ghost var games0 := db.games;
    var s := ResultsState(db.games, 0, 0);
    var i := 0;
    while i < |cs|
      invariant 0 <= i <= |cs|
      invariant db.teams == old(db.teams) && db.pools == old(db.pools) && db.nextGameId == old(db.nextGameId)
      invariant ResultsRun(games0, cs[..i]) == s && s.games == db.games
    {
      ResultsRunNext(games0, cs, i);
      s := WriteOne(db, s, cs[i]);
      i := i + 1;
    }
    assert cs[..i] == cs;
    updated, skipped := s.updated, s.skipped;
  }

  // ---------------------------------------------------------------------------
  // Running twice

  /** Claims that share an external id and both carry a winner carry the same one. */
  ghost predicate Consistent(cs: seq<Claim>)
  {
    forall i, j :: (0 <= i < |cs| && 0 <= j < |cs| && cs[i].externalId == cs[j].externalId &&
                    cs[i].winner.Some? && cs[j].winner.Some?) ==>
      cs[i].winner == cs[j].winner
  }

  /** The claim `d` finds its winner stored in `games` (or has no row or no winner). */
  ghost predicate SettledAt(games: Games, d: Claim)
    requires UniqueGameExternalIds(games)
  {
    var k := GameByExternalId(games, d.externalId);
    k.Some? && d.winner.Some? ==> games[k.value].winner == d.winner
  }

  /** Every claim with a row and a winner finds that winner stored. */
  ghost predicate Settled(games: Games, cs: seq<Claim>)
    requires UniqueGameExternalIds(games)
  {
    forall i :: 0 <= i < |cs| ==> SettledAt(games, cs[i])
  }

  /** One step for claim `c` settles `c` and keeps every claim that agrees with `c` settled. */
  lemma StepSettles(p: ResultsState, c: Claim, d: Claim)
    requires UniqueGameExternalIds(p.games)
    requires SettledAt(p.games, d) || d == c
    requires d.externalId == c.externalId && d.winner.Some? && c.winner.Some? ==> d.winner == c.winner
    ensures var r := ResultsStep(p, c); UniqueGameExternalIds(r.games) && SettledAt(r.games, d)
  {
    var r := ResultsStep(p, c);
    OnlyWinnersKeepIdentity(p.games, r.games);
    SameIdentityExternal(p.games, r.games, d.externalId);
  }

  lemma {:induction false} RunSettles(games: Games, cs: seq<Claim>)
    requires UniqueGameExternalIds(games) && Consistent(cs)
    ensures Settled(ResultsRun(games, cs).games, cs)
  {
    if cs != [] {
      var n := |cs| - 1;
      var pre := cs[..n];
      assert Consistent(pre) by {
        forall i | 0 <= i < n ensures pre[i] == cs[i] {}
      }
      RunSettles(games, pre);
      var p := ResultsRun(games, pre);
      assert ResultsRun(games, cs) == ResultsStep(p, cs[n]);
      assert cs == pre + [cs[n]];
      StepKeepsSettled(p, pre, cs[n]);
    }
  }

  /** A step for `c` after claims that agree with it leaves all of them, and `c`, settled. */
  lemma StepKeepsSettled(p: ResultsState, pre: seq<Claim>, c: Claim)
    requires UniqueGameExternalIds(p.games) && Settled(p.games, pre) && Consistent(pre + [c])
    ensures var r := ResultsStep(p, c); UniqueGameExternalIds(r.games) && Settled(r.games, pre + [c])
  {
    var cs := pre + [c];
    var r := ResultsStep(p, c);
    StepSettles(p, c, c);
    forall i | 0 <= i < |cs| ensures SettledAt(r.games, cs[i]) {
      if i < |pre| {
        assert cs[i] == pre[i];
        assert cs[|pre|] == c;
        StepSettles(p, c, pre[i]);
      }
    }
  }

  lemma {:induction false} SettledRunUpdatesNothing(games: Games, cs: seq<Claim>)
    requires UniqueGameExternalIds(games) && Settled(games, cs)
    ensures ResultsRun(games, cs).games == games
    ensures ResultsRun(games, cs).updated == 0
  {
    if cs != [] {
      var n := |cs| - 1;
      var pre := cs[..n];
      assert Settled(games, pre) by {
        forall i | 0 <= i < n ensures pre[i] == cs[i] {}
      }
      SettledRunUpdatesNothing(games, pre);
    }
  }

  /**
   * A second run over the same finished games updates nothing and skips every game,
   * provided games that share an external id agree on their winner.
   */
  lemma SecondRunIdle(teams: Teams, games: Games, fin: seq<HlGame>)
    requires UniqueTeamExternalIds(teams) && UniqueGameExternalIds(games) && Consistent(Claims(teams, fin))
    ensures var cs := Claims(teams, fin); var once := ResultsRun(games, cs).games;
      ResultsRun(once, cs).updated == 0 && ResultsRun(once, cs).skipped == |fin| &&
      ResultsRun(once, cs).games == once
  {
    var cs := Claims(teams, fin);
    RunSettles(games, cs);
    SettledRunUpdatesNothing(ResultsRun(games, cs).games, cs);
  }

  // ---------------------------------------------------------------------------
  // The route

  /** The environment the route reads; None for an unset or empty variable. */
  datatype Env = Env(cronSecret: Option<string>, rapidApiKey: Option<string>, highlightlyHost: Option<string>)

  datatype HlResponse = HlResponse(ok: bool, status: int, payload: HlPayload)

  datatype ResultsOutcome =
    | MissingEnv(name: string)             // 500 from assertEnv
    | Unauthorized                         // 401
    | ProviderError(status: int)           // 500
    | Synced(date: string, updated: nat, skipped: nat)

  predicate Set(v: Option<string>)
  {
    v.Some? && v.value != ""
  }

  /**
   * `POST`. `secretHeader` is the `x-cron-secret` header, `bodyDate` the body's
   * `date`, `today` the clock's date and `resp` the provider's answer.
   */
  method Post(db: Db, env: Env, secretHeader: Option<string>, bodyDate: Field<string>, today: string, resp: HlResponse)
    returns (res: ResultsOutcome)
    requires UniqueTeamExternalIds(db.teams) && UniqueGameExternalIds(db.games)
    modifies db
    ensures db.teams == old(db.teams) && db.pools == old(db.pools) && db.nextGameId == old(db.nextGameId)
    ensures !Set(env.cronSecret) ==> res == MissingEnv("CRON_SECRET")
    ensures Set(env.cronSecret) && secretHeader != env.cronSecret ==> res == Unauthorized
    ensures !res.Synced? ==> db.games == old(db.games)
    ensures res.Synced? <==>
      Set(env.cronSecret) && secretHeader == env.cronSecret && Set(env.rapidApiKey) && Set(env.highlightlyHost) && resp.ok
    ensures res.Synced? ==>
      var r := ResultsRun(old(db.games), Claims(old(db.teams), Finished(GamesOf(resp.payload))));
      res == Synced(if bodyDate.Val? then bodyDate.value else today, r.updated, r.skipped) && db.games == r.games
  {
    if !Set(env.cronSecret) {
      return MissingEnv("CRON_SECRET");
    }
    if secretHeader != env.cronSecret {
      return Unauthorized;
    }
    if !Set(env.rapidApiKey) {
      return MissingEnv("RAPIDAPI_KEY");
    }
    if !Set(env.highlightlyHost) {
      return MissingEnv("HIGHLIGHTLY_HOST");
    }
    var date := if bodyDate.Val? then bodyDate.value else today;
    if !resp.ok {
      return ProviderError(resp.status);
    }
    var finished := Finished(GamesOf(resp.payload));
    var updated, skipped := WriteResults(db, Claims(db.teams, finished));
    return Synced(date, updated, skipped);
  }
}

=== FILE: sync_scores.dfy ===
/**
 * app/api/admin/sync-scores/route.ts: for today and yesterday, reads SportsDataIO's
 * final games and writes the winner of every Final game whose row is linked by
 * `sportsdata_game_id`.
 */
module SyncScores {
  import opened Js
  import opened Store
  import SyncGames

  // ---------------------------------------------------------------------------
  // `ymd`

  /** A calendar date as `Date` reports it: full year, month from 0 and day of month. */
  datatype Day = Day(year: int, month0: int, date: int)

  /** `padStart(2, "0")` */
  function Pad2(s: string): (r: string)
    ensures |s| >= 2 ==> r == s
    ensures |s| < 2 ==> |r| == 2 && r[2 - |s|..] == s && forall i :: 0 <= i < 2 - |s| ==> r[i] == '0'
  {
    if |s| >= 2 then s else if |s| == 1 then "0" + s else "00"
  }

  /** `ymd`: the year, then the month (from 1) and the day, each padded to two digits, joined by '-'. */
  function Ymd(d: Day): string
  {
    IntToString(d.year) + "-" + Pad2(IntToString(d.month0 + 1)) + "-" + Pad2(IntToString(d.date))
  }

  /** Reads a "YYYY-MM-DD" string back into a `Day`. */
  function ParseYmd(s: string): Option<Day>
  {
    if |s| == 10 && s[4] == '-' && s[7] == '-' && AllDigits(s[..4]) && AllDigits(s[5..7]) && AllDigits(s[8..]) then
      Some(Day(DigitsValue(s[..4]), DigitsValue(s[5..7]) - 1, DigitsValue(s[8..])))
    else None
  }

  /** A date with a four-digit year. */
  predicate Valid(d: Day)
  {
    1000 <= d.year <= 9999 && 0 <= d.month0 <= 11 && 1 <= d.date <= 31
  }

  lemma TwoDigits(n: nat)
    requires 1 <= n <= 99
    ensures var p := Pad2(IntToString(n)); |p| == 2 && AllDigits(p) && DigitsValue(p) == n
  {
    var p := Pad2(IntToString(n));
    NatToStringRoundTrip(n);
    if n < 10 {
      assert p == ['0', DigitChar(n)];
      assert p[..1] == ['0'];
    } else {
      assert NatToString(n) == NatToString(n / 10) + [DigitChar(n % 10)];
    }
  }

  lemma FourDigits(n: nat)
    requires 1000 <= n <= 9999
    ensures |IntToString(n)| == 4 && AllDigits(IntToString(n)) && DigitsValue(IntToString(n)) == n
  {
    NatToStringRoundTrip(n);
    assert |NatToString(n / 1000)| == 1;
    assert |NatToString(n / 100)| == 2;
    assert |NatToString(n / 10)| == 3;
  }

  /** Where the fields of "YYYY-MM-DD" sit in the joined string. */
  lemma JoinedFields(y: string, mm: string, dd: string)
    requires |y| == 4 && |mm| == 2 && |dd| == 2
    ensures var s := y + "-" + mm + "-" + dd;
      |s| == 10 && s[4] == '-' && s[7] == '-' && s[..4] == y && s[5..7] == mm && s[8..] == dd
  {
    var s := y + "-" + mm + "-" + dd;
    assert s[..4] == y;
    assert s[5..7] == mm;
    assert s[8..] == dd;
  }

  /** A string laid out as "YYYY-MM-DD" with digit fields reads back field by field. */
  lemma ParseFields(s: string, y: string, mm: string, dd: string)
    requires |s| == 10 && s[4] == '-' && s[7] == '-' && s[..4] == y && s[5..7] == mm && s[8..] == dd
    requires AllDigits(y) && AllDigits(mm) && AllDigits(dd)
    ensures ParseYmd(s) == Some(Day(DigitsValue(y), DigitsValue(mm) - 1, DigitsValue(dd)))
  {
  }

  /** `ymd` gives ten characters "YYYY-MM-DD" that read back as the same date. */
  lemma YmdRoundTrip(d: Day)
    requires Valid(d)
    ensures |Ymd(d)| == 10
    ensures ParseYmd(Ymd(d)) == Some(d)
  {
    var y, mm, dd := IntToString(d.year), Pad2(IntToString(d.month0 + 1)), Pad2(IntToString(d.date));
    FourDigits(d.year);
    TwoDigits(d.month0 + 1);
    TwoDigits(d.date);
    JoinedFields(y, mm, dd);
    ParseFields(Ymd(d), y, mm, dd);
  }

  /** Different dates give different strings, so today and yesterday are fetched separately. */
  lemma YmdInjective(a: Day, b: Day)
    requires Valid(a) && Valid(b) && Ymd(a) == Ymd(b)
    ensures a == b
  {
    YmdRoundTrip(a);
    YmdRoundTrip(b);
  }

  // ---------------------------------------------------------------------------
  // Winner choice

  /** `homeScore > awayScore ? homeLocalId : awayLocalId`: a tie goes to the away team. */
  function WinnerOf(homeScore: int, awayScore: int, home: TeamId, away: TeamId): (w: TeamId)
    ensures homeScore > awayScore ==> w == home
    ensures homeScore <= awayScore ==> w == away
  {
    if homeScore > awayScore then home else away
  }

  /**
   * The two routes judge a tie differently: the game sync counts it and writes no
   * winner, while this job gives it to the away team.
   */
  lemma TieRulesDisagree(g: SyncGames.SdGame, home: TeamId, away: TeamId)
    requires g.isClosed && g.homeScore.Val? && g.awayScore.Val? && g.homeScore.value == g.awayScore.value
    ensures SyncGames.VerdictOf(g, home, away) == SyncGames.Tie
    ensures WinnerOf(g.homeScore.value, g.awayScore.value, home, away) == away
  {
  }

  // ---------------------------------------------------------------------------
  // The per-date loop

  /** One game of `GamesByDateFinal`. */
  datatype ScoreGame = ScoreGame(
    status: Field<string>,
    gameId: Field<int>,
    homeTeamId: Field<int>,
    awayTeamId: Field<int>,
    homeScore: Field<int>,
    awayScore: Field<int>)

  /** `g.Status === "Final"` */
  predicate IsFinal(g: ScoreGame)
  {
    g.status == Val("Final")
  }

  /** `map.get(id)` for the map built from `in("sportsdata_team_id", [home, away])`. */
  function LocalTeam(teams: Teams, sid: Field<int>): (r: Option<TeamId>)
    requires UniqueTeamSportsIds(teams)
    ensures r.Some? ==> sid.Val? && r.value in teams && teams[r.value].sportsdataTeamId == Some(sid.value)
    ensures r.None? ==> !sid.Val? || forall k :: k in teams ==> teams[k].sportsdataTeamId != Some(sid.value)
  {
    if sid.Val? then TeamBySportsId(teams, sid.value) else None
  }

  /**
   * The row and winner a Final game writes: None when the GameID is falsy, a score is
   * null or missing, no row is linked by the GameID, or a team does not resolve.
   */
  function Target(teams: Teams, games: Games, g: ScoreGame): (t: Option<(GameId, TeamId)>)
    requires UniqueTeamSportsIds(teams) && UniqueGameSportsIds(games)
    ensures t.Some? <==>
      TruthyInt(g.gameId) && g.homeScore.Val? && g.awayScore.Val? &&
      GameBySportsId(games, g.gameId.value).Some? &&
      LocalTeam(teams, g.homeTeamId).Some? && LocalTeam(teams, g.awayTeamId).Some?
    ensures t.Some? ==>
      t.value.0 in games && games[t.value.0].sportsdataGameId == Some(g.gameId.value) &&
      t.value.1 == WinnerOf(g.homeScore.value, g.awayScore.value,
                            LocalTeam(teams, g.homeTeamId).value, LocalTeam(teams, g.awayTeamId).value)
  {
    if !TruthyInt(g.gameId) || !g.homeScore.Val? || !g.awayScore.Val? then None
    else
      match GameBySportsId(games, g.gameId.value)
      case None => None
      case Some(k) =>
        var home := LocalTeam(teams, g.homeTeamId);
        var away := LocalTeam(teams, g.awayTeamId);
        if home.None? || away.None? then None
        else Some((k, WinnerOf(g.homeScore.value, g.awayScore.value, home.value, away.value)))
  }

  /** The counters of `runSync` and the store they run against. */
  datatype ScoresState = ScoresState(games: Games, finalsSeen: nat, updatedGames: nat)

  /** The store after writing `w` as the winner of row `k`: `update({ winner_team_id })`. */
  function WithWinner(games: Games, k: GameId, w: TeamId): (r: Games)
    requires k in games
    ensures SameSportsIds(games, r)
    ensures forall j :: j in games && j != k ==> r[j] == games[j]
    ensures r[k] == games[k].(winner := Some(w))
  {
    games[k := games[k].(winner := Some(w))]
  }

  /** One iteration of the inner loop: count a Final game, and write its winner when it has a target. */
  function ScoreStep(teams: Teams, s: ScoresState, g: ScoreGame): (r: ScoresState)
    requires UniqueTeamSportsIds(teams) && UniqueGameSportsIds(s.games)
    ensures SameSportsIds(s.games, r.games) && UniqueGameSportsIds(r.games)
    ensures r.finalsSeen == s.finalsSeen + (if IsFinal(g) then 1 else 0)
    ensures r.updatedGames == s.updatedGames + (if IsFinal(g) && Target(teams, s.games, g).Some? then 1 else 0)
    ensures IsFinal(g) && Target(teams, s.games, g).Some? ==>
      r.games == WithWinner(s.games, Target(teams, s.games, g).value.0, Target(teams, s.games, g).value.1)
    ensures !(IsFinal(g) && Target(teams, s.games, g).Some?) ==> r.games == s.games
  {
    var t := Target(teams, s.games, g);
    if !IsFinal(g) then s
    else if t.None? then s.(finalsSeen := s.finalsSeen + 1)
    else
      var r := ScoresState(WithWinner(s.games, t.value.0, t.value.1), s.finalsSeen + 1, s.updatedGames + 1);
      SameSportsIdsLookup(s.games, r.games, 0);
      r
  }

  /** The inner loop over one date's games. */
  function DayRun(teams: Teams, s: ScoresState, gs: seq<ScoreGame>): (r: ScoresState)
    requires UniqueTeamSportsIds(teams) && UniqueGameSportsIds(s.games)
    ensures SameSportsIds(s.games, r.games) && UniqueGameSportsIds(r.games)
    ensures s.finalsSeen <= r.finalsSeen <= s.finalsSeen + |gs|
    ensures r.updatedGames - s.updatedGames <= r.finalsSeen - s.finalsSeen
    decreases |gs|
  {
    if gs == [] then s
    else ScoreStep(teams, DayRun(teams, s, gs[..|gs| - 1]), gs[|gs| - 1])
  }

  /** The day's run over one more game is one more step. */
  lemma DayRunNext(teams: Teams, s: ScoresState, gs: seq<ScoreGame>, i: int)
    requires UniqueTeamSportsIds(teams) && UniqueGameSportsIds(s.games) && 0 <= i < |gs|
    ensures DayRun(teams, s, gs[..i + 1]) == ScoreStep(teams, DayRun(teams, s, gs[..i]), gs[i])
  {
    assert gs[..i + 1][..i] == gs[..i];
  }

  /** The body of `for (const g of games ?? [])`: the lookups and the write of one game. */
  method ScoreOne(db: Db, s: ScoresState, g: ScoreGame) returns (r: ScoresState)
    requires UniqueTeamSportsIds(db.teams) && UniqueGameSportsIds(db.games) && s.games == db.games
    modifies db
    ensures r == ScoreStep(old(db.teams), s, g) && r.games == db.games
    ensures db.teams == old(db.teams) && db.pools == old(db.pools) && db.nextGameId == old(db.nextGameId)
  {
    r := s;
    if !IsFinal(g) {
      return;
    }
    r := r.(finalsSeen := r.finalsSeen + 1);
    if !TruthyInt(g.gameId) || !g.homeScore.Val? || !g.awayScore.Val? {
      return;
    }
    var row := GameBySportsId(db.games, g.gameId.value);
    if row.None? {
      return;
    }
    var home := LocalTeam(db.teams, g.homeTeamId);
    var away := LocalTeam(db.teams, g.awayTeamId);
    if home.None? || away.None? {
      return;
    }
    var w := WinnerOf(g.homeScore.value, g.awayScore.value, home.value, away.value);
    assert Target(db.teams, s.games, g) == Some((row.value, w));
    db.UpdateGame(row.value, db.games[row.value].(winner := Some(w)));
    r := r.(games := db.games, updatedGames := r.updatedGames + 1);
  }

  /** The loop `for (const g of games ?? [])`, writing through the store. */
  method ScoreDay(db: Db, s: ScoresState, gs: seq<ScoreGame>) returns (r: ScoresState)
    requires UniqueTeamSportsIds(db.teams) && UniqueGameSportsIds(db.games) && s.games == db.games
    modifies db
    ensures r == DayRun(old(db.teams), s, gs) && r.games == db.games
    ensures db.teams == old(db.teams) && db.pools == old(db.pools) && db.nextGameId == old(db.nextGameId)
  {
    r := s;
    var i := 0;
    while i < |gs|
      invariant 0 <= i <= |gs|
      invariant db.teams == old(db.teams) && db.pools == old(db.pools) && db.nextGameId == old(db.nextGameId)
      invariant UniqueGameSportsIds(s.games)
      invariant r == DayRun(db.teams, s, gs[..i]) && r.games == db.games
    {
      DayRunNext(db.teams, s, gs, i);
      r := ScoreOne(db, r, gs[i]);
      i := i + 1;
    }
    assert gs[..i] == gs;
  }

  // ---------------------------------------------------------------------------
  // The dates loop and the route

  /** The answer of `GamesByDateFinal/{date}`: `games ?? []` is the list, empty for a null body. */
  datatype DayResponse = DayResponse(ok: bool, status: int, games: seq<ScoreGame>)

  /** The state after the dates loop, and the status of the response that stopped it, if any. */
  datatype RunResult = RunResult(state: ScoresState, failed: Option<int>)

  /**
   * The dates loop over the first `n` dates: each date's response is read in turn; a
   * response that is not ok stops the loop (`throw`), keeping what earlier dates wrote.
   */
  function DatesRun(teams: Teams, games: Games, dates: seq<string>, n: nat, fetch: string -> DayResponse): (r: RunResult)
    requires UniqueTeamSportsIds(teams) && UniqueGameSportsIds(games)
    requires n <= |dates|
    ensures SameSportsIds(games, r.state.games)
    ensures r.state.updatedGames <= r.state.finalsSeen
  {
    if n == 0 then RunResult(ScoresState(games, 0, 0), None)
    else
      var p := DatesRun(teams, games, dates, n - 1, fetch);
      var resp := fetch(dates[n - 1]);
      SameSportsIdsLookup(games, p.state.games, 0);
      if p.failed.Some? then p
      else if !resp.ok then RunResult(p.state, Some(resp.status))
      else RunResult(DayRun(teams, p.state, resp.games), None)
  }

  /** The dates loop, writing through the store; it stops at the first response that is not ok. */
  method ScoreDates(db: Db, dates: seq<string>, fetch: string -> DayResponse) returns (run: RunResult)
    requires UniqueTeamSportsIds(db.teams) && UniqueGameSportsIds(db.games)
    modifies db
    ensures run == DatesRun(old(db.teams), old(db.games), dates, |dates|, fetch) && run.state.games == db.games
    ensures db.teams == old(db.teams) && db.pools == old(db.pools) && db.nextGameId == old(db.nextGameId)
  {
    var s := ScoresState(db.games, 0, 0);
    var i := 0;
    while i < |dates|
      invariant 0 <= i <= |dates|
      invariant db.teams == old(db.teams) && db.pools == old(db.pools) && db.nextGameId == old(db.nextGameId)
      invariant DatesRun(db.teams, old(db.games), dates, i, fetch) == RunResult(s, None)
      invariant s.games == db.games && UniqueGameSportsIds(db.games)
      invariant SameSportsIds(old(db.games), db.games)
    {
      var resp := fetch(dates[i]);
      if !resp.ok {
        run := RunResult(s, Some(resp.status));
        RunStops(db.teams, old(db.games), dates, i + 1, |dates|, fetch);
        return;
      }
      ghost var want := DatesRun(db.teams, old(db.games), dates, i + 1, fetch);
      assert want == RunResult(DayRun(db.teams, s, resp.games), None);
      s := ScoreDay(db, s, resp.games);
      assert want == RunResult(s, None);
      assert UniqueGameSportsIds(db.games);
      assert SameSportsIds(old(db.games), db.games);
      i := i + 1;
    }
    run := RunResult(s, None);
  }

  /** Once a response has stopped the loop, later dates change nothing. */
  lemma {:induction false} RunStops(teams: Teams, games: Games, dates: seq<string>, n: nat, k: nat, fetch: string -> DayResponse)
    requires UniqueTeamSportsIds(teams) && UniqueGameSportsIds(games)
    requires n <= k <= |dates| && DatesRun(teams, games, dates, n, fetch).failed.Some?
    ensures DatesRun(teams, games, dates, k, fetch) == DatesRun(teams, games, dates, n, fetch)
    decreases k
  {
    if n < k {
      RunStops(teams, games, dates, n, k - 1, fetch);
    }
  }

  /** The answer of `GET`/`POST`. */
  datatype ScoresOutcome =
    | Failed(message: string)
    | ProviderError(status: int)
    | Synced(dates: seq<string>, finalsSeen: nat, updatedGames: nat)

  /**
   * `runSync`: with the key set, reads today's and yesterday's final games and writes
   * their winners; the clock is the two dates passed in, and `fetch` answers each date.
   */
  method RunSync(db: Db, key: Field<string>, today: Day, yesterday: Day, fetch: string -> DayResponse)
    returns (res: ScoresOutcome)
    requires UniqueTeamSportsIds(db.teams) && UniqueGameSportsIds(db.games)
    modifies db
    ensures db.teams == old(db.teams) && db.pools == old(db.pools) && db.nextGameId == old(db.nextGameId)
    ensures !TruthyStr(key) <==> res == Failed("SPORTS_DATA_IO_KEY is missing")
    ensures !TruthyStr(key) ==> db.games == old(db.games)
    ensures TruthyStr(key) ==>
      var run := DatesRun(old(db.teams), old(db.games), [Ymd(today), Ymd(yesterday)], 2, fetch);
      db.games == run.state.games &&
      (run.failed.Some? ==> res == ProviderError(run.failed.value)) &&
      (run.failed.None? ==>
         res == Synced([Ymd(today), Ymd(yesterday)], run.state.finalsSeen, run.state.updatedGames))
  {
    if !TruthyStr(key) {
      return Failed("SPORTS_DATA_IO_KEY is missing");
    }
    var dates := [Ymd(today), Ymd(yesterday)];
    var run := ScoreDates(db, dates, fetch);
    if run.failed.Some? {
      return ProviderError(run.failed.value);
    }
    return Synced(dates, run.state.finalsSeen, run.state.updatedGames);
  }

  // ---------------------------------------------------------------------------
  // Running the job again

  /**
   * The winner the last game of `gs` that writes row `k` gives it, if any. It reads the
   * store only through sportsdata_game_id, which the job never changes.
   */
  function LastWrite(teams: Teams, games: Games, gs: seq<ScoreGame>, k: GameId): Option<TeamId>
    requires UniqueTeamSportsIds(teams) && UniqueGameSportsIds(games)
    decreases |gs|
  {
    if gs == [] then None
    else
      var g := gs[|gs| - 1];
      var t := Target(teams, games, g);
      if IsFinal(g) && t.Some? && t.value.0 == k then Some(t.value.1)
      else LastWrite(teams, games, gs[..|gs| - 1], k)
  }

  /** Two stores with the same sportsdata_game_id on the same rows resolve every game alike. */
  lemma TargetSame(teams: Teams, a: Games, b: Games, g: ScoreGame)
    requires UniqueTeamSportsIds(teams) && UniqueGameSportsIds(a) && SameSportsIds(a, b)
    ensures UniqueGameSportsIds(b)
    ensures Target(teams, a, g) == Target(teams, b, g)
  {
    if g.gameId.Val? {
      SameSportsIdsLookup(a, b, g.gameId.value);
    } else {
      SameSportsIdsLookup(a, b, 0);
    }
  }

  /** Every row after a day's loop holds the winner its last write gave it, and is otherwise unchanged. */
  lemma {:induction false} DayRunRows(teams: Teams, s: ScoresState, gs: seq<ScoreGame>, k: GameId)
    requires UniqueTeamSportsIds(teams) && UniqueGameSportsIds(s.games) && k in s.games
    ensures LastWrite(teams, s.games, gs, k).None? ==> DayRun(teams, s, gs).games[k] == s.games[k]
    ensures LastWrite(teams, s.games, gs, k).Some? ==>
      DayRun(teams, s, gs).games[k] == s.games[k].(winner := Some(LastWrite(teams, s.games, gs, k).value))
    decreases |gs|
  {
    if gs != [] {
      var pre := gs[..|gs| - 1];
      var g := gs[|gs| - 1];
      var p := DayRun(teams, s, pre);
      DayRunRows(teams, s, pre, k);
      TargetSame(teams, s.games, p.games, g);
      assert DayRun(teams, s, gs) == ScoreStep(teams, p, g);
      var t := Target(teams, s.games, g);
      if IsFinal(g) && t.Some? && t.value.0 == k {
        assert LastWrite(teams, s.games, gs, k) == Some(t.value.1);
      } else {
        assert LastWrite(teams, s.games, gs, k) == LastWrite(teams, s.games, pre, k);
      }
    }
  }

  /** Two stores that agree on sportsdata_game_id get the same last write on every row. */
  lemma {:induction false} LastWriteSame(teams: Teams, a: Games, b: Games, gs: seq<ScoreGame>, k: GameId)
    requires UniqueTeamSportsIds(teams) && UniqueGameSportsIds(a) && SameSportsIds(a, b)
    ensures UniqueGameSportsIds(b)
    ensures LastWrite(teams, a, gs, k) == LastWrite(teams, b, gs, k)
    decreases |gs|
  {
    SameSportsIdsLookup(a, b, 0);
    if gs != [] {
      TargetSame(teams, a, b, gs[|gs| - 1]);
      LastWriteSame(teams, a, b, gs[..|gs| - 1], k);
    }
  }

  /** Two stores that agree on sportsdata_game_id get the same counts from a day's loop. */
  lemma {:induction false} DayRunCountsSame(teams: Teams, a: ScoresState, b: ScoresState, gs: seq<ScoreGame>)
    requires UniqueTeamSportsIds(teams) && UniqueGameSportsIds(a.games) && SameSportsIds(a.games, b.games)
    requires a.finalsSeen == b.finalsSeen && a.updatedGames == b.updatedGames
    ensures UniqueGameSportsIds(b.games)
    ensures DayRun(teams, a, gs).finalsSeen == DayRun(teams, b, gs).finalsSeen
    ensures DayRun(teams, a, gs).updatedGames == DayRun(teams, b, gs).updatedGames
    decreases |gs|
  {
    SameSportsIdsLookup(a.games, b.games, 0);
    if gs != [] {
      var pre := gs[..|gs| - 1];
      DayRunCountsSame(teams, a, b, pre);
      var pa := DayRun(teams, a, pre);
      var pb := DayRun(teams, b, pre);
      SameSportsIdsThrough(a.games, b.games, pa.games, pb.games);
      StepCountsSame(teams, pa, pb, gs[|gs| - 1]);
    }
  }

  lemma SameSportsIdsThrough(a: Games, b: Games, pa: Games, pb: Games)
    requires SameSportsIds(a, b) && SameSportsIds(a, pa) && SameSportsIds(b, pb)
    ensures SameSportsIds(pa, pb)
  {
  }

  lemma StepCountsSame(teams: Teams, pa: ScoresState, pb: ScoresState, g: ScoreGame)
    requires UniqueTeamSportsIds(teams) && UniqueGameSportsIds(pa.games) && SameSportsIds(pa.games, pb.games)
    requires pa.finalsSeen == pb.finalsSeen && pa.updatedGames == pb.updatedGames
    ensures UniqueGameSportsIds(pb.games)
    ensures ScoreStep(teams, pa, g).finalsSeen == ScoreStep(teams, pb, g).finalsSeen
    ensures ScoreStep(teams, pa, g).updatedGames == ScoreStep(teams, pb, g).updatedGames
  {
    TargetSame(teams, pa.games, pb.games, g);
  }

  /**
   * The job does not skip games whose winner is already written: running a day's loop
   * again over the store it left counts every write again, and leaves the store as
   * the first run left it.
   */
  lemma RerunRewrites(teams: Teams, games: Games, gs: seq<ScoreGame>)
    requires UniqueTeamSportsIds(teams) && UniqueGameSportsIds(games)
    ensures var first := DayRun(teams, ScoresState(games, 0, 0), gs);
      var second := DayRun(teams, ScoresState(first.games, 0, 0), gs);
      second.updatedGames == first.updatedGames && second.finalsSeen == first.finalsSeen &&
      second.games == first.games
  {
    var first := DayRun(teams, ScoresState(games, 0, 0), gs);
    var s2 := ScoresState(first.games, 0, 0);
    var second := DayRun(teams, s2, gs);
    DayRunCountsSame(teams, ScoresState(games, 0, 0), s2, gs);
    forall k | k in first.games
      ensures second.games[k] == first.games[k]
    {
      DayRunRows(teams, ScoresState(games, 0, 0), gs, k);
      DayRunRows(teams, s2, gs, k);
      LastWriteSame(teams, games, first.games, gs, k);
    }
  }
}
